=== FILE: README.md ===
# Myddleware document engine — a Dafny model

Myddleware moves records between applications by way of *documents*. A
document is one record of one synchronisation rule on its way from the
source application to the target application. The class `DocumentManager`
(`src/Manager/DocumentManager.php`) drives a single document through its
stages:

- filter the source record;
- check for an earlier document of the same record that is still open (the
  predecessor);
- check the parent documents its relationships need;
- transform the source record into the target record;
- read the target application to decide between create, update, search or
  no send.

Every stage records the new status and its side effects in the document,
data, relationship and log tables.

This project models that engine as pure functions. Each stage maps a
`World` to a new `World` and usually a success flag:

- `World` pairs the engine's in-memory attributes (`Engine`) with the tables
  it reads and writes (`Db`).
- Everything outside the class is a field of `Env`: the rules and their
  parameters, the clock, the new-document id, the outcome of each kind of
  document write, whether log and data writes succeed, the formula evaluator, the target application's answer to a
  read, the module fields and the outcome of the child-rule run.

The modules follow the class:

| module | what it covers |
|---|---|
| `Strings`, `Values` | the PHP string and value operations the class relies on: `trim`, `strtoupper`, `stripos`, `explode`, loose `==`, `empty()`, undefined keys read as null |
| `Numeric` | PHP 8 numeric strings and their exact comparison, behind loose `==` and `<`/`>` |
| `Statuses` | the status, global-status and type tables |
| `Rules` | rule configuration and relationship direction |
| `Messages` | log notes |
| `Store` | the SQL queries, as selections over the tables |
| `Engine` | `updateStatus`, `updateType`, `updateTargetId`, `updateDeleteFlag`, `createDocLog` |
| `Reset` | `setDocument`, `setParam`, `clearAttributes`, `setRuleParam` |
| `Filters` | `filterDocument`, `checkFilter` |
| `Relate` | `getTargetId`, `searchRelateDocumentByStatus` |
| `Classify` | `checkRecordExist` |
| `Predecessor` | `ckeckPredecessorDocument` |
| `Parents` | `ckeckParentDocument` |
| `Snapshot` | `insertDataTable`, `updateHistoryTable`, `getDocumentData`, `getTargetFields` |
| `Transform` | `transformDocument`, `getTransformValue`, `updateTargetTable` |
| `TargetRead` | `getTargetDataDocument`, `getDocumentHistory`, `checkNoChange` |
| `Cancel` | `documentCancel` |

`Engine.Step(w, r)` is the frame every stage keeps. It says that:

- the message trail only grows;
- document rows keep their ids, rules and source ids;
- data and relationship rows are only appended;
- stored global statuses stay those the status table gives.

All source cells below refer to `src/Manager/DocumentManager.php`.

## Model

| member | source | states |
|---|---|---|
| Strings.TrimLeft | src/Manager/DocumentManager.php:1654 | `ltrim` removes exactly the leading whitespace: the result is a suffix of the input, everything cut off is whitespace, and the result does not start with whitespace |
| Strings.TrimRight | src/Manager/DocumentManager.php:1103 | the right half of `trim`: the result is a prefix, everything cut off is whitespace, and the result does not end with whitespace |
| Strings.Trim | src/Manager/DocumentManager.php:1103 | `trim` yields a text that neither starts nor ends with whitespace, and it yields "" exactly when the input is all whitespace |
| Strings.UpperIdempotent | src/Manager/DocumentManager.php:482-553 | `strtoupper` leaves no lower-case ASCII letter, keeps every other character, and applying it twice is applying it once |
| Strings.Split | src/Manager/DocumentManager.php:499 | `explode` always yields at least one piece, and no piece contains the separator |
| Strings.JoinSplit | src/Manager/DocumentManager.php:499 | joining the pieces of `explode` with the separator gives back the original text |
| Strings.SplitJoin | src/Manager/DocumentManager.php:499 | `explode` of a join of separator-free pieces gives back exactly those pieces |
| Strings.FindFrom | src/Manager/DocumentManager.php:467 | the first position at or after `i` where the needle occurs; none when there is no such position |
| Strings.Stripos | src/Manager/DocumentManager.php:467-475 | `stripos` finds a position exactly when the upper-cased needle occurs somewhere in the upper-cased haystack |
| Strings.LexCmp | src/Manager/DocumentManager.php:512-539 | string comparison gives -1, 0 or 1, and 0 exactly for equal strings |
| Strings.LexCmpAntisymmetric | src/Manager/DocumentManager.php:512-539 | swapping the operands of string comparison flips its sign |
| Numeric.ParseNumeric | src/Manager/DocumentManager.php:512-553 | a PHP 8 numeric string (optional whitespace, sign, digits with an optional point, optional exponent, whitespace) parses to a decimal; a text without any digit is never numeric |
| Numeric.DecCmp | src/Manager/DocumentManager.php:512-539 | numbers compare as -1, 0 or 1 |
| Numeric.DecCmpAntisymmetric | src/Manager/DocumentManager.php:512-539 | swapping two numbers flips their comparison, and a number equals itself |
| Numeric.DecCmpScale | src/Manager/DocumentManager.php:540-553 | scaling the mantissa by ten and lowering the exponent gives the same number, and -0 equals 0 |
| Numeric.DigitsValueZeros | src/Manager/DocumentManager.php:540-553 | appending n zeros to a digit string multiplies its value by 10^n |
| Numeric.ParseSignedDigits | src/Manager/DocumentManager.php:512-553 | an optionally signed digit string is numeric with exactly that integer value |
| Numeric.ParseFraction | src/Manager/DocumentManager.php:540-553 | `a.b` is numeric with the digits of a and b as mantissa and exponent minus the length of b |
| Numeric.SameNumber | src/Manager/DocumentManager.php:540-553 | a mantissa p = m·10^k with exponent -k is the same number as m |
| Values.EmptyTextOfEmpty | src/Manager/DocumentManager.php:762 | an `empty()` value has an empty-looking text, and for strings the two tests agree |
| Values.NumericValue | src/Manager/DocumentManager.php:512-553 | an integer is numeric with its own value, null is never numeric, and a string is numeric exactly when it parses as a PHP numeric string |
| Values.TextIsNumeric | src/Manager/DocumentManager.php:540-553 | the text of an integer is a numeric string with the same value |
| Values.Cmp | src/Manager/DocumentManager.php:512-539 | the comparison behind `>`, `<`, `<=` and `>=` is a three-way result: two integers compare as integers, two non-numeric operands compare as byte strings, and numeric strings compare by their numeric value (PHP 8) |
| Values.CmpAntisymmetric | src/Manager/DocumentManager.php:512-539 | swapping the operands of the comparison flips its sign, so `a > b` is `b < a` |
| Values.LooseEqSymmetric | src/Manager/DocumentManager.php:540-553 | loose `==` is reflexive and symmetric |
| Values.LooseEqIntegers | src/Manager/DocumentManager.php:540-553 | two integers are loosely equal exactly when they are equal, and an integer is loosely equal to its text |
| Values.ZeroFractionEqual | src/Manager/DocumentManager.php:1100-1116 | a digit string with a zero fraction (`"10.00"`) is loosely equal to the digits alone (`"10"`) |
| Values.ZeroFractionEqualsInteger | src/Manager/DocumentManager.php:540-553 | `"n.000"` is loosely equal to the integer n |
| Values.OtherTextsByBytes | src/Manager/DocumentManager.php:540-553 | non-numeric strings compare byte for byte (`"abc" != "ABC"`), and PHP 8 no longer makes `"abc" == 0` nor `null == "0"` |
| Values.StrLooseEqBytes | src/Manager/DocumentManager.php:540-553 | when either string is not numeric, loose equality is byte equality; equal strings are always loosely equal |
| Values.LooselyInBytes | src/Manager/DocumentManager.php:498-511 | non-strict `in_array` finds every item present byte for byte, and for a non-numeric needle it finds exactly those |
| Statuses.GlobalOfMatchesTable | src/Manager/DocumentManager.php:81-100 | every status has an entry in the global-status table, and the model's global status is that entry |
| Statuses.ParseStatus | src/Manager/DocumentManager.php:159-179 | a parsed status name gives back the same name |
| Statuses.ParseStatusName | src/Manager/DocumentManager.php:159-179 | every status name parses back to its status |
| Statuses.TableKeysAreStatuses | src/Manager/DocumentManager.php:81-100 | every key of the global-status table is a status name |
| Statuses.GlobalRank | src/Manager/DocumentManager.php:149-157 | the order key of a global status lies between 0 and 3 |
| Statuses.GlobalRankIsNameOrder | src/Manager/DocumentManager.php:1691 | ordering by the rank is the same as ordering by the stored names, as `ORDER BY global_status` does |
| Rules.FindParam | src/Manager/DocumentManager.php:1642-1660 | a parameter is found exactly when a row of that rule has that name, and the value comes from such a row |
| Rules.LoadParams | src/Manager/DocumentManager.php:1642-1660 | loading keeps every parameter already there and adds every parameter of the rule |
| Rules.LoadParamsUntouched | src/Manager/DocumentManager.php:1642-1660 | a parameter that no row of the rule names keeps its earlier value |
| Rules.LoadParamsLastWins | src/Manager/DocumentManager.php:1652-1655 | the last row of a parameter decides its value, left-trimmed |
| Rules.FindRule | src/Manager/DocumentManager.php:1504-1520 | the rule found has the requested id; none means no rule has it |
| Rules.FindById | src/Manager/DocumentManager.php:2072-2100 | the row found by primary key has the requested id, and none is found exactly when no row has it |
| Rules.Direction | src/Manager/DocumentManager.php:2072-2100 | a relationship direction, when known, is 1 or -1 |
| Rules.DirectionCases | src/Manager/DocumentManager.php:2072-2100 | the direction is known exactly when both rules exist, and it is -1 exactly when the rules' source connectors differ and the rule's source is the related rule's target |
| Rules.ChildLinks | src/Manager/DocumentManager.php:613-624 | the rows the child-rule query joins on are exactly the parent relationships of the live rule towards a live child rule |
| Rules.ChildRuleIds | src/Manager/DocumentManager.php:613-624 | the child rules of a rule (corrected query): exactly the rules its parent relationships point to |
| Rules.ChildRuleIdsAsWritten | src/Manager/DocumentManager.php:613-624 | the `SELECT DISTINCT` as written returns the rule itself, once, when it has a child rule, and nothing otherwise |
| Rules.ChildRuleIdsAsWrittenIsSelf | src/Manager/DocumentManager.php:613-628 | the rule appears among its own "child rules" exactly when it has a real child rule |
| Messages.AllNotes | src/Manager/DocumentManager.php:2264-2285 | every note of every flushed log row is among the flushed notes, and every flushed note comes from some row; an empty log holds none |
| Messages.AllNotesAppend | src/Manager/DocumentManager.php:2264-2285 | adding a log row adds exactly its notes at the end of the log's notes |
| Store.KeyOrder | src/Manager/DocumentManager.php:1691 | the sort key of `ORDER BY a DESC, b DESC, c DESC` is a strict total order |
| Store.FindFirst | src/Manager/DocumentManager.php:584 | `LIMIT 1` without ordering returns the first matching row; none when no row matches |
| Store.Best | src/Manager/DocumentManager.php:1691-1692 | `ORDER BY ... DESC LIMIT 1` returns a matching row that no other matching row exceeds, and none exactly when no row matches |
| Store.BestRow | src/Manager/DocumentManager.php:1691-1692 | the row picked by the ordered query is a matching row of the table |
| Store.FirstRow | src/Manager/DocumentManager.php:584 | the row picked by `LIMIT 1` is a matching row of the table |
| Store.RowsWhere | src/Manager/DocumentManager.php:1554 | `fetchAllAssociative` returns exactly the matching rows |
| Store.UpdateWhere | src/Manager/DocumentManager.php:1893-1939 | `UPDATE ... WHERE id = :id` changes the rows with that id and no others |
| Store.FindFirstAppend | src/Manager/DocumentManager.php:1195-1202 | appending a row never changes an earlier first match, and it becomes the first match when there was none |
| Store.FindData | src/Manager/DocumentManager.php:1189-1211 | a stored snapshot is found exactly when the document has a data row of that kind, and it is that row's record |
| Store.FindDataAppend | src/Manager/DocumentManager.php:1189-1291 | inserting a snapshot leaves an earlier snapshot of that kind in force, and it is found when there was none |
| Store.Blocker | src/Manager/DocumentManager.php:571-650 | the predecessor query returns an earlier open or error document of the same rule and record, and none exactly when there is no such document |
| Store.RelaxedBlockerIsBlocker | src/Manager/DocumentManager.php:631-650 | every document that blocks under the relaxed child-rule query also blocks under the plain one |
| Store.ClassifyQuery | src/Manager/DocumentManager.php:1672-1715 | the classification query returns a classifiable document, and none exactly when there is none |
| Store.ResolveQuery | src/Manager/DocumentManager.php:2109-2145 | the relationship query returns the newest document that settles the related record, and none exactly when no document does |
| Store.Children | src/Manager/DocumentManager.php:1546-1560 | the child documents are exactly the rows with that parent id that are not deleted |
| Engine.Say | src/Manager/DocumentManager.php:2264-2285 | a message adds one note to the trail and changes nothing else |
| Engine.Fail | src/Manager/DocumentManager.php:1859-1865 | an error adds one note, makes the severity Error and changes nothing else |
| Engine.CreateDocLog | src/Manager/DocumentManager.php:2264-2285 | a successful log write appends one row with the pending messages and clears them; a failed one changes nothing; other tables are untouched |
| Engine.UpdateStatus | src/Manager/DocumentManager.php:1893-1939 | the document's rows take the new status with the counter and the time, and no other row changes; the engine takes the status, or on a failed write keeps it and marks an error; the status note is logged; the counter moves by at most one |
| Engine.UpdateStatusRow | src/Manager/DocumentManager.php:1900-1930 | the attempt counter moves by one exactly when the status table maps the status to the global status Error or Close; the written rows hold the status, that global status, the counter and the time |
| Engine.UpdateType | src/Manager/DocumentManager.php:2006-2034 | the document's row takes the type and the time, no other row changes, and a failed write marks an error |
| Engine.UpdateTargetId | src/Manager/DocumentManager.php:2037-2070 | the document's row takes the target id and the time, the result says whether the write succeeded, and no other row changes |
| Engine.UpdateTargetIdStep | src/Manager/DocumentManager.php:2037-2070 | writing the target id keeps the table frame |
| Engine.UpdateDeleteFlag | src/Manager/DocumentManager.php:1888-1971 | the document's row takes the deletion flag and no other row changes; the status-table consistency is kept |
| Engine.DeleteRestore | src/Manager/DocumentManager.php:1888-1971 | deleting and then restoring a document gives back every row as it was, apart from the modification date |
| Reset.ClearAttributes | src/Manager/DocumentManager.php:310-342 | a reset forgets the document and its messages; it forgets the rule only when asked to, and it keeps the severity |
| Reset.ClearAttributesIdempotent | src/Manager/DocumentManager.php:310-342 | resetting twice is resetting once, and a full reset depends only on the severity |
| Reset.SetDocument | src/Manager/DocumentManager.php:191-244 | a loaded document is the stored row with that id, and the engine takes its rule, status, type, ids, attempts and source record; without one the engine is left as it was |
| Reset.LookupDocument | src/Manager/DocumentManager.php:193-211 | the joined query returns a stored row with the requested non-empty id whose rule and mode are configured |
| Reset.DocIndex | src/Manager/DocumentManager.php:193-211 | the index found is the first row with the id; none exactly when no row has it |
| Reset.SetDocumentLoadable | src/Manager/DocumentManager.php:191-244 | a document loads exactly when its row exists and its rule and mode are configured |
| Reset.TakeParamsIdempotent | src/Manager/DocumentManager.php:260-271 | parameters without a job id, parent id or index leave the engine as it was; each one given takes effect; taking the same parameters twice is taking them once |
| Reset.StartNew | src/Manager/DocumentManager.php:277-293 | a new document gets a fresh id, the time, status New and the record's id as source id, and it is a Delete exactly when the record carries the deletion flag |
| Reset.TakeRule | src/Manager/DocumentManager.php:294-304 | the rule parameters load only when none are present, and the given fields and relationships replace the engine's only when non-empty |
| Reset.SetParam | src/Manager/DocumentManager.php:248-307 | without a document id a new document starts from the record; with one the stored document loads; the severity is reset to success |
| Reset.SetDocumentSeverity | src/Manager/DocumentManager.php:191-244 | loading a document does not touch the severity |
| Reset.SetParamForgets | src/Manager/DocumentManager.php:248-342 | after a full reset, the result does not depend on the engine's earlier state |
| Filters.ParseOperator | src/Manager/DocumentManager.php:463-559 | every operator name parses to an operator that prints back as that name |
| Filters.ParseOperatorName | src/Manager/DocumentManager.php:466-553 | every known operator's name parses back to it |
| Filters.Head | src/Manager/DocumentManager.php:483 | `substr($s, 0, n)` is a prefix of length min(n, |s|), and the rest of the string completes it back to s |
| Filters.Tail | src/Manager/DocumentManager.php:491 | `substr($s, -n)` is a suffix of length n, or the whole string when n is 0 or not smaller than its length; the string is what precedes it plus it |
| Filters.NotContentComplement | src/Manager/DocumentManager.php:466-481 | `notcontent` passes exactly when `content` does not |
| Filters.NotInComplement | src/Manager/DocumentManager.php:498-511 | `notin` passes exactly when `in` does not |
| Filters.DifferentComplement | src/Manager/DocumentManager.php:540-553 | `different` passes exactly when `equal` does not |
| Filters.OrderComplements | src/Manager/DocumentManager.php:512-539 | `gteq` is the negation of `lt` and `lteq` the negation of `gt` |
| Filters.UnknownNeverPasses | src/Manager/DocumentManager.php:554-558 | an unknown operator never lets a document through |
| Filters.CheckFilterMirror | src/Manager/DocumentManager.php:512-539 | `a gt b` is `b lt a` and `a gteq b` is `b lteq a` |
| Filters.OrderOperators | src/Manager/DocumentManager.php:512-539 | `gt`, `lt`, `gteq` and `lteq` are the three-way comparison against 0 |
| Filters.BeginIsPrefix | src/Manager/DocumentManager.php:482-489 | an upper-cased filter that is a prefix of the upper-cased field passes `begin`; when the upper-cased filter is not a numeric string, `begin` passes exactly then |
| Filters.EndIsSuffix | src/Manager/DocumentManager.php:490-497 | an upper-cased filter that is a suffix of the upper-cased field passes `end` (an empty filter matches only an empty field); when the upper-cased filter is not a numeric string, `end` passes exactly then |
| Filters.TailIsSuffix | src/Manager/DocumentManager.php:490-497 | the upper-cased tail of the field's length equals the upper-cased filter exactly when it is a suffix (an empty filter matches only an empty field) |
| Filters.UpperJoin | src/Manager/DocumentManager.php:499 | upper-casing a `;`-list upper-cases each item |
| Filters.InList | src/Manager/DocumentManager.php:498-504 | `in` against a `;`-list passes exactly when the upper-cased field is loosely equal (`in_array` is not strict) to one of the upper-cased items |
| Filters.InIsMembership | src/Manager/DocumentManager.php:498-504 | `in` passes exactly when the upper-cased field is loosely equal to some `;`-piece of the upper-cased filter |
| Filters.FilterLoop | src/Manager/DocumentManager.php:386-396 | the loop reports the first failing filter, every earlier filter passing, and the document is filtered out by it; it reports none exactly when every filter passes, and then changes nothing |
| Filters.FilterOut | src/Manager/DocumentManager.php:389-391 | a failing filter logs the failed comparison and the status note, and sets the status Filter when the write succeeds |
| Filters.FilterDocument | src/Manager/DocumentManager.php:375-411 | an inactive job (and only an inactive job) does nothing; an active one passes (status Filter_OK) exactly when every filter passes, and otherwise is filtered out at the first failing filter, every earlier filter passing |
| Relate.MemoryLookup | src/Manager/DocumentManager.php:2147-2182 | the in-memory lookup picks an indexed document that settles the relationship, and none exactly when none does |
| Relate.GetTargetId | src/Manager/DocumentManager.php:2103-2205 | an unknown direction is an error with no result; a found related record id is never empty |
| Relate.GetTargetIdStored | src/Manager/DocumentManager.php:2109-2198 | a stored result is the newest Close or No_send document of the related rule for that record, not a Delete, and the id read comes from the side the direction names |
| Relate.GetTargetIdNoneStored | src/Manager/DocumentManager.php:2109-2189 | with no settling document in the table there is no result |
| Relate.GetTargetIdNewestDelete | src/Manager/DocumentManager.php:2190-2198 | when the newest settling document is a Delete there is no result |
| Relate.GetTargetIdStoredFound | src/Manager/DocumentManager.php:2183-2198 | when the newest settling stored document is not a Delete and links a non-empty id, that id and that document are the result |
| Relate.GetTargetIdStoredSome | src/Manager/DocumentManager.php:2183-2198 | when some stored document settles the relationship and none of the settling ones is a Delete or links an empty id, a result is found |
| Relate.GetTargetIdMemoryIgnoresStore | src/Manager/DocumentManager.php:2147-2182 | with an in-memory index for the related rule, the document table is not consulted |
| Relate.GetTargetIdMemory | src/Manager/DocumentManager.php:2147-2182 | the in-memory result is the first indexed document that settles the relationship, and none when none does (a Delete is not rejected here) |
| Relate.GetTargetIdMemoryFound | src/Manager/DocumentManager.php:2147-2182 | when the first settling indexed document links a non-empty id, that id and that document are the result |
| Relate.SearchRelateDocumentByStatus | src/Manager/DocumentManager.php:2208-2250 | the search returns a document of the related rule for the record with the status asked for, and finds one exactly when one exists |
| Classify.ElementIdRelationship | src/Manager/DocumentManager.php:1719-1726 | the element-id relationship is a non-parent relationship whose target is `Myddleware_element_id`, and none exactly when there is none |
| Classify.FirstSentIndexed | src/Manager/DocumentManager.php:1777-1808 | the in-memory branch picks the first indexed document that counts as sent, and none exactly when none does |
| Classify.Query | src/Manager/DocumentManager.php:1672-1715 | the query hit is a classifiable document of the table |
| Classify.Conclude | src/Manager/DocumentManager.php:1819-1858 | a hit of the rule itself sets its linked id, and gives Create exactly when it is a Delete, or is cancelled on a rule without a bidirectional rule; failing that, a hit of the bidirectional rule found by target id sets that document's source id, and gives Create exactly when it is a Delete; with no hit in either, the engine is unchanged and the type is Update exactly for a child rule |
| Classify.ClassifyElementId | src/Manager/DocumentManager.php:1719-1775 | an empty element-id source field is an error with no type; otherwise the source id becomes that field's value |
| Classify.ElementIdLookup | src/Manager/DocumentManager.php:1755-1767 | the document is an Update exactly when a row was found that links a target id, or is a found row not in the global status Cancel; a linked id becomes the target id, otherwise the missing-link note is logged and the target id is kept |
| Classify.CheckRecordExist | src/Manager/DocumentManager.php:1665-1866 | classification fails exactly when the element-id relationship exists and its source field is empty; otherwise it yields Create or Update; status and type are untouched (the outcome of each path is stated by FoundDecides, BidirectionalFoundDecides, NothingFound, MemoryTargetUpdates and MemoryNoTargetCreates) |
| Classify.ClassifyIndexed | src/Manager/DocumentManager.php:1777-1808 | the first indexed document that counts as sent decides: with a target id the type is Update and that id is taken; without one the type is Create, since `$result` is never set on this path; with no such document a type is still given, and only the target id changes |
| Classify.FoundDecides | src/Manager/DocumentManager.php:1835-1858 | when the table has a hit, its target id is taken, and the type is Create exactly when the hit is a Delete or is cancelled without a bidirectional rule |
| Classify.BidirectionalFoundDecides | src/Manager/DocumentManager.php:1819-1849 | when the rule itself has no earlier sent document, in memory or in storage, a hit of the bidirectional rule decides: its source id becomes the target id, and the type is Create exactly when the hit is a Delete, Update otherwise |
| Classify.NothingFound | src/Manager/DocumentManager.php:1835-1858 | with no hit in either rule the type is Update for a child rule and Create otherwise, and the engine is unchanged |
| Classify.QueryMaximal | src/Manager/DocumentManager.php:1691 | no classifiable document sorts above the hit |
| Classify.QueryPrefersTargetThenClose | src/Manager/DocumentManager.php:1691 | a document with a target id beats one without, and among those a Close one wins |
| Classify.MemoryNoTargetCreates | src/Manager/DocumentManager.php:1777-1808 | a first sent indexed document without target id makes the document a Create |
| Classify.MemoryTargetUpdates | src/Manager/DocumentManager.php:1777-1795 | a first sent indexed document with a target id makes the document an Update of that target id, whatever storage holds |
| Classify.ElementIdDecidesAlone | src/Manager/DocumentManager.php:1719-1775 | with an element-id relationship the type depends neither on the record id nor on the in-memory index |
| Snapshot.SourceKeys | src/Manager/DocumentManager.php:1243 | a multi-field source name contributes one key per `;`-piece |
| Snapshot.PutKeys | src/Manager/DocumentManager.php:1243-1249 | storing keys adds exactly those keys, with the record's values (null when undefined) |
| Snapshot.PutSourceFields | src/Manager/DocumentManager.php:1236-1250 | the source snapshot holds exactly the fields the rule names, with their source values |
| Snapshot.PutRelated | src/Manager/DocumentManager.php:1263-1272 | relationship fields are added with the relationship's own value rule |
| Snapshot.RelatedSources | src/Manager/DocumentManager.php:1264-1268 | the source names of the relationships, exactly |
| Snapshot.RelatedTargets | src/Manager/DocumentManager.php:1264-1270 | the target names of the relationships, exactly |
| Snapshot.KeptTargets | src/Manager/DocumentManager.php:1251-1260 | a history snapshot keeps only target fields the record has; a target snapshot keeps all |
| Snapshot.GetTargetFields | src/Manager/DocumentManager.php:1583-1639 | the field list is the rule's (or the module's) target fields less one `Myddleware_element_id`, and none when that list is empty |
| Snapshot.TargetFieldsMembers | src/Manager/DocumentManager.php:1583-1639 | the field list holds only candidate fields, and every candidate other than `Myddleware_element_id` |
| Snapshot.RuleTargets | src/Manager/DocumentManager.php:1596-1603 | the target names of exactly the rule's own fields |
| Snapshot.RelationshipTargets | src/Manager/DocumentManager.php:1606-1621 | the rule's relationship targets: the target field, or the source field for a parent relationship |
| Snapshot.RemoveFirst | src/Manager/DocumentManager.php:1625-1628 | removing a name takes out one occurrence and leaves the rest |
| Snapshot.SourceSnapshotContents | src/Manager/DocumentManager.php:1236-1272 | a source snapshot holds exactly the named source fields and related source fields, each with its value |
| Snapshot.SourceSnapshotSplits | src/Manager/DocumentManager.php:1243-1249 | every piece of a multi-field source name is in the source snapshot |
| Snapshot.SourceSnapshotNames | src/Manager/DocumentManager.php:1236-1272 | no `Myddleware_element_id` key enters a source snapshot unless a relationship names it |
| Snapshot.HistorySnapshotKeys | src/Manager/DocumentManager.php:1251-1270 | a history snapshot holds only fields the record has or relationship targets, and keeps every named field the record has |
| Snapshot.TargetSnapshotKeys | src/Manager/DocumentManager.php:1251-1271 | a target snapshot holds exactly the target names of the rule fields, read or not, and of the relationships; a rule field holds the record's value; a relationship field holds its value, or "" when that is empty-like, and wins over a rule field of the same name |
| Snapshot.InsertDataTable | src/Manager/DocumentManager.php:1214-1291 | a successful insert appends exactly one data row with the snapshot; a failed one is an error that leaves the tables alone |
| Snapshot.InsertedSnapshotIsRead | src/Manager/DocumentManager.php:1189-1291 | the snapshot just inserted is the one read back, when none of that kind was stored |
| Snapshot.UpdateHistoryTable | src/Manager/DocumentManager.php:1294-1311 | an empty record is not stored; otherwise it is stored as history, and a failure is logged as an error |
| Snapshot.GetDocumentData | src/Manager/DocumentManager.php:1189-1211 | the snapshot read is one stored for the document and kind, and none exactly when none is |
| Transform.BindAll | src/Manager/DocumentManager.php:1391-1411 | binding the formula's fields fails exactly when some field other than `my_value` is missing, naming the first one; otherwise every field is bound |
| Transform.FormulaBindings | src/Manager/DocumentManager.php:1391-1411 | a single-field formula always binds, to that field's value |
| Transform.TransformFail | src/Manager/DocumentManager.php:1476-1484 | a transformation failure logs one note, makes the severity Error and raises the transform error |
| Transform.PlainValue | src/Manager/DocumentManager.php:1462-1475 | a plain field is copied when set, and reads as null otherwise |
| Transform.GetTransformValue | src/Manager/DocumentManager.php:1383-1485 | the value is the formula's result as the evaluator returns it over the bound fields, or the record id `getTargetId` finds for a relationship, or null for a blank source value or a parent relationship, or the plain value of the field; a failure yields null, raises the transform error and marks an error; without failure nothing else changes |
| Transform.TransformedValueFrame | src/Manager/DocumentManager.php:1320-1340 | the value depends on the source record, the in-memory index and the document table alone: notes, severity and an earlier transform error change nothing in it |
| Transform.FormulaValue | src/Manager/DocumentManager.php:1387-1438 | a formula that does not fail yields exactly the evaluator's non-null result over the bound fields; a failure yields null with the transform error raised |
| Transform.RelatedValue | src/Manager/DocumentManager.php:1442-1460 | a blank source value or a parent flag yields null; otherwise the value is the non-empty record id `getTargetId` finds for the source value, and its absence is a failure |
| Transform.FormulaUnknownField | src/Manager/DocumentManager.php:1391-1411 | a multi-field formula naming a missing field fails and yields null |
| Transform.TransformFields | src/Manager/DocumentManager.php:1318-1326 | on success the record is the in-order assignment of each rule field's value to its target name, so the last field naming a target wins; otherwise the stage fails with the transform error raised; with no rule fields the accumulated record is kept, even under an earlier transform error |
| Transform.FieldValue | src/Manager/DocumentManager.php:1320-1323 | an earlier transform error stays raised, and a transformation without error changes nothing |
| Transform.Warn | src/Manager/DocumentManager.php:1334-1335 | a warning logs one note and makes the severity Warning |
| Transform.RelationshipValue | src/Manager/DocumentManager.php:1330-1340 | the relationship's value is stored under its target name and nothing else in the record changes; a failed relationship is only a warning, because the `errorMissing` test reads an undefined variable (modelled as written) |
| Transform.TransformRelationships | src/Manager/DocumentManager.php:1328-1342 | the record is the in-order assignment of every relationship's value to its target name, each value as if no relationship had failed before it; failures leave the severity Warning and never fail the stage |
| Transform.AssignContents | src/Manager/DocumentManager.php:1318-1340 | assigning `$targetField[$name] = $value` in order adds exactly the assigned names, each holding the value of the last assignment to it, and keeps every other key |
| Transform.StoreTarget | src/Manager/DocumentManager.php:1343-1358 | a non-empty target record is stored as one new target snapshot holding every rule field; otherwise the stage fails |
| Transform.UpdateTargetTable | src/Manager/DocumentManager.php:1314-1359 | the target is stored exactly when all rule fields transform, the rule has some field or relationship and the write succeeds; an earlier transform error fails the stage when the rule has fields, and otherwise leaves only a warning (the stored values are stated by TargetRowValues) |
| Transform.StoredTargetRecord | src/Manager/DocumentManager.php:1314-1346 | the stored target snapshot is taken of the rule fields' values assigned in order, then the relationships' |
| Transform.TargetRowValues | src/Manager/DocumentManager.php:1314-1346 | the stored target snapshot holds exactly the target names of the rule fields and relationships; a relationship field holds its value, or "" when that is empty-like; any other field holds the value of the last rule field naming it |
| Transform.StickyErrorWithoutFields | src/Manager/DocumentManager.php:1318-1351 | with an earlier transform error and no rule fields, the stage stores the relationships alone exactly when the rule has some and the write succeeds, and then only warns |
| Transform.Abort | src/Manager/DocumentManager.php:897-904 | a failed transformation logs the error and sets status Error_transformed |
| Transform.Promote | src/Manager/DocumentManager.php:864-875 | a Create whose target snapshot carries an element id takes it as target id; the target-id write decides whether promotion fails, the document rows then hold that id, and they hold the type Update when the type write succeeds, a failed type write marking an error |
| Transform.Recover | src/Manager/DocumentManager.php:877-890 | an Update without target id on a non-child rule must find a non-empty target id whose write succeeds, or the stage fails |
| Transform.Conclude | src/Manager/DocumentManager.php:864-895 | after storing, the stage succeeds exactly when promotion (for a Create) and recovery both succeed; success sets Transformed, failure sets Error_transformed with severity Error |
| Transform.TransformDocument | src/Manager/DocumentManager.php:848-905 | an inactive job does nothing; success sets status Transformed (when that write succeeds); failure sets Error_transformed with severity Error; an earlier transform error fails a rule with fields |
| Transform.TransformDocumentSucceeds | src/Manager/DocumentManager.php:848-905 | when storing, promotion and recovery all succeed, the stage is exactly their composition followed by status Transformed |
| Transform.PromotedRows | src/Manager/DocumentManager.php:864-875 | when the target-id, type and status writes succeed, promotion and the status write leave the row an Update with the element id as target id and status Transformed |
| Transform.TransformDocumentPromotes | src/Manager/DocumentManager.php:848-905 | a Create whose stored target carries an element id ends Transformed, stored as an Update with that target id, when those three writes succeed (under the immediate write; see Transform.Promote under Left out) |
| Predecessor.Blocking | src/Manager/DocumentManager.php:571-596 | the blocking document is an earlier open or error document of the rule for the record, and none exactly when none exists |
| Predecessor.ChildBlocker | src/Manager/DocumentManager.php:651-661 | a child-rule blocker is an earlier open (not ready to send) or error document of a child rule, and none exactly when none exists |
| Predecessor.FindBlocker | src/Manager/DocumentManager.php:571-662 | the blocker comes from the rule itself, from its bidirectional rule or from a child rule, each under its own query |
| Predecessor.FindBlockerNone | src/Manager/DocumentManager.php:571-662 | there is no blocker exactly when none of the three queries finds a document |
| Predecessor.AsWrittenChildCheckIsDead | src/Manager/DocumentManager.php:613-661 | with the child-rule query as written, the child check finds nothing the rule's own check has not already found |
| Predecessor.DocumentBlocker | src/Manager/DocumentManager.php:562-662 | the loaded document's blocker uses its rule, the `bidirectional` parameter and the corrected child rules |
| Predecessor.Reject | src/Manager/DocumentManager.php:723-732 | a rejection logs why, sets status Predecessor_KO (when that write succeeds) and severity Error and records the blocking id |
| Predecessor.SetType | src/Manager/DocumentManager.php:664-678 | a Delete keeps its type; a search rule makes a Search; otherwise the type is what classification decides, or the stage fails with "no type" |
| Predecessor.CheckTarget | src/Manager/DocumentManager.php:680-701 | an Update or Delete of a non-child rule needs a target id; a Delete without one is cancelled as never sent; the target id is written, and the stage breaks with "not saved" exactly when that one write fails |
| Predecessor.Finish | src/Manager/DocumentManager.php:703-722 | the stage passes (Predecessor_OK) exactly when the rule's create-only mode is not violated; a violation filters the document |
| Predecessor.Settle | src/Manager/DocumentManager.php:664-732 | a settled document has a type, respects create-only mode, and has a target id when it is an Update or Delete of a non-child rule |
| Predecessor.CheckPredecessorDocument | src/Manager/DocumentManager.php:562-733 | (corrected, with both findings below applied; the as-written halves are Rules.ChildRuleIdsAsWritten and Predecessor.SettleAsWritten) a blocker rejects the document with its id recorded; passing means no blocker, a type, status Predecessor_OK and a target id where one is needed; a Delete stays a Delete |
| Predecessor.NeverSentDeleteCancelled | src/Manager/DocumentManager.php:680-701 | a Delete whose record was never sent is cancelled, not sent |
| Predecessor.SettleFault | src/Manager/DocumentManager.php:664-701 | the faults after the blocker checks are "no type", a missing target id or an unsaved target id |
| Predecessor.RejectionRecorded | src/Manager/DocumentManager.php:664-732 | (corrected) any such fault rejects the document: the fault is in the trail, severity Error, status Predecessor_KO when that write succeeds, and no blocking id |
| Predecessor.CatchRef | src/Manager/DocumentManager.php:723-724 | the catch block reads no id from a fetched row without one, reads the id of a row with one, and cannot index the query result object at all |
| Predecessor.ChildRulesAtCheck | src/Manager/DocumentManager.php:613-628 | the child-rule list the check fetched is empty exactly when the rule has no child rule |
| Predecessor.FetchedAfterChecks | src/Manager/DocumentManager.php:612-662 | when the rule has no child rule, `$result` is still the statement result object when a later fault is caught; otherwise it is the empty fetch of the child check |
| Predecessor.SettleAsWritten | src/Manager/DocumentManager.php:664-732 | (as written) a fault after the checks escapes the handler exactly when the rule has no child rule; otherwise the document is rejected as in the corrected model |
| Parents.InsertDocumentRelationship | src/Manager/DocumentManager.php:1974-1992 | a successful write appends exactly one relationship row; a failed one is a warning |
| Parents.Resolve | src/Manager/DocumentManager.php:785-801 | a relationship passes exactly when the related record is found, and then a relationship row is written; a filtered parent is reported with its id |
| Parents.CheckRelationship | src/Manager/DocumentManager.php:761-801 | an empty source value with "error if missing" is missing; an exempt relationship passes untouched; otherwise the value is resolved |
| Parents.RelationshipLoop | src/Manager/DocumentManager.php:760-802 | a missing relationship reported is one of the rule's; no relationships pass |
| Parents.RelationshipLoopPasses | src/Manager/DocumentManager.php:760-802 | the loop passes exactly when every relationship is settled |
| Parents.Reclassify | src/Manager/DocumentManager.php:822-833 | a Create in Relate_KO is classified again, and an Update found is written with its target id |
| Parents.StoreUpdate | src/Manager/DocumentManager.php:829-830 | when the type write succeeds the rows hold type Update, and when the target-id write succeeds they hold the engine's target id; the engine's status, type and target id are kept |
| Parents.AfterLoop | src/Manager/DocumentManager.php:804-844 | passing sets Relate_OK; a missing parent sets Relate_KO with severity Error; a filtered parent filters the document with a warning and its id |
| Parents.CheckParentDocument | src/Manager/DocumentManager.php:736-845 | a Delete passes at once; a document with no relationship to check passes; otherwise the loop decides; passing sets Relate_OK |
| TargetRead.HistoryQueryFields | src/Manager/DocumentManager.php:1144-1155 | a Delete asks for the module fields, every one but the element id and nothing else; any other type asks only for rule field and relationship targets, every rule field but the element id among them |
| TargetRead.KeepFirst | src/Manager/DocumentManager.php:1172-1184 | the first record read becomes the history, stored as a history snapshot; a failed write makes the history unreadable |
| TargetRead.GetDocumentHistory | src/Manager/DocumentManager.php:1142-1186 | no record read means no history; a read error makes it unreadable; otherwise the first record is kept |
| TargetRead.HistoryStored | src/Manager/DocumentManager.php:1142-1186 | a history exists exactly when the read has no error and a non-empty first record whose write succeeds; it is that record, and it is the document's history snapshot read back afterwards when none was stored before |
| TargetRead.FieldsUnchanged | src/Manager/DocumentManager.php:1100-1116 | the fields are unchanged exactly when every rule field is unchanged: the trimmed values are loosely equal (PHP 8, so `"10"` equals `"10.0"`), or both are `empty()` |
| TargetRead.RelationshipsUnchanged | src/Manager/DocumentManager.php:1119-1128 | the relationships are unchanged exactly when every relationship target other than the element id is loosely equal in history and target |
| TargetRead.ComparedTarget | src/Manager/DocumentManager.php:1094-1096 | the compared target is the target with the element id blanked |
| TargetRead.ComparedHistory | src/Manager/DocumentManager.php:1080-1091 | a given non-empty history is used; otherwise the stored history, when non-empty |
| TargetRead.CheckNoChange | src/Manager/DocumentManager.php:1076-1139 | the document is marked No_send with a warning exactly when there is a history and every field and relationship is unchanged under loose equality; otherwise nothing happens |
| TargetRead.OneDifferenceSends | src/Manager/DocumentManager.php:1100-1116 | one rule field whose trimmed values are not loosely equal, and not both empty, makes the document go out |
| TargetRead.ReadById | src/Manager/DocumentManager.php:923-951 | a Delete whose record is gone is cancelled; an unreadable history aborts the stage; otherwise the document is Ready_to_send with the history |
| TargetRead.CancelGone | src/Manager/DocumentManager.php:936-943 | a Delete whose record is gone logs why and the status note, and takes the status Cancel when the write succeeds; the type is kept |
| TargetRead.SearchDuplicate | src/Manager/DocumentManager.php:953-998 | without a target snapshot the search aborts; a duplicate found makes the document Found or an Update to that record, its id stored when the write succeeds; none makes it Not_found or Ready_to_send |
| TargetRead.SearchFieldsRestrict | src/Manager/DocumentManager.php:962-964 | the search is the target snapshot cut down to the duplicate fields: it holds no other key, a field the snapshot has keeps its value, one it lacks is searched as null |
| TargetRead.NotDuplicated | src/Manager/DocumentManager.php:972-980 | a Search with no duplicate is Not_found with severity Error; anything else is Ready_to_send |
| TargetRead.Duplicated | src/Manager/DocumentManager.php:981-998 | a duplicate's id becomes the target id, stored on the rows when that write succeeds; a Search is Found, anything else becomes an Update (stored when the type write succeeds) and Ready_to_send |
| TargetRead.SelectBranch | src/Manager/DocumentManager.php:921-1003 | an Update or Delete reads by id; otherwise duplicate fields trigger a search; otherwise the document is Ready_to_send |
| TargetRead.Abort | src/Manager/DocumentManager.php:1015-1026 | an aborted read logs why and sets Not_found for a Search, Error_checking otherwise, with severity Error |
| TargetRead.GetTargetDataDocument | src/Manager/DocumentManager.php:908-1029 | an inactive job or failed child rules stop the stage; otherwise the branch decides, followed by the (loose-equality) no-change check where it applies |
| TargetRead.DeleteOfGoneRecordCancelled | src/Manager/DocumentManager.php:923-951 | a Delete whose target record no longer exists ends Cancel |
| Cancel.CascadedTrans | src/Manager/DocumentManager.php:1868-1886 | two cancellations in a row are one cancellation of both id lists, and what was cancelled stays cancelled |
| Cancel.LoadableSameRows | src/Manager/DocumentManager.php:1880 | whether a child can be loaded does not change while statuses change |
| Cancel.ChildParams | src/Manager/DocumentManager.php:1877-1878 | a child engine gets only the child's id and this job's id |
| Cancel.ChildWorld | src/Manager/DocumentManager.php:1879-1880 | the child engine, fully reset, holds the child whenever it can be loaded, and the tables are untouched |
| Cancel.DocumentCancel | src/Manager/DocumentManager.php:1868-1886 | every loadable child not yet cancelled is cancelled before the document itself; only those documents change, and only to Cancel |
| Cancel.SelfCancelled | src/Manager/DocumentManager.php:1885 | the document's own status write is a cancellation of its id alone |
| Cancel.CancelChildren | src/Manager/DocumentManager.php:1872-1884 | the loop is one cancellation of the documents it lists: only their rows change, to Cancel, and with writes succeeding all of them hold Cancel; a list of children all already cancelled changes nothing |
| Cancel.ChildrenListed | src/Manager/DocumentManager.php:1872-1884 | with depth left for the children's own cascades, every loadable child not already in the global status Cancel is among the cancelled documents |
| Cancel.CancelChild | src/Manager/DocumentManager.php:1879-1881 | one child's cascade is a cancellation that, with depth left, ends with the child itself when it can be loaded |

## Left out

- Values are null, strings and integers. Booleans, floats and arrays, which decoded JSON snapshots and connector records can carry, are not modelled. Neither is the `TypeError` that `strtoupper` or `trim` throws on an array, an `Error` the `catch (\Exception)` blocks at 403 and 1476 do not catch.
- Numbers are exact decimals. PHP converts numeric strings to int or float, so int64 overflow and float rounding (`"1e400"`, digits beyond double precision) are not modelled. Database collation is not modelled either.
- Document writes: the outcome of a write depends only on what is written (`Env.docWrites`), so the same write attempted twice has the same outcome. Log writes (`logWritesOk`) and data and relationship inserts (`persistOk`) each have one outcome.
- The `Filter_KO` status write in `filterDocument` (403-409) is not modelled. It runs only when a filter check throws, and the modelled checks never throw.
- `createDocument` is not part of this model, since it is a plain insertion.
- `checkField` is not part of this model: with undefined keys read as null it returns its argument unchanged.
- `runChildRule` (1033-1073) calls into the rule engine. Its outcome is a parameter (`Env.childRun`).
- Formula evaluation is a parameter (`Env.eval`).
- Reading the target application is a parameter (`Env.readTarget`).
- The module field list is a parameter (`Env.moduleFields`).
- The logger, `echo`, the exception text with file and line, `utf8_encode` and `str_replace` on messages are not modelled. Messages are a sequence of notes.
- The user, API and solution objects are not modelled.
- Source date formatting is not modelled.
- The ORM's deferred flush is not modelled: every write is immediate.
- Transform.Promote: reads back the target snapshot that `updateTargetTable()` has just stored, because the model writes immediately. In the source, `insertDataTable()` only persists the row (1281), and nothing in DocumentManager.php flushes it before `getDocumentData('T')` queries the table at 865. So on a document's first transformation the source finds no target snapshot there and does not promote C to U in that run. Transform.TransformDocumentPromotes states the promotion under the immediate write.
- JSON encoding of snapshots is not modelled: a snapshot is a map.
- Exceptions thrown by the database outside the modelled writes are not modelled. This includes `setDocument`'s exception path and `getChildDocuments`'s.
- Cancel.DocumentCancel: the recursion carries a depth bound `fuel`. A chain of parent ids that loops back makes the source recurse forever, so children deeper than the bound are not cancelled.
- Predecessor.Reject: for failures other than a blocking document, the referenced document id is left empty. This is what the source reads when the last query fetched no row; the case where it cannot read the result at all is a finding below.
- The unused local `$parentDocumentId` in `ckeckParentDocument` has no counterpart.
- A history marked -1 never reaches `checkNoChange`, because every branch that produces it aborts first. So the model has no -1 history.
- The in-memory index of a rule is taken as present whenever its key is. An empty index entry is not modelled.

## Findings

| source | as written | input that shows it | evidently intended | confidence | as-written member | corrected member |
|---|---|---|---|---|---|---|
| src/Manager/DocumentManager.php:613-624 | the child-rule query selects `rulerelationship.rule_id`, which the `WHERE` clause pins to the current rule, so every "child rule" is the rule itself and the relaxed child check only repeats the rule's own, stricter check | a rule with a parent relationship to a child rule, where the child rule has an earlier Open (not Ready_to_send) document for the same source id: the document is not blocked | select `rulerelationship.field_id`, the child rule, so that open documents of child rules block the parent document | not executed | Rules.ChildRuleIdsAsWritten, Predecessor.AsWrittenChildCheckIsDead | Rules.ChildRuleIds |
| src/Manager/DocumentManager.php:723-724 | the catch block reads `$result['id']`, but when the rule has no child rule `$result` is still the statement result object of the child-rule query, so `empty($result['id'])` throws an `Error`, which `catch (\Exception $e)` does not catch | a document that is not a Delete, of a non-search rule without child rules, with no blocking document, whose rule has an element-id relationship with an empty source field: "Failed to find a type" is thrown, the handler itself then fails, and the document is never set to Predecessor_KO | read the id only from a fetched row, so that every fault after the checks rejects the document with Predecessor_KO | not executed | Predecessor.SettleAsWritten | Predecessor.RejectionRecorded |

=== FILE: cancel.dfy ===
/** The cancellation cascade `documentCancel()`
    (src/Manager/DocumentManager.php:1868-1886): a document is cancelled
    after every child document that is not already cancelled, each child by a
    fresh engine that cancels its own children first. A chain of parent ids
    that loops back on itself makes the source recurse without end, so the
    model carries a depth bound `fuel`. */
module Cancel {
  import opened Wrappers
  import opened Values
  import opened Statuses
  import opened Rules
  import opened Store
  import opened Engine
  import opened Reset

  /** What a cancellation does to the tables: document rows keep their keys,
      data and relationship rows are untouched, log rows are only appended,
      the stored global statuses stay those of the status table, and a row
      changes only when it belongs to a document of `ids`, to become
      cancelled. */
  predicate Cascaded(db1: Db, db2: Db, ids: seq<string>) {
    && SameRows(db1, db2)
    && db2.data == db1.data && db2.links == db1.links && db1.logs <= db2.logs
    && (Consistent(db1) ==> Consistent(db2))
    && forall i | 0 <= i < |db1.docs| ::
      db2.docs[i] == db1.docs[i] || (db1.docs[i].id in ids && db2.docs[i].status == Status.Cancel)
  }

  /** Every row of a document of `ids` holds the status Cancel. */
  predicate AllCancelled(db: Db, ids: seq<string>) {
    forall i | 0 <= i < |db.docs| && db.docs[i].id in ids :: db.docs[i].status == Status.Cancel
  }

  /** Two cancellations in a row are one cancellation of both id lists, and
      what the first cancelled stays cancelled. */
  lemma CascadedTrans(a: Db, b: Db, c: Db, x: seq<string>, y: seq<string>)
    requires Cascaded(a, b, x) && Cascaded(b, c, y)
    ensures Cascaded(a, c, x + y)
    ensures AllCancelled(b, x) ==> AllCancelled(c, x)
  {
    forall i | 0 <= i < |a.docs|
      ensures c.docs[i] == a.docs[i] || (a.docs[i].id in x + y && c.docs[i].status == Status.Cancel)
    {
      assert b.docs[i].id == a.docs[i].id;
    }
    if AllCancelled(b, x) {
      forall i | 0 <= i < |c.docs| && c.docs[i].id in x
        ensures c.docs[i].status == Status.Cancel
      {
        assert b.docs[i].id == c.docs[i].id;
      }
    }
  }

  /** Whether a document can be loaded depends only on the keys of the rows. */
  lemma LoadableSameRows(db1: Db, db2: Db, cfg: Config, id: string)
    requires SameRows(db1, db2)
    ensures Loadable(db1, cfg, id) <==> Loadable(db2, cfg, id)
  {
    if Loadable(db1, cfg, id) {
      LoadableMoves(db1, db2, cfg, id);
    }
    if Loadable(db2, cfg, id) {
      assert SameRows(db2, db1);
      LoadableMoves(db2, db1, cfg, id);
    }
  }

  /** One direction of the above. */
  lemma LoadableMoves(db1: Db, db2: Db, cfg: Config, id: string)
    requires SameRows(db1, db2) && Loadable(db1, cfg, id)
    ensures Loadable(db2, cfg, id)
  {
    var i :| 0 <= i < |db1.docs| && db1.docs[i].id == id && !EmptyText(id)
      && (forall j | 0 <= j < i :: db1.docs[j].id != id)
      && FindRule(cfg.rules, db1.docs[i].ruleId).Some?
      && FindParam(cfg.params, db1.docs[i].ruleId, "mode").Some?;
    assert forall j | 0 <= j < i :: db2.docs[j].id == db1.docs[j].id;
    assert db2.docs[i].id == id && db2.docs[i].ruleId == db1.docs[i].ruleId;
  }

  /** The parameters given to the engine of a child (1877-1878): the child's
      id and this engine's job; nothing else. */
  function ChildParams(e: Engine, childId: string): (r: Params)
    ensures r.idDoc == childId && r.jobId == e.jobId
    ensures r.data == map[] && r.ruleFields == [] && r.ruleRelationships == [] && r.ruleDocuments == map[]
  {
    Params(e.jobId, "", map[], childId, RuleHeader("", "", ""), [], [], map[])
  }

  /** The engine that cancels one child (1879-1880): a clone of this one,
      fully reset and loaded with the child document. It holds the child's
      id whenever the child can be loaded. */
  function ChildWorld(w: World, env: Env, child: DocRow): (r: World)
    ensures r.db == w.db
    ensures Loadable(w.db, env.cfg, child.id) ==> r.e.id == child.id
  {
    var p := ChildParams(w.e, child.id);
    var e1 := TakeParams(ClearAttributes(w.e, true), p);
    SetDocumentLoadable(World(e1, w.db), env, child.id);
    SetParam(w, env, p, true, true)
  }

  /** `documentCancel()` (1868-1886). The children are read once, before any
      of them is cancelled; those not already in the global status Cancel
      are cancelled in turn, then the document's own status becomes Cancel.
      The second result lists the documents whose status was set, in order:
      the document itself comes last, after every loadable child that was
      not already cancelled. With no depth left nothing happens. */
  function DocumentCancel(w: World, env: Env, fuel: nat): (r: (World, seq<string>))
    ensures fuel == 0 ==> r == (w, [])
    ensures fuel > 0 ==> |r.1| > 0 && r.1[|r.1| - 1] == w.e.id
    ensures Cascaded(w.db, r.0.db, r.1)
    ensures WriteOk(env, StatusUpdate(Status.Cancel)) ==> AllCancelled(r.0.db, r.1)
    ensures fuel >= 2 ==> var kids := Children(w.db.docs, w.e.id);
      forall k | 0 <= k < |kids| && kids[k].global != Global.Cancel && Loadable(w.db, env.cfg, kids[k].id) ::
        kids[k].id in r.1[..|r.1| - 1]
    ensures fuel > 0 ==> var kids := Children(w.db.docs, w.e.id);
      (forall k | 0 <= k < |kids| :: kids[k].global == Global.Cancel) ==> r.1 == [w.e.id]
    ensures fuel > 0 && WriteOk(env, StatusUpdate(Status.Cancel)) ==> r.0.e.id == w.e.id && r.0.e.status == Some(Status.Cancel)
    decreases fuel, 1
  {
    if fuel == 0 then (w, [])
    else
      var kids := Children(w.db.docs, w.e.id);
      var (db1, ids) := CancelChildren(w, env, kids, fuel);
      var w2 := UpdateStatus(World(w.e, db1), env, Status.Cancel);
      SelfCancelled(World(w.e, db1), env);
      CascadedTrans(w.db, db1, w2.db, ids, [w.e.id]);
      assert (ids + [w.e.id])[..|ids + [w.e.id]| - 1] == ids;
      if fuel >= 2 then ChildrenListed(w, env, kids, fuel); (w2, ids + [w.e.id])
      else (w2, ids + [w.e.id])
  }

  /** One child cancelled by its own engine (1879-1881): a cancellation
      that, with depth left, ends with the child itself when it can be
      loaded. */
  function CancelChild(w: World, env: Env, child: DocRow, fuel: nat): (r: (World, seq<string>))
    ensures Cascaded(w.db, r.0.db, r.1)
    ensures WriteOk(env, StatusUpdate(Status.Cancel)) ==> AllCancelled(r.0.db, r.1)
    ensures fuel > 0 && Loadable(w.db, env.cfg, child.id) ==> |r.1| > 0 && r.1[|r.1| - 1] == child.id
    decreases fuel, 2
  {
    DocumentCancel(ChildWorld(w, env, child), env, fuel)
  }

  /** The document's own status update is a cancellation of its own id. */
  lemma SelfCancelled(w: World, env: Env)
    ensures Cascaded(w.db, UpdateStatus(w, env, Status.Cancel).db, [w.e.id])
    ensures WriteOk(env, StatusUpdate(Status.Cancel)) ==> AllCancelled(UpdateStatus(w, env, Status.Cancel).db, [w.e.id])
  {
    var r := UpdateStatus(w, env, Status.Cancel);
    assert forall i | 0 <= i < |w.db.docs| ::
      r.db.docs[i] == w.db.docs[i] || (w.db.docs[i].id in [w.e.id] && r.db.docs[i].status == Status.Cancel);
  }

  /** Every child of `kids` that can be loaded and is not already in the
      global status Cancel has its id in `ids`. */
  predicate AllListed(db: Db, cfg: Config, kids: seq<DocRow>, ids: seq<string>) {
    forall k | 0 <= k < |kids| && kids[k].global != Global.Cancel && Loadable(db, cfg, kids[k].id) ::
      kids[k].id in ids
  }

  /** The first child's ids followed by those of the rest list every child,
      when the tables in between keep their keys. */
  lemma {:induction false} ListedAfterFirst(db0: Db, db1: Db, cfg: Config, kids: seq<DocRow>, first: seq<string>, rest: seq<string>)
    requires |kids| > 0 && SameRows(db0, db1)
    requires kids[0].global != Global.Cancel && Loadable(db0, cfg, kids[0].id) ==> kids[0].id in first
    requires AllListed(db1, cfg, kids[1..], rest)
    ensures AllListed(db0, cfg, kids, first + rest)
  {
    forall k | 0 <= k < |kids| && kids[k].global != Global.Cancel && Loadable(db0, cfg, kids[k].id)
      ensures kids[k].id in first + rest
    {
      if k > 0 {
        assert kids[k] == kids[1..][k - 1];
        LoadableSameRows(db0, db1, cfg, kids[k].id);
        assert kids[k].id in rest;
      } else {
        assert kids[k].id in first;
      }
    }
  }

  /** The loop over the children (1872-1884): each child not already in the
      global status Cancel, as read before the loop, is cancelled by its own
      engine on the tables as they are now; this engine is left as it was. */
  function CancelChildren(w: World, env: Env, kids: seq<DocRow>, fuel: nat): (r: (Db, seq<string>))
    requires fuel > 0
    ensures Cascaded(w.db, r.0, r.1)
    ensures WriteOk(env, StatusUpdate(Status.Cancel)) ==> AllCancelled(r.0, r.1)
    ensures (forall k | 0 <= k < |kids| :: kids[k].global == Global.Cancel) ==> r == (w.db, [])
    decreases fuel, 0, |kids|, 0
  {
    if |kids| == 0 then (w.db, [])
    else if kids[0].global == Global.Cancel then
      var r := CancelChildren(w, env, kids[1..], fuel);
      assert forall k | 1 <= k < |kids| :: kids[k] == kids[1..][k - 1];
      r
    else
      var c := CancelChild(w, env, kids[0], fuel - 1);
      var (db, ids) := CancelChildren(World(w.e, c.0.db), env, kids[1..], fuel);
      CascadedTrans(w.db, c.0.db, db, c.1, ids);
      (db, c.1 + ids)
  }

  /** With depth left for the children's own cascades, the loop lists every
      child that can be loaded and is not already cancelled. */
  lemma {:induction false} ChildrenListed(w: World, env: Env, kids: seq<DocRow>, fuel: nat)
    requires fuel >= 2
    ensures AllListed(w.db, env.cfg, kids, CancelChildren(w, env, kids, fuel).1)
    decreases fuel, 0, |kids|, 1
  {
    if |kids| > 0 {
      if kids[0].global == Global.Cancel {
        var rest := CancelChildren(w, env, kids[1..], fuel).1;
        ChildrenListed(w, env, kids[1..], fuel);
        ListedAfterFirst(w.db, w.db, env.cfg, kids, [], rest);
        assert [] + rest == rest;
      } else {
        var c := CancelChild(w, env, kids[0], fuel - 1);
        var rest := CancelChildren(World(w.e, c.0.db), env, kids[1..], fuel).1;
        ChildrenListed(World(w.e, c.0.db), env, kids[1..], fuel);
        ListedAfterFirst(w.db, c.0.db, env.cfg, kids, c.1, rest);
      }
    }
  }
}

=== FILE: classify.dfy ===
/** Type classification: whether a document creates or updates its target
    record, from the documents already sent for the same record
    (src/Manager/DocumentManager.php:1665-1866). */
module Classify {
  import opened Wrappers
  import opened Values
  import opened Statuses
  import opened Rules
  import opened Messages
  import opened Store
  import opened Engine

  /** The first relationship that writes `Myddleware_element_id` and is not a
      parent relationship: it names the record of another rule to update. */
  function ElementIdRelationship(rels: seq<Relationship>): (r: Option<Relationship>)
    ensures r.Some? ==> r.value in rels && r.value.fieldNameTarget == ElementId && !r.value.parent
    ensures r.None? <==> forall j | 0 <= j < |rels| :: !(rels[j].fieldNameTarget == ElementId && !rels[j].parent)
  {
    match FindFirst(rels, (x: Relationship) => x.fieldNameTarget == ElementId && !x.parent)
    case None => None
    case Some(i) => Some(rels[i])
  }

  /** The relationship's source value is usable: set and not empty-like, or,
      for `Myddleware_element_id`, the record id is. */
  predicate ElementIdSet(data: Record, rel: Relationship) {
    || !Empty(Get(data, rel.fieldNameSource))
    || (rel.fieldNameSource == ElementId && !Empty(Get(data, "id")))
  }

  /** The record id the relationship points to: the record id for
      `Myddleware_element_id`, the named field otherwise. */
  function ElementIdSource(data: Record, rel: Relationship): Value {
    if rel.fieldNameSource == ElementId then Get(data, "id") else Get(data, rel.fieldNameSource)
  }

  /** An in-memory document that counts as sent (1781-1790): not Cancel, or a
      cancelled No_send, and not the current document. Open and Error
      documents count here, unlike in storage. */
  predicate SentIndexed(doc: IndexDoc, selfId: string) {
    && (doc.global != Global.Cancel || doc.status == NoSend)
    && doc.id != selfId
  }

  function FirstSentIndexed(docs: seq<IndexDoc>, selfId: string): (r: Option<IndexDoc>)
    ensures r.Some? ==> r.value in docs && SentIndexed(r.value, selfId)
    ensures r.None? <==> forall j | 0 <= j < |docs| :: !SentIndexed(docs[j], selfId)
  {
    match FindFirst(docs, (doc: IndexDoc) => SentIndexed(doc, selfId))
    case None => None
    case Some(i) => Some(docs[i])
  }

  /** A document found by a classification query, and whether it was found
      by its target id. */
  datatype Hit = Hit(row: DocRow, byTarget: bool)

  /** A classification query as a `Hit`. */
  function Query(docs: seq<DocRow>, ruleId: string, id: Value, selfId: string, byTarget: bool): (r: Option<Hit>)
    ensures r.Some? ==>
      && r.value.byTarget == byTarget && r.value.row in docs
      && Classifiable(r.value.row, ruleId, id, selfId, byTarget)
    ensures r.None? <==> forall j | 0 <= j < |docs| :: !Classifiable(docs[j], ruleId, id, selfId, byTarget)
  {
    match ClassifyQuery(docs, ruleId, id, selfId, byTarget)
    case None => None
    case Some(d) => Some(Hit(d, byTarget))
  }

  /** The bidirectional rule of the current rule, "" when there is none. */
  function Bidirectional(e: Engine): string {
    Param(e.ruleParams, "bidirectional")
  }

  /** Whether a query result counts as found: a row with a non-empty-like id. */
  predicate IsFound(f: Option<Hit>) {
    f.Some? && !EmptyText(f.value.row.id)
  }

  /** The end of the classification (1822-1858): without a found document,
      the bidirectional rule is searched by target id; a found document sets
      the target id and gives C when it is a Delete, or a Cancel one on a
      rule without bidirectional rule, and U otherwise; nothing found gives U
      on a child rule and C otherwise. */
  function Conclude(w: World, env: Env, id: Value, primary: Option<Hit>): (r: (World, DocType))
    ensures r.0.e.status == w.e.status && r.0.e.docType == w.e.docType && r.0.e.ruleMode == w.e.ruleMode && r.0.e.ruleId == w.e.ruleId && r.0.e.id == w.e.id
    ensures r.0.db == w.db && Trail(r.0) == Trail(w)
    ensures r.1 == Create || r.1 == Update
    ensures r.0.e == w.e.(targetId := r.0.e.targetId)
    // A found document of the rule itself decides, as in `FoundDecides`.
    ensures IsFound(primary) ==>
      && r.0.e.targetId == LinkedId(primary.value.row, primary.value.byTarget)
      && (r.1 == Create <==>
            (primary.value.row.docType == Some(Delete) || (primary.value.row.global == Global.Cancel && EmptyText(Bidirectional(w.e)))))
    // Otherwise a document of the bidirectional rule found by its target id
    // links its source id, and gives C exactly when it is a Delete.
    ensures !IsFound(primary) && !EmptyText(Bidirectional(w.e)) && IsFound(Query(w.db.docs, Bidirectional(w.e), id, w.e.id, true)) ==>
      && r.0.e.targetId == Query(w.db.docs, Bidirectional(w.e), id, w.e.id, true).value.row.sourceId
      && (r.1 == Create <==> Query(w.db.docs, Bidirectional(w.e), id, w.e.id, true).value.row.docType == Some(Delete))
    ensures !IsFound(primary) && (EmptyText(Bidirectional(w.e)) || !IsFound(Query(w.db.docs, Bidirectional(w.e), id, w.e.id, true))) ==>
      r == (w, if IsChild(env.cfg, w.e.ruleId) then Update else Create)
  {
    var bidir := Bidirectional(w.e);
    var found := if !IsFound(primary) && !EmptyText(bidir) then Query(w.db.docs, bidir, id, w.e.id, true) else primary;
    if IsFound(found) then
      var row := found.value.row;
      var w1 := World(w.e.(targetId := LinkedId(row, found.value.byTarget)), w.db);
      if row.docType == Some(Delete) || (row.global == Global.Cancel && EmptyText(bidir)) then (w1, Create)
      else (w1, Update)
    else if IsChild(env.cfg, w.e.ruleId) then (w, Update)
    else (w, Create)
  }

  /** The `Myddleware_element_id` branch (1719-1775): the record of the
      related rule the relationship points to is searched, by target id when
      the direction is -1 and by source id otherwise; a linked id found makes
      the document an update of it. An empty source value is an error. */
  function ClassifyElementId(w: World, env: Env, rel: Relationship): (r: (World, Option<DocType>))
    ensures !ElementIdSet(w.e.data, rel) ==> r.1.None? && r.0 == Fail(w, EmptyElementIdSource(rel.fieldNameSource))
    ensures ElementIdSet(w.e.data, rel) ==> r.1.Some? && r.0.e.sourceId == Text(ElementIdSource(w.e.data, rel))
    ensures r.0.db == w.db && Trail(w) <= Trail(r.0)
    ensures r.0.e == w.e.(sourceId := r.0.e.sourceId, targetId := r.0.e.targetId, message := r.0.e.message, typeError := r.0.e.typeError)
    ensures r.1.Some? ==> r.0.e.typeError == w.e.typeError
  {
    if !ElementIdSet(w.e.data, rel) then (Fail(w, EmptyElementIdSource(rel.fieldNameSource)), None)
    else
      var src := ElementIdSource(w.e.data, rel);
      var byTarget := Direction(env.cfg, rel) == Some(-1);
      var (w1, t) := ElementIdLookup(World(w.e.(sourceId := Text(src)), w.db), Query(w.db.docs, rel.fieldId, src, w.e.id, byTarget));
      (w1, Some(t))
  }

  /** What the search in the related rule decides (1755-1767): a linked id
      found is the target id of an update; otherwise the missing link is
      noted, and the document is a creation unless a live earlier document
      was found. */
  function ElementIdLookup(w: World, f: Option<Hit>): (r: (World, DocType))
    ensures r.1 == Update <==> f.Some? && (!EmptyText(LinkedId(f.value.row, f.value.byTarget)) || (IsFound(f) && f.value.row.global != Global.Cancel))
    ensures f.Some? && !EmptyText(LinkedId(f.value.row, f.value.byTarget)) ==>
      r.0.e.targetId == LinkedId(f.value.row, f.value.byTarget) && Trail(r.0) == Trail(w)
    ensures !(f.Some? && !EmptyText(LinkedId(f.value.row, f.value.byTarget))) ==>
      r.0.e.targetId == w.e.targetId && Trail(r.0) == Trail(w) + [TargetLinkMissing]
    ensures r.0.db == w.db && Trail(w) <= Trail(r.0)
    ensures r.0.e == w.e.(targetId := r.0.e.targetId, message := r.0.e.message)
  {
    if f.Some? && !EmptyText(LinkedId(f.value.row, f.value.byTarget)) then
      (World(w.e.(targetId := LinkedId(f.value.row, f.value.byTarget)), w.db), Update)
    else
      // The relationship is never a parent one here, so the note is always added.
      var w1 := Say(w, TargetLinkMissing);
      if !IsFound(f) || f.value.row.global == Global.Cancel then (w1, Create) else (w1, Update)
  }

  /** `checkRecordExist()`: the document type, C or U, or nothing on error. */
  function CheckRecordExist(w: World, env: Env, id: Value): (r: (World, Option<DocType>))
    ensures r.1.None? <==>
      && ElementIdRelationship(w.e.ruleRelationships).Some?
      && !ElementIdSet(w.e.data, ElementIdRelationship(w.e.ruleRelationships).value)
    ensures r.1.None? ==> r.0.e.typeError == Failure
    ensures r.1.Some? ==> r.1.value == Create || r.1.value == Update
    ensures r.0.db == w.db && Step(w, r.0)
    ensures r.0.e.status == w.e.status && r.0.e.docType == w.e.docType
    ensures r.0.e.ruleMode == w.e.ruleMode && r.0.e.ruleId == w.e.ruleId && r.0.e.id == w.e.id
  {
    var r := match ElementIdRelationship(w.e.ruleRelationships)
      case Some(rel) => ClassifyElementId(w, env, rel)
      case None =>
        if w.e.ruleId in w.e.ruleDocuments then ClassifyIndexed(w, env, id)
        else
          var (w1, t) := Conclude(w, env, id, Query(w.db.docs, w.e.ruleId, id, w.e.id, false));
          (w1, Some(t));
    StepKeepsTables(w, r.0);
    r
  }

  /** The in-memory documents of the rule for the record, none when the
      index has no entry for it. */
  function IndexedOf(w: World, id: Value): seq<IndexDoc>
    requires w.e.ruleId in w.e.ruleDocuments
  {
    var idx := w.e.ruleDocuments[w.e.ruleId];
    if Text(id) in idx.bySource then idx.bySource[Text(id)] else []
  }

  /** The in-memory branch (1777-1808): the first sent document of the
      record in the index decides when there is one. */
  function ClassifyIndexed(w: World, env: Env, id: Value): (r: (World, Option<DocType>))
    requires w.e.ruleId in w.e.ruleDocuments
    ensures r.0.e.status == w.e.status && r.0.e.docType == w.e.docType && r.0.e.ruleMode == w.e.ruleMode && r.0.e.ruleId == w.e.ruleId && r.0.e.id == w.e.id
    ensures r.1.Some?
    ensures r.0.db == w.db && Trail(r.0) == Trail(w)
    ensures r.0.e == w.e.(targetId := r.0.e.targetId)
    ensures var f := FirstSentIndexed(IndexedOf(w, id), w.e.id);
      f.Some? ==> r == (if EmptyText(f.value.targetId) then (w, Some(Create))
                        else (World(w.e.(targetId := f.value.targetId), w.db), Some(Update)))
  {
    match FirstSentIndexed(IndexedOf(w, id), w.e.id)
    case Some(doc) =>
      if !EmptyText(doc.targetId) then (World(w.e.(targetId := doc.targetId), w.db), Some(Update))
      // The source tests a query result that is never set on this path,
      // so a sent document without target id always gives C.
      else (w, Some(Create))
    case None =>
      var (w1, t) := Conclude(w, env, id, None);
      (w1, Some(t))
  }

  /** The storage path of the classification: neither a
      `Myddleware_element_id` relationship nor an in-memory index. */
  predicate StoragePath(w: World) {
    ElementIdRelationship(w.e.ruleRelationships).None? && w.e.ruleId !in w.e.ruleDocuments
  }

  /** On the storage path a found earlier document decides: C when it is a
      Delete, or a Cancel (No_send) one on a rule without bidirectional rule;
      U otherwise; either way the target id becomes the document's target id. */
  lemma FoundDecides(w: World, env: Env, id: Value)
    requires StoragePath(w)
    requires IsFound(Query(w.db.docs, w.e.ruleId, id, w.e.id, false))
    ensures var row := Query(w.db.docs, w.e.ruleId, id, w.e.id, false).value.row;
      var r := CheckRecordExist(w, env, id);
      && r.0.e.targetId == row.targetId
      && (r.1 == Some(Create) <==> row.docType == Some(Delete) || (row.global == Global.Cancel && EmptyText(Bidirectional(w.e))))
      && (r.1 == Some(Update) <==> !(row.docType == Some(Delete) || (row.global == Global.Cancel && EmptyText(Bidirectional(w.e)))))
  {
  }

  /** No earlier sent document of the rule itself: none in the index when
      the rule has one, none found in storage otherwise. */
  predicate PrimaryMisses(w: World, id: Value) {
    if w.e.ruleId in w.e.ruleDocuments then FirstSentIndexed(IndexedOf(w, id), w.e.id).None?
    else !IsFound(Query(w.db.docs, w.e.ruleId, id, w.e.id, false))
  }

  /** When the rule itself has no earlier sent document, in memory or in
      storage, a document of the bidirectional rule found by its target id
      decides: its source id becomes the target id, and the document is a
      creation exactly when the found one is a Delete (a Cancel one no
      longer counts, since the rule has a bidirectional rule). */
  lemma BidirectionalFoundDecides(w: World, env: Env, id: Value)
    requires ElementIdRelationship(w.e.ruleRelationships).None?
    requires PrimaryMisses(w, id)
    requires !EmptyText(Bidirectional(w.e))
    requires IsFound(Query(w.db.docs, Bidirectional(w.e), id, w.e.id, true))
    ensures var row := Query(w.db.docs, Bidirectional(w.e), id, w.e.id, true).value.row;
      var r := CheckRecordExist(w, env, id);
      && r.0.e.targetId == row.sourceId
      && (r.1 == Some(Create) <==> row.docType == Some(Delete))
      && (r.1 == Some(Update) <==> row.docType != Some(Delete))
  {
  }

  /** An earlier sent document in the index with a target id makes the
      document an update of that target record, whatever storage holds. */
  lemma MemoryTargetUpdates(w: World, env: Env, id: Value, doc: IndexDoc)
    requires ElementIdRelationship(w.e.ruleRelationships).None? && w.e.ruleId in w.e.ruleDocuments
    requires FirstSentIndexed(IndexedOf(w, id), w.e.id) == Some(doc)
    requires !EmptyText(doc.targetId)
    ensures CheckRecordExist(w, env, id) == (World(w.e.(targetId := doc.targetId), w.db), Some(Update))
  {
  }

  /** On the storage path, with no earlier sent document of the rule nor of
      its bidirectional rule, the document is an update exactly when its rule
      is a child rule. */
  lemma NothingFound(w: World, env: Env, id: Value)
    requires StoragePath(w)
    requires forall j | 0 <= j < |w.db.docs| :: !Classifiable(w.db.docs[j], w.e.ruleId, id, w.e.id, false)
    requires EmptyText(Bidirectional(w.e))
      || forall j | 0 <= j < |w.db.docs| :: !Classifiable(w.db.docs[j], Bidirectional(w.e), id, w.e.id, true)
    ensures CheckRecordExist(w, env, id).1 == Some(if IsChild(env.cfg, w.e.ruleId) then Update else Create)
    ensures CheckRecordExist(w, env, id).0 == w
  {
  }

  /** The classification query picks a document with the greatest key among
      the candidates: a target id first, then Close before Cancel, then the
      latest modification. */
  lemma QueryMaximal(docs: seq<DocRow>, ruleId: string, id: Value, selfId: string, byTarget: bool, j: nat)
    requires j < |docs| && Classifiable(docs[j], ruleId, id, selfId, byTarget)
    ensures Query(docs, ruleId, id, selfId, byTarget).Some?
    ensures !KeyLt(ClassifyKey(Query(docs, ruleId, id, selfId, byTarget).value.row), ClassifyKey(docs[j]))
  {
    var p := (d: DocRow) => Classifiable(d, ruleId, id, selfId, byTarget);
    var b := Best(docs, p, ClassifyKey);
    assert p(docs[j]);
    assert ClassifyQuery(docs, ruleId, id, selfId, byTarget) == Some(docs[b.value]);
  }

  /** So a candidate with a target id is preferred to every one without, and
      among candidates alike in that, a Close one to a Cancel one. */
  lemma QueryPrefersTargetThenClose(docs: seq<DocRow>, ruleId: string, id: Value, selfId: string, byTarget: bool, j: nat)
    requires j < |docs| && Classifiable(docs[j], ruleId, id, selfId, byTarget)
    ensures var row := Query(docs, ruleId, id, selfId, byTarget).value.row;
      && (docs[j].targetId != "" ==> row.targetId != "")
      && ((docs[j].targetId == "") == (row.targetId == "") && docs[j].global == Close ==> row.global == Close)
  {
    QueryMaximal(docs, ruleId, id, selfId, byTarget, j);
  }

  /** In the in-memory index, an earlier sent document without a target id
      gives C even on a child rule and even when it is Open. */
  lemma MemoryNoTargetCreates(w: World, env: Env, id: Value, doc: IndexDoc)
    requires ElementIdRelationship(w.e.ruleRelationships).None? && w.e.ruleId in w.e.ruleDocuments
    requires FirstSentIndexed(IndexedOf(w, id), w.e.id) == Some(doc)
    requires EmptyText(doc.targetId)
    ensures CheckRecordExist(w, env, id) == (w, Some(Create))
  {
  }

  /** A `Myddleware_element_id` relationship decides alone: the stored
      documents of the rule itself and the in-memory index play no part. */
  lemma ElementIdDecidesAlone(w: World, env: Env, id: Value, id2: Value, idx: map<string, RuleIndex>)
    requires ElementIdRelationship(w.e.ruleRelationships).Some?
    ensures CheckRecordExist(w, env, id).1 == CheckRecordExist(World(w.e.(ruleDocuments := idx), w.db), env, id2).1
  {
  }
}

=== FILE: engine.dfy ===
/** The state of one `documentcore` instance, its collaborators, and the
    mutators that persist a document's status, type, target id and deletion
    flag and flush its message into the log
    (src/Manager/DocumentManager.php:1893-2070, 2264-2285). */
module Engine {
  import opened Wrappers
  import opened Values
  import opened Statuses
  import opened Rules
  import opened Messages
  import opened Store

  /** A document of the in-memory index a mass run hands to the engine. */
  datatype IndexDoc = IndexDoc(id: string, sourceId: string, targetId: string, global: Global, status: Status)

  /** The in-memory index of one rule's documents, by source id and by target id.
      An index that is present always carries both maps, so it is never empty. */
  datatype RuleIndex = RuleIndex(bySource: map<string, seq<IndexDoc>>, byTarget: map<string, seq<IndexDoc>>)

  /** The attributes of the engine. `loaded` is the document row read by
      `setDocument()`, None when the document was built from parameters. */
  datatype Engine = Engine(
    id: string,
    ruleId: string,
    ruleName: string,
    ruleMode: string,
    ruleFields: seq<RuleField>,
    ruleRelationships: seq<Relationship>,
    ruleParams: map<string, string>,
    loaded: Option<DocRow>,
    dateCreated: nat,
    sourceId: string,
    targetId: string,
    parentId: string,
    sourceData: Record,
    data: Record,
    docType: Option<DocType>,
    status: Option<Status>,
    attempt: nat,
    message: seq<Note>,
    typeError: Severity,
    docIdRefError: string,
    transformError: bool,
    jobActive: bool,
    jobId: string,
    ruleDocuments: map<string, RuleIndex>)

  /** A read request to the target application. */
  datatype ReadQuery = ReadQuery(fields: Option<seq<string>>, query: Record, docType: Option<DocType>)

  /** What the target application's read returns: records and an error text. */
  datatype ReadResult = ReadResult(values: seq<Record>, error: string)

  /** The outcome of running the child rules of a parent rule. */
  datatype ChildOutcome = ChildrenOk | ChildrenFailed(error: string)

  /** An UPDATE of the document table, named by what it writes. */
  datatype DocWrite =
    | StatusUpdate(s: Status)
    | TypeUpdate(t: DocType)
    | TargetIdUpdate(id: string)
    | DeleteFlagUpdate(deleted: bool)

  /** Everything outside the engine and its tables: the rule configuration,
      the clock, fresh ids, which document updates succeed, whether log and
      data writes succeed, the formula evaluator, the target connector and
      the child-rule run. */
  datatype Env = Env(
    cfg: Config,
    now: nat,
    newId: string,
    docWrites: DocWrite -> bool,
    logWritesOk: bool,
    persistOk: bool,
    eval: (string, Record) -> Option<Value>,
    readTarget: ReadQuery -> ReadResult,
    moduleFields: seq<string>,
    childRun: ChildOutcome)

  /** Whether the document-table update `k` succeeds. */
  predicate WriteOk(env: Env, k: DocWrite) {
    env.docWrites(k)
  }

  /** The engine together with the tables it works on. */
  datatype World = World(e: Engine, db: Db)

  /** Every note of this engine, flushed or still buffered, oldest first. */
  function Trail(w: World): seq<Note> {
    AllNotes(w.db.logs) + w.e.message
  }

  /** What every operation of the engine guarantees about the tables: the
      trail of notes only grows, document rows are neither added, removed nor
      re-keyed, data and relationship rows are only appended, and the stored
      global statuses stay those of the status table. */
  predicate Step(w: World, r: World) {
    && Trail(w) <= Trail(r)
    && SameRows(w.db, r.db)
    && w.db.data <= r.db.data
    && w.db.links <= r.db.links
    && (Consistent(w.db) ==> Consistent(r.db))
  }

  /** Steps compose. */
  lemma StepTrans(a: World, b: World, c: World)
    requires Step(a, b) && Step(b, c)
    ensures Step(a, c)
  {
  }

  /** An operation that leaves the tables alone and only adds notes is a step. */
  lemma StepKeepsTables(w: World, r: World)
    requires r.db == w.db && Trail(w) <= Trail(r)
    ensures Step(w, r)
  {
  }

  /** Appends a note to the message. */
  function Say(w: World, n: Note): (r: World)
    ensures Trail(r) == Trail(w) + [n]
    ensures r.db == w.db
    ensures r.e == w.e.(message := w.e.message + [n])
  {
    World(w.e.(message := w.e.message + [n]), w.db)
  }

  /** Changes to the notes, the severity and the transformation error flag
      alone compose. */
  lemma NotesOnlyTrans(a: Engine, b: Engine, c: Engine)
    requires b == a.(message := b.message, typeError := b.typeError, transformError := b.transformError)
    requires c == b.(message := c.message, typeError := c.typeError, transformError := c.transformError)
    ensures c == a.(message := c.message, typeError := c.typeError, transformError := c.transformError)
  {
  }

  /** Two notes in a row. */
  lemma TrailTwo(w: World, w1: World, w2: World, a: Note, b: Note)
    requires Trail(w1) == Trail(w) + [a] && Trail(w2) == Trail(w1) + [b]
    ensures Trail(w2) == Trail(w) + [a, b]
  {
  }

  /** Doing nothing is a step. */
  lemma StepRefl(w: World)
    ensures Step(w, w)
  {
  }

  /** Appending a note is a step. */
  lemma SayStep(w: World, n: Note)
    ensures Step(w, Say(w, n))
  {
  }

  /** Appends a note and marks the document as in error (`typeError = 'E'`). */
  function Fail(w: World, n: Note): (r: World)
    ensures Trail(r) == Trail(w) + [n]
    ensures r.db == w.db
    ensures r.e == w.e.(message := w.e.message + [n], typeError := Failure)
  {
    World(w.e.(message := w.e.message + [n], typeError := Failure), w.db)
  }

  /** `createDocLog()`: writes the buffered message as a log row with the
      current severity, rule, document, reference document and job; the buffer
      is cleared only when the row was written. */
  function CreateDocLog(w: World, env: Env): (r: World)
    ensures r.db == w.db.(logs := r.db.logs) && w.db.logs <= r.db.logs
    ensures Trail(r) == Trail(w)
    ensures !env.logWritesOk ==> r == w
    ensures r.e == w.e.(message := r.e.message)
    ensures env.logWritesOk ==> r.e.message == [] && |r.db.logs| == |w.db.logs| + 1
    ensures env.logWritesOk ==>
      r.db.logs[|w.db.logs|] == LogEntry(env.now, w.e.typeError, w.e.message, w.e.ruleId, w.e.id, w.e.docIdRefError, w.e.jobId)
  {
    if env.logWritesOk then
      var entry := LogEntry(env.now, w.e.typeError, w.e.message, w.e.ruleId, w.e.id, w.e.docIdRefError, w.e.jobId);
      AllNotesAppend(w.db.logs, entry);
      World(w.e.(message := []), w.db.(logs := w.db.logs + [entry]))
    else w
  }

  /** The note `updateStatus()` adds for status `s`. */
  function StatusNote(env: Env, s: Status): Note {
    if WriteOk(env, StatusUpdate(s)) then StatusSet(s) else StatusWriteFailed
  }

  /** The row a status update writes. */
  function WithStatus(d: DocRow, s: Status, attempt: nat, now: nat): DocRow {
    d.(dateModified := now, global := GlobalOf(s), attempt := attempt, status := s)
  }

  /** The tables after a status write: the document's rows take the status,
      its global status, the attempt count and the date; nothing else changes. */
  function StatusWrite(w: World, env: Env, s: Status, attempt: nat): (r: Db)
    ensures |r.docs| == |w.db.docs|
    ensures forall i | 0 <= i < |w.db.docs| && w.db.docs[i].id == w.e.id ::
      r.docs[i] == WithStatus(w.db.docs[i], s, attempt, env.now)
    ensures forall i | 0 <= i < |w.db.docs| && w.db.docs[i].id != w.e.id :: r.docs[i] == w.db.docs[i]
    ensures r == w.db.(docs := r.docs)
    ensures SameRows(w.db, r) && (Consistent(w.db) ==> Consistent(r))
  {
    w.db.(docs := UpdateWhere(w.db.docs, w.e.id, (d: DocRow) => WithStatus(d, s, attempt, env.now)))
  }

  /** A write to the document rows that adds one note is a step. */
  lemma WriteStep(w: World, w1: World, n: Note)
    requires w1.e.message == w.e.message + [n]
    requires w1.db.logs == w.db.logs && w1.db.data == w.db.data && w1.db.links == w.db.links
    requires SameRows(w.db, w1.db) && (Consistent(w.db) ==> Consistent(w1.db))
    ensures Trail(w1) == Trail(w) + [n]
    ensures Step(w, w1)
  {
  }

  /** Flushing the message after a step is still a step. */
  lemma LogStep(w: World, w1: World, env: Env)
    requires Step(w, w1)
    ensures Step(w, CreateDocLog(w1, env))
  {
  }

  /** `updateStatus()`: counts an attempt in memory, then stores the status,
      its global status from the table, the attempt count and the date on the
      document's rows; logs either way. */
  function UpdateStatus(w: World, env: Env, s: Status): (r: World)
    ensures |r.db.docs| == |w.db.docs|
    ensures WriteOk(env, StatusUpdate(s)) ==> forall i | 0 <= i < |w.db.docs| && w.db.docs[i].id == w.e.id ::
      r.db.docs[i] == WithStatus(w.db.docs[i], s, r.e.attempt, env.now)
    ensures forall i | 0 <= i < |w.db.docs| && w.db.docs[i].id != w.e.id :: r.db.docs[i] == w.db.docs[i]
    ensures WriteOk(env, StatusUpdate(s)) ==> r.e.status == Some(s)
    ensures !WriteOk(env, StatusUpdate(s)) ==> r.e.status == w.e.status && r.db.docs == w.db.docs && r.e.typeError == Failure
    ensures WriteOk(env, StatusUpdate(s)) ==> r.e.typeError == w.e.typeError
    ensures Trail(r) == Trail(w) + [if WriteOk(env, StatusUpdate(s)) then StatusSet(s) else StatusWriteFailed]
    ensures Step(w, r)
    ensures r.db.data == w.db.data && r.db.links == w.db.links && w.db.logs <= r.db.logs
    ensures r.e == w.e.(attempt := r.e.attempt, status := r.e.status, message := r.e.message, typeError := r.e.typeError)
    ensures r.e.attempt == w.e.attempt || r.e.attempt == w.e.attempt + 1
  {
    var attempt := if CountsAttempt(GlobalOf(s)) then w.e.attempt + 1 else w.e.attempt;
    var e := w.e.(attempt := attempt);
    if WriteOk(env, StatusUpdate(s)) then
      var w1 := World(e.(status := Some(s), message := e.message + [StatusSet(s)]), StatusWrite(w, env, s, attempt));
      WriteStep(w, w1, StatusSet(s));
      LogStep(w, w1, env);
      CreateDocLog(w1, env)
    else
      var w1 := World(e.(message := e.message + [StatusWriteFailed], typeError := Failure), w.db);
      WriteStep(w, w1, StatusWriteFailed);
      LogStep(w, w1, env);
      CreateDocLog(w1, env)
  }


  /** What a status update stores, read against the declared status table:
      the attempt counter moves by one exactly when the table maps the status
      to Error or Close (in memory even when the row cannot be written), and
      the document's rows take the status, the table's global status, the
      counter and the date. */
  lemma UpdateStatusRow(w: World, env: Env, s: Status)
    ensures var r := UpdateStatus(w, env, s);
      r.e.attempt == w.e.attempt + 1 <==> GlobalTable[StatusName(s)] in {"Error", "Close"}
    ensures var r := UpdateStatus(w, env, s);
      WriteOk(env, StatusUpdate(s)) ==> forall i | 0 <= i < |w.db.docs| && w.db.docs[i].id == w.e.id ::
        && r.db.docs[i].status == s
        && GlobalName(r.db.docs[i].global) == GlobalTable[StatusName(s)]
        && r.db.docs[i].attempt == r.e.attempt
        && r.db.docs[i].dateModified == env.now
  {
    GlobalOfMatchesTable(s);
  }

  /** `updateType()`: stores the type on the document's rows; the type held in
      memory is left as it was. */
  function UpdateType(w: World, env: Env, t: DocType): (r: World)
    ensures |r.db.docs| == |w.db.docs|
    ensures WriteOk(env, TypeUpdate(t)) ==> forall i | 0 <= i < |w.db.docs| && w.db.docs[i].id == w.e.id ::
      r.db.docs[i] == w.db.docs[i].(docType := Some(t), dateModified := env.now)
    ensures forall i | 0 <= i < |w.db.docs| && w.db.docs[i].id != w.e.id :: r.db.docs[i] == w.db.docs[i]
    ensures !WriteOk(env, TypeUpdate(t)) ==> r.db.docs == w.db.docs && r.e.typeError == Failure
    ensures WriteOk(env, TypeUpdate(t)) ==> r.e.typeError == w.e.typeError
    ensures Trail(r) == Trail(w) + [if WriteOk(env, TypeUpdate(t)) then TypeSet(t) else TypeWriteFailed]
    ensures Step(w, r)
    ensures r.db.data == w.db.data && r.db.links == w.db.links
    ensures r.e == w.e.(message := r.e.message, typeError := r.e.typeError)
  {
    if WriteOk(env, TypeUpdate(t)) then
      var docs := UpdateWhere(w.db.docs, w.e.id, (d: DocRow) => d.(docType := Some(t), dateModified := env.now));
      CreateDocLog(Say(World(w.e, w.db.(docs := docs)), TypeSet(t)), env)
    else
      CreateDocLog(Fail(w, TypeWriteFailed), env)
  }

  /** `updateTargetId()`: stores the target id on the document's rows and
      reports whether the write succeeded; the id held in memory is left as it was. */
  function UpdateTargetId(w: World, env: Env, targetId: string): (r: (World, bool))
    ensures r.1 == WriteOk(env, TargetIdUpdate(targetId))
    ensures |r.0.db.docs| == |w.db.docs|
    ensures r.1 ==> forall i | 0 <= i < |w.db.docs| && w.db.docs[i].id == w.e.id ::
      r.0.db.docs[i] == w.db.docs[i].(targetId := targetId, dateModified := env.now)
    ensures forall i | 0 <= i < |w.db.docs| && w.db.docs[i].id != w.e.id :: r.0.db.docs[i] == w.db.docs[i]
    ensures !r.1 ==> r.0.db.docs == w.db.docs && r.0.e.typeError == Failure
    ensures r.1 ==> r.0.e.typeError == w.e.typeError
    ensures Trail(r.0) == Trail(w) + [if r.1 then TargetIdSet(targetId) else TargetIdWriteFailed]
    ensures r.0.db.data == w.db.data && r.0.db.links == w.db.links
    ensures r.0.e == w.e.(message := r.0.e.message, typeError := r.0.e.typeError)
  {
    if WriteOk(env, TargetIdUpdate(targetId)) then
      var docs := UpdateWhere(w.db.docs, w.e.id, (d: DocRow) => d.(targetId := targetId, dateModified := env.now));
      (CreateDocLog(Say(World(w.e, w.db.(docs := docs)), TargetIdSet(targetId)), env), true)
    else
      (CreateDocLog(Fail(w, TargetIdWriteFailed), env), false)
  }

  /** A target id update is a step: it leaves keys, statuses and the trail's past alone. */
  lemma UpdateTargetIdStep(w: World, env: Env, targetId: string)
    ensures Step(w, UpdateTargetId(w, env, targetId).0)
  {
    var r := UpdateTargetId(w, env, targetId).0;
    assert forall i | 0 <= i < |w.db.docs| :: r.db.docs[i].status == w.db.docs[i].status && r.db.docs[i].global == w.db.docs[i].global;
  }

  /** `updateDeleteFlag()`: marks the document's rows deleted or restores them. */
  function UpdateDeleteFlag(w: World, env: Env, deleted: bool): (r: World)
    ensures |r.db.docs| == |w.db.docs|
    ensures WriteOk(env, DeleteFlagUpdate(deleted)) ==> forall i | 0 <= i < |w.db.docs| && w.db.docs[i].id == w.e.id ::
      r.db.docs[i] == w.db.docs[i].(deleted := deleted, dateModified := env.now)
    ensures forall i | 0 <= i < |w.db.docs| && w.db.docs[i].id != w.e.id :: r.db.docs[i] == w.db.docs[i]
    ensures !WriteOk(env, DeleteFlagUpdate(deleted)) ==> r.db.docs == w.db.docs && r.e.typeError == Failure
    ensures Trail(r) == Trail(w) + [if WriteOk(env, DeleteFlagUpdate(deleted)) then FlagSet(deleted) else FlagWriteFailed(deleted)]
    ensures Consistent(w.db) ==> Consistent(r.db)
    ensures r.e == w.e.(message := r.e.message, typeError := r.e.typeError)
  {
    if WriteOk(env, DeleteFlagUpdate(deleted)) then
      var docs := UpdateWhere(w.db.docs, w.e.id, (d: DocRow) => d.(deleted := deleted, dateModified := env.now));
      CreateDocLog(Say(World(w.e, w.db.(docs := docs)), FlagSet(deleted)), env)
    else
      CreateDocLog(Fail(w, FlagWriteFailed(deleted)), env)
  }

  /** Removing and then restoring a document gives back every column of its
      rows except the modification date. */
  lemma DeleteRestore(w: World, env: Env)
    requires WriteOk(env, DeleteFlagUpdate(true)) && WriteOk(env, DeleteFlagUpdate(false))
    ensures var r := UpdateDeleteFlag(UpdateDeleteFlag(w, env, true), env, false);
      forall i | 0 <= i < |w.db.docs| ::
        r.db.docs[i].(dateModified := w.db.docs[i].dateModified)
          == if w.db.docs[i].id == w.e.id then w.db.docs[i].(deleted := false) else w.db.docs[i]
  {
  }
}

=== FILE: filter.dfy ===
/** Rule filters: the comparison operators of `checkFilter()` and the
    short-circuit loop of `filterDocument()`
    (src/Manager/DocumentManager.php:375-411, 463-559). */
module Filters {
  import opened Wrappers
  import opened Strings
  import opened Numeric
  import opened Values
  import opened Statuses
  import opened Messages
  import opened Store
  import opened Engine

  /** The filter operators, and any other name. */
  datatype Operator =
    | Content | NotContent | Begin | End | In | NotIn
    | Gt | Lt | LtEq | GtEq | Equal | Different
    | Unknown(name: string)

  /** The operator names as the rule filters store them. */
  function OperatorName(op: Operator): string {
    match op
    case Content => "content"
    case NotContent => "notcontent"
    case Begin => "begin"
    case End => "end"
    case In => "in"
    case NotIn => "notin"
    case Gt => "gt"
    case Lt => "lt"
    case LtEq => "lteq"
    case GtEq => "gteq"
    case Equal => "equal"
    case Different => "different"
    case Unknown(name) => name
  }

  /** The `switch` on the operator name. */
  function ParseOperator(name: string): (op: Operator)
    ensures OperatorName(op) == name
  {
    if name == "content" then Content
    else if name == "notcontent" then NotContent
    else if name == "begin" then Begin
    else if name == "end" then End
    else if name == "in" then In
    else if name == "notin" then NotIn
    else if name == "gt" then Gt
    else if name == "lt" then Lt
    else if name == "lteq" then LtEq
    else if name == "gteq" then GtEq
    else if name == "equal" then Equal
    else if name == "different" then Different
    else Unknown(name)
  }

  /** Every known operator is recognised by its name. */
  lemma ParseOperatorName(op: Operator)
    requires !op.Unknown?
    ensures ParseOperator(OperatorName(op)) == op
  {
  }

  /** `substr($s, 0, $n)`. */
  function Head(s: string, n: nat): (r: string)
    ensures |r| == if n <= |s| then n else |s|
    ensures r <= s
    ensures r + s[|r|..] == s
  {
    if n <= |s| then s[..n] else s
  }

  /** `substr($s, -$n)`: the last `n` characters; the whole string when `n`
      is 0 (a start of -0 is 0) or longer than the string. */
  function Tail(s: string, n: nat): (r: string)
    ensures |r| == if n == 0 || n >= |s| then |s| else n
    ensures |r| <= |s| && s[..|s| - |r|] + r == s
  {
    if n == 0 || n >= |s| then s else s[|s| - n..]
  }

  /** `checkFilter()`: whether the field value passes the filter. The
      ordering operators compare the two values; the others test their
      string forms. */
  function CheckFilter(field: Value, op: Operator, filter: Value): bool {
    match op
    case Gt => Cmp(field, filter) > 0
    case Lt => Cmp(field, filter) < 0
    case LtEq => Cmp(field, filter) <= 0
    case GtEq => Cmp(field, filter) >= 0
    case _ => TextFilter(Text(field), op, Text(filter))
  }

  /** The string operators of `checkFilter()` on the string forms `f` of
      the field and `v` of the filter: upper-cased, compared with `==` and
      `in_array()`, so that two numeric strings compare as numbers. */
  predicate TextFilter(f: string, op: Operator, v: string) {
    match op
    case Content => Stripos(f, v).Some?
    case NotContent => Stripos(f, v).None?
    case Begin => StrLooseEq(Upper(Head(f, |v|)), Upper(v))
    case End => StrLooseEq(Upper(Tail(f, |v|)), Upper(v))
    case In => LooselyIn(Upper(f), Split(Upper(v), ';'))
    case NotIn => !LooselyIn(Upper(f), Split(Upper(v), ';'))
    case Equal => StrLooseEq(Upper(f), Upper(v))
    case Different => !StrLooseEq(Upper(f), Upper(v))
    case _ => false
  }

  /** `notcontent` is the complement of `content`. */
  lemma NotContentComplement(field: Value, filter: Value)
    ensures CheckFilter(field, NotContent, filter) == !CheckFilter(field, Content, filter)
  {
  }

  /** `notin` is the complement of `in`. */
  lemma NotInComplement(field: Value, filter: Value)
    ensures CheckFilter(field, NotIn, filter) == !CheckFilter(field, In, filter)
  {
  }

  /** `different` is the complement of `equal`. */
  lemma DifferentComplement(field: Value, filter: Value)
    ensures CheckFilter(field, Different, filter) == !CheckFilter(field, Equal, filter)
  {
  }

  /** `gteq` is the complement of `lt`, and `lteq` of `gt`. */
  lemma OrderComplements(field: Value, filter: Value)
    ensures CheckFilter(field, GtEq, filter) == !CheckFilter(field, Lt, filter)
    ensures CheckFilter(field, LtEq, filter) == !CheckFilter(field, Gt, filter)
  {
    OrderOperators(field, filter);
  }

  /** An operator name outside the twelve never lets a document through. */
  lemma UnknownNeverPasses(field: Value, filter: Value, name: string)
    requires ParseOperator(name).Unknown?
    ensures !CheckFilter(field, ParseOperator(name), filter)
  {
  }

  /** Swapping the two values turns `gt` into `lt` and `gteq` into `lteq`. */
  lemma CheckFilterMirror(a: Value, b: Value)
    ensures CheckFilter(a, Gt, b) == CheckFilter(b, Lt, a)
    ensures CheckFilter(a, GtEq, b) == CheckFilter(b, LtEq, a)
  {
    CmpAntisymmetric(a, b);
    OrderOperators(a, b);
    OrderOperators(b, a);
  }

  /** The four ordering operators read the three-way comparison. */
  lemma OrderOperators(field: Value, filter: Value)
    ensures CheckFilter(field, Gt, filter) == (Cmp(field, filter) > 0)
    ensures CheckFilter(field, Lt, filter) == (Cmp(field, filter) < 0)
    ensures CheckFilter(field, GtEq, filter) == (Cmp(field, filter) >= 0)
    ensures CheckFilter(field, LtEq, filter) == (Cmp(field, filter) <= 0)
  {
  }

  /** `begin` holds when the upper-cased filter text is a prefix of the
      upper-cased field text, and, for a filter text that is not numeric,
      only then. */
  lemma BeginIsPrefix(field: Value, filter: Value)
    ensures Upper(Text(filter)) <= Upper(Text(field)) ==> CheckFilter(field, Begin, filter)
    ensures ParseNumeric(Upper(Text(filter))).None? ==>
      (CheckFilter(field, Begin, filter) <==> Upper(Text(filter)) <= Upper(Text(field)))
  {
    var f := Text(field);
    var v := Text(filter);
    StrLooseEqBytes(Upper(Head(f, |v|)), Upper(v));
    if |v| <= |f| {
      assert Head(f, |v|) == f[..|v|];
      UpperSlice(f, 0, |v|);
    } else {
      assert Head(f, |v|) == f;
    }
  }

  /** The upper-cased `v` ends the upper-cased `f`; an empty `v` only
      ends an empty `f`, since `substr($f, -0)` is all of `f`. */
  predicate UpperSuffix(f: string, v: string) {
    if v == "" then f == ""
    else |v| <= |f| && Upper(f)[|f| - |v|..] == Upper(v)
  }

  /** Byte-wise, the `end` test is the suffix test. */
  lemma TailIsSuffix(f: string, v: string)
    ensures Upper(Tail(f, |v|)) == Upper(v) <==> UpperSuffix(f, v)
  {
    if 0 < |v| <= |f| {
      UpperSlice(f, |f| - |v|, |f|);
    }
  }

  /** `end` holds when the upper-cased filter text is a suffix of the
      upper-cased field text, and, for a filter text that is not numeric,
      only then; an empty filter text only matches an empty field. */
  lemma EndIsSuffix(field: Value, filter: Value)
    ensures UpperSuffix(Text(field), Text(filter)) ==> CheckFilter(field, End, filter)
    ensures ParseNumeric(Upper(Text(filter))).None? ==>
      (CheckFilter(field, End, filter) <==> UpperSuffix(Text(field), Text(filter)))
  {
    var f := Text(field);
    var v := Text(filter);
    StrLooseEqBytes(Upper(Tail(f, |v|)), Upper(v));
    TailIsSuffix(f, v);
  }

  /** Upper-casing a list of texts one by one. */
  function UpperAll(parts: seq<string>): (r: seq<string>)
    ensures |r| == |parts|
    ensures forall i | 0 <= i < |parts| :: r[i] == Upper(parts[i])
  {
    seq(|parts|, i requires 0 <= i < |parts| => Upper(parts[i]))
  }

  /** Upper-casing distributes over concatenation around a `;`. */
  lemma UpperAround(a: string, b: string)
    ensures Upper(a + [';'] + b) == Upper(a) + [';'] + Upper(b)
  {
    var l := a + [';'] + b;
    var r := Upper(a) + [';'] + Upper(b);
    assert |Upper(l)| == |r|;
    forall k | 0 <= k < |l| ensures Upper(l)[k] == r[k] {
      if k < |a| {
        assert l[k] == a[k];
      } else if k > |a| {
        assert l[k] == b[k - |a| - 1];
      }
    }
  }

  /** Upper-casing adds no `;`. */
  lemma UpperNoSeparator(s: string)
    requires ';' !in s
    ensures ';' !in Upper(s)
  {
  }

  /** Upper-casing a joined list upper-cases each piece: `;` has no case. */
  lemma {:induction false} UpperJoin(parts: seq<string>)
    requires |parts| >= 1
    ensures Upper(Join(parts, ';')) == Join(UpperAll(parts), ';')
    decreases |parts|
  {
    if |parts| > 1 {
      UpperJoin(parts[1..]);
      assert UpperAll(parts[1..]) == UpperAll(parts)[1..];
      UpperAround(parts[0], Join(parts[1..], ';'));
    }
  }

  /** An `in` filter written as a `;`-separated list passes exactly when the
      upper-cased field text loosely equals one of the upper-cased list items. */
  lemma InList(field: Value, items: seq<string>)
    requires |items| >= 1
    requires forall i | 0 <= i < |items| :: ';' !in items[i]
    ensures CheckFilter(field, In, Str(Join(items, ';'))) <==> LooselyIn(Upper(Text(field)), UpperAll(items))
  {
    var joined := Join(items, ';');
    var ups := UpperAll(items);
    UpperJoin(items);
    forall i | 0 <= i < |ups| ensures ';' !in ups[i] {
      UpperNoSeparator(items[i]);
    }
    SplitJoin(ups, ';');
    assert Split(Upper(joined), ';') == ups;
    InIsMembership(field, Str(joined));
  }

  /** The `in` operator is loose list membership after upper-casing. */
  lemma InIsMembership(field: Value, filter: Value)
    ensures CheckFilter(field, In, filter) <==> LooselyIn(Upper(Text(field)), Split(Upper(Text(filter)), ';'))
  {
  }

  /** What `filterDocument()` returns: false for a stopped job, -1 when a
      filter fails, true when every filter passes. */
  datatype FilterOutcome = Inactive | FilteredOut | Passed

  /** Whether the document's source data passes one rule filter. */
  predicate Passes(sourceData: Record, f: RuleFilter) {
    CheckFilter(Get(sourceData, f.target), ParseOperator(f.op), f.value)
  }

  /** A rule filter: a source field, an operator name and a value. */
  datatype RuleFilter = RuleFilter(target: string, op: string, value: Value)

  /** The notes of a failing filter: the unknown-operator note first, if any,
      then the filtered note. */
  function FailNotes(f: RuleFilter): seq<Note> {
    (if ParseOperator(f.op).Unknown? then [UnknownOperator(f.op)] else []) + [Filtered(f.target, f.op, f.value)]
  }

  /** The filter loop (388-395): stops at the first failing filter `k`,
      sets the status Filter and reports `Some(k)`; None when all pass. */
  function FilterLoop(w: World, env: Env, filters: seq<RuleFilter>): (r: (World, Option<nat>))
    ensures r.1.None? <==> forall j | 0 <= j < |filters| :: Passes(w.e.sourceData, filters[j])
    ensures r.1.None? ==> r.0 == w
    ensures r.1.Some? ==>
      && r.1.value < |filters|
      && !Passes(w.e.sourceData, filters[r.1.value])
      && (forall j | 0 <= j < r.1.value :: Passes(w.e.sourceData, filters[j]))
      && r.0 == FilterOut(w, env, filters[r.1.value])
  {
    match FindFirst(filters, f => !Passes(w.e.sourceData, f))
    case None => (w, None)
    case Some(k) => (FilterOut(w, env, filters[k]), Some(k))
  }

  /** A failing filter (389-391): the unknown-operator note of `checkFilter()`
      (555) if any, the filtered note, then the status Filter. */
  function FilterOut(w: World, env: Env, f: RuleFilter): (r: World)
    ensures Trail(r) == Trail(w) + FailNotes(f) + [StatusNote(env, Filter)]
    ensures WriteOk(env, StatusUpdate(Filter)) ==> r.e.status == Some(Filter)
    ensures Step(w, r)
  {
    var w1 := if ParseOperator(f.op).Unknown? then Say(w, UnknownOperator(f.op)) else w;
    var w2 := Say(w1, Filtered(f.target, f.op, f.value));
    assert Trail(w2) == Trail(w) + FailNotes(f);
    StepKeepsTables(w, w2);
    var r := UpdateStatus(w2, env, Filter);
    StepTrans(w, w2, r);
    r
  }

  /** `filterDocument()`. */
  function FilterDocument(w: World, env: Env, filters: seq<RuleFilter>): (r: (World, FilterOutcome))
    ensures r.1 == Inactive <==> !w.e.jobActive
    ensures !w.e.jobActive ==> r.1 == Inactive && r.0.db == w.db && Trail(r.0) == Trail(w) + [JobNotActive]
    ensures w.e.jobActive ==> (r.1 == Passed <==> forall j | 0 <= j < |filters| :: Passes(w.e.sourceData, filters[j]))
    ensures w.e.jobActive && |filters| == 0 ==> r.1 == Passed
    ensures r.1 == Passed && WriteOk(env, StatusUpdate(FilterOk)) ==> r.0.e.status == Some(FilterOk)
    ensures r.1 == FilteredOut && WriteOk(env, StatusUpdate(Filter)) ==> r.0.e.status == Some(Filter)
    ensures r.1 == Passed ==> Trail(r.0) == Trail(w) + [StatusNote(env, FilterOk)]
    ensures r.1 == FilteredOut ==> exists k | 0 <= k < |filters| ::
      && !Passes(w.e.sourceData, filters[k])
      && (forall j | 0 <= j < k :: Passes(w.e.sourceData, filters[j]))
      && Trail(r.0) == Trail(w) + FailNotes(filters[k]) + [StatusNote(env, Filter)]
    ensures Step(w, r.0)
  {
    if !w.e.jobActive then (Say(w, JobNotActive), Inactive)
    else
      var (w1, failed) := FilterLoop(w, env, filters);
      if failed.None? then (UpdateStatus(w1, env, FilterOk), Passed) else (w1, FilteredOut)
  }
}

=== FILE: messages.dfy ===
/** The document message buffer and the log rows it is flushed into
    (src/Manager/DocumentManager.php:2264-2285). Each fragment the engine
    appends to its message is one `Note`. */
module Messages {
  import opened Values
  import opened Statuses

  /** One fragment of the document message. */
  datatype Note =
    // Mutators and the log.
    | JobNotActive
    | StatusSet(status: Status)
    | StatusWriteFailed
    | TypeSet(docType: DocType)
    | TypeWriteFailed
    | TargetIdSet(targetId: string)
    | TargetIdWriteFailed
    | FlagSet(deleted: bool)
    | FlagWriteFailed(deleted: bool)
    // Filter stage.
    | UnknownOperator(op: string)
    | Filtered(field: string, op: string, value: Value)
    // Predecessor stage.
    | PredecessorBlocked(docId: string, ruleId: string)
    | NoTypeFound
    | NeverSent
    | MissingTargetId
    | TargetIdNotSaved
    | CreateOnlyRule
    // Relationship stage.
    | EmptySource(field: string)
    | MissingNotChecked(field: string)
    | ParentFiltered
    | RelatedDocumentMissing(field: string)
    | RelationshipNotSaved(field: string)
    // Relationship resolution and classification.
    | DirectionUnknown(ruleId: string)
    | SearchFailed(ruleId: string)
    | TargetLinkMissing
    | EmptyElementIdSource(field: string)
    // Snapshots.
    | SnapshotNotSaved(kind: string)
    | HistoryNotSaved
    // Transformation.
    | UnknownFormulaField(field: string)
    | InvalidFormula(formula: string)
    | RelatedTargetIdMissing(value: Value, ruleId: string)
    | TransformFailed(field: string)
    | RelationshipValueMissing(field: string)
    | NoTargetData
    | DataNotSaved
    | TransformedDataMissing
    | UpdateTargetIdNotSaved(targetId: string)
    | UpdateTargetIdMissing
    // Target read.
    | ChildFailed(reason: string)
    | DeleteTargetGone
    | ReadError(error: string)
    | HistoryMissing(targetId: string)
    | DuplicateSearchNoTarget
    | DuplicateSearchFailed
    | FoundDuplicate(searchFields: Record)
    | IdenticalData

  /** A row of the log table. */
  datatype LogEntry = LogEntry(
    created: nat,
    severity: Severity,
    notes: seq<Note>,
    ruleId: string,
    docId: string,
    refDocId: string,
    jobId: string)

  /** Every note ever flushed into `logs`, oldest first. */
  function AllNotes(logs: seq<LogEntry>): (r: seq<Note>)
    ensures |logs| == 0 ==> r == []
    ensures forall i, n | 0 <= i < |logs| && n in logs[i].notes :: n in r
    ensures forall n | n in r :: exists i | 0 <= i < |logs| :: n in logs[i].notes
  {
    if |logs| == 0 then [] else AllNotes(logs[..|logs| - 1]) + logs[|logs| - 1].notes
  }

  /** Flushing one more log row extends the flushed notes by exactly that row's notes. */
  lemma AllNotesAppend(logs: seq<LogEntry>, entry: LogEntry)
    ensures AllNotes(logs + [entry]) == AllNotes(logs) + entry.notes
  {
    assert (logs + [entry])[..|logs|] == logs;
  }
}

=== FILE: numeric.dfy ===
/** PHP 8 numeric strings: which strings `==`, `<` and `in_array()` compare
    as numbers, and the numbers they stand for. Values are kept exact, as a
    signed decimal mantissa and a power of ten. */
module Numeric {
  import opened Wrappers

  /** The number `(neg ? -1 : 1) * mant * 10^exp`. */
  datatype Dec = Dec(neg: bool, mant: nat, exp: int)

  predicate IsDigit(c: char) {
    '0' <= c <= '9'
  }

  /** The whitespace PHP allows before and after a numeric string: space,
      tab, newline, carriage return, vertical tab and form feed. */
  predicate NumSpace(c: char) {
    c == ' ' || c == '\t' || c == '\n' || c == '\r' || c as int == 11 || c as int == 12
  }

  /** The end of the run of digits that starts at `i`. */
  function DigitEnd(s: string, i: nat): (r: nat)
    requires i <= |s|
    ensures i <= r <= |s|
    ensures forall k | i <= k < r :: IsDigit(s[k])
    ensures r == |s| || !IsDigit(s[r])
    decreases |s| - i
  {
    if i < |s| && IsDigit(s[i]) then DigitEnd(s, i + 1) else i
  }

  /** The end of the run of whitespace that starts at `i`. */
  function SpaceEnd(s: string, i: nat): (r: nat)
    requires i <= |s|
    ensures i <= r <= |s|
    ensures forall k | i <= k < r :: NumSpace(s[k])
    ensures r == |s| || !NumSpace(s[r])
    decreases |s| - i
  {
    if i < |s| && NumSpace(s[i]) then SpaceEnd(s, i + 1) else i
  }

  function Pow10(k: nat): (r: nat)
    ensures r >= 1
  {
    if k == 0 then 1 else 10 * Pow10(k - 1)
  }

  predicate AllDigits(d: string) {
    forall k | 0 <= k < |d| :: IsDigit(d[k])
  }

  /** The value of a string of decimal digits, most significant first. */
  function DigitsValue(d: string): (r: nat)
    requires AllDigits(d)
    decreases |d|
  {
    if |d| == 0 then 0 else 10 * DigitsValue(d[..|d| - 1]) + (d[|d| - 1] as int - '0' as int)
  }

  /** The digits the run from `i` covers. */
  function DigitRun(s: string, i: nat): (r: string)
    requires i <= |s|
    ensures AllDigits(r)
    ensures r == s[i..DigitEnd(s, i)]
  {
    var j := DigitEnd(s, i);
    assert forall k | 0 <= k < j - i :: s[i..j][k] == s[i + k];
    s[i..j]
  }

  /** Appending a digit multiplies the value by ten and adds the digit. */
  lemma DigitsValueSnoc(d: string, c: char)
    requires AllDigits(d) && IsDigit(c)
    ensures AllDigits(d + [c])
    ensures DigitsValue(d + [c]) == 10 * DigitsValue(d) + (c as int - '0' as int)
  {
    assert (d + [c])[..|d|] == d;
  }

  predicate AllZeros(z: string) {
    forall k | 0 <= k < |z| :: z[k] == '0'
  }

  /** Appending zeros multiplies the value by a power of ten. */
  lemma {:induction false} DigitsValueZeros(a: string, z: string)
    requires AllDigits(a) && AllZeros(z)
    ensures AllDigits(a + z)
    ensures DigitsValue(a + z) == DigitsValue(a) * Pow10(|z|)
    decreases |z|
  {
    if |z| == 0 {
      assert a + z == a;
    } else {
      var y := z[..|z| - 1];
      DigitsValueZeros(a, y);
      assert a + z == (a + y) + ['0'];
      DigitsValueSnoc(a + y, '0');
      assert DigitsValue(a + z) == 10 * (DigitsValue(a) * Pow10(|y|));
    }
  }

  /** The exponent that starts at `i`: `e` or `E`, an optional sign and at
      least one digit, with the index after it. Without one: 0 and `i`. */
  function Exponent(s: string, i: nat): (r: (int, nat))
    requires i <= |s|
    ensures i <= r.1 <= |s|
    ensures r.1 == i ==> r.0 == 0
    ensures r.1 > i ==> s[i] == 'e' || s[i] == 'E'
  {
    if i < |s| && (s[i] == 'e' || s[i] == 'E') then
      var signed := i + 1 < |s| && (s[i + 1] == '+' || s[i + 1] == '-');
      var j := if signed then i + 2 else i + 1;
      var k := DigitEnd(s, j);
      if k == j then (0, i)
      else
        var v: int := DigitsValue(DigitRun(s, j));
        (if signed && s[i + 1] == '-' then -v else v, k)
    else (0, i)
  }

  /** The mantissa that starts at `i`: digits with an optional decimal point
      and at least one digit on either side of it. Its digits without the
      point, how many of them follow the point, and the index after it; None
      when there is no digit. */
  function Mantissa(s: string, i: nat): (r: Option<(string, nat, nat)>)
    requires i <= |s|
    ensures r.Some? ==> AllDigits(r.value.0) && r.value.1 <= |r.value.0| && i < r.value.2 <= |s|
    ensures (forall k | i <= k < |s| :: !IsDigit(s[k])) ==> r.None?
  {
    var j := DigitEnd(s, i);
    if j < |s| && s[j] == '.' then
      var k := DigitEnd(s, j + 1);
      if j == i && k == j + 1 then None
      else
        var d := DigitRun(s, i) + DigitRun(s, j + 1);
        assert AllDigits(d) by {
          assert forall m | 0 <= m < |d| :: d[m] == if m < j - i then DigitRun(s, i)[m] else DigitRun(s, j + 1)[m - (j - i)];
        }
        Some((d, k - j - 1, k))
    else if j == i then None
    else Some((DigitRun(s, i), 0, j))
  }

  /** PHP 8's numeric string test, with the number: optional whitespace, an
      optional sign, a mantissa, an optional exponent, optional whitespace.
      Anything else (a hexadecimal, a trailing letter, no digit at all) is
      not numeric. */
  function ParseNumeric(s: string): (r: Option<Dec>)
    ensures (forall k | 0 <= k < |s| :: !IsDigit(s[k])) ==> r.None?
  {
    var i0 := SpaceEnd(s, 0);
    var signed := i0 < |s| && (s[i0] == '+' || s[i0] == '-');
    var i1 := if signed then i0 + 1 else i0;
    match Mantissa(s, i1)
    case None => None
    case Some((digits, fracLen, i2)) =>
      var (e, i3) := Exponent(s, i2);
      if SpaceEnd(s, i3) != |s| then None
      else Some(Dec(signed && s[i0] == '-', DigitsValue(digits), e - fracLen))
  }

  /** A run of digits, with a minus sign or none before it, is a numeric
      string for the integer it spells. */
  lemma ParseSignedDigits(sign: string, t: string)
    requires sign == "" || sign == "-"
    requires |t| >= 1 && AllDigits(t)
    ensures ParseNumeric(sign + t).Some?
    ensures ParseNumeric(sign + t).value.mant == DigitsValue(t)
    ensures ParseNumeric(sign + t).value.exp == 0
    ensures ParseNumeric(sign + t).value.neg <==> sign == "-"
  {
    var s := sign + t;
    SignedDigitsParts(sign, t);
    var signed := 0 < |s| && (s[0] == '+' || s[0] == '-');
    var i1 := if signed then 1 else 0;
    assert i1 == |sign|;
    assert Exponent(s, |s|) == (0, |s|);
    assert SpaceEnd(s, |s|) == |s|;
    assert signed && s[0] == '-' <==> sign == "-";
  }

  /** The pieces of a signed run of digits: no leading space, the sign, and
      a mantissa up to the end with no fraction. */
  lemma SignedDigitsParts(sign: string, t: string)
    requires sign == "" || sign == "-"
    requires |t| >= 1 && AllDigits(t)
    ensures SpaceEnd(sign + t, 0) == 0
    ensures var s := sign + t;
      (|s| > 0 && (s[0] == '+' || s[0] == '-')) <==> sign == "-"
    ensures Mantissa(sign + t, |sign|) == Some((t, 0, |sign + t|))
  {
    var s := sign + t;
    var i1 := |sign|;
    assert s[i1..] == t;
    assert s[i1] == t[0];
    assert DigitEnd(s, i1) == |s| by {
      DigitsToEnd(s, i1);
    }
    assert DigitRun(s, i1) == t;
  }

  /** Digits, a decimal point and more digits form a numeric string for
      the digits read together, scaled down by the number after the point. */
  lemma ParseFraction(a: string, b: string)
    requires |a| >= 1 && AllDigits(a) && |b| >= 1 && AllDigits(b)
    ensures ParseNumeric(a + "." + b).Some?
    ensures ParseNumeric(a + "." + b).value.mant == DigitsValue(a + b)
    ensures ParseNumeric(a + "." + b).value.exp == -|b|
    ensures !ParseNumeric(a + "." + b).value.neg
  {
    var s := a + "." + b;
    FractionParts(a, b);
    assert Exponent(s, |s|) == (0, |s|);
    assert SpaceEnd(s, |s|) == |s|;
  }

  /** The pieces of a decimal fraction: no leading space or sign, and a
      mantissa up to the end whose digits are those on both sides. */
  lemma FractionParts(a: string, b: string)
    requires |a| >= 1 && AllDigits(a) && |b| >= 1 && AllDigits(b)
    ensures SpaceEnd(a + "." + b, 0) == 0
    ensures (a + "." + b)[0] != '+' && (a + "." + b)[0] != '-'
    ensures AllDigits(a + b)
    ensures Mantissa(a + "." + b, 0) == Some((a + b, |b|, |a + "." + b|))
  {
    var s := a + "." + b;
    assert s[0] == a[0];
    assert s[..|a|] == a;
    assert s[|a|] == '.';
    assert s[|a| + 1..] == b;
    assert DigitEnd(s, 0) == |a| by {
      DigitsUpTo(s, 0, |a|);
    }
    assert DigitEnd(s, |a| + 1) == |s| by {
      DigitsToEnd(s, |a| + 1);
    }
    assert DigitRun(s, 0) == a;
    assert DigitRun(s, |a| + 1) == b;
    assert AllDigits(a + b) by {
      assert forall m | 0 <= m < |a + b| :: (a + b)[m] == if m < |a| then a[m] else b[m - |a|];
    }
  }

  /** A run of digits ended by a non-digit ends the run there. */
  lemma DigitsUpTo(s: string, i: nat, j: nat)
    requires i <= j < |s|
    requires forall k | i <= k < j :: IsDigit(s[k])
    requires !IsDigit(s[j])
    ensures DigitEnd(s, i) == j
    decreases j - i
  {
    if i < j {
      DigitsUpTo(s, i + 1, j);
    }
  }

  /** Digits up to the end of the string make the run end there. */
  lemma DigitsToEnd(s: string, i: nat)
    requires i <= |s|
    requires forall k | i <= k < |s| :: IsDigit(s[k])
    ensures DigitEnd(s, i) == |s|
  {
  }

  /** The signed mantissa of `d` written over the power of ten `m`. */
  function Scaled(d: Dec, m: int): int
    requires m <= d.exp
  {
    (if d.neg then -1 else 1) * d.mant * Pow10(d.exp - m)
  }

  /** The numeric three-way comparison of two numbers. */
  function DecCmp(a: Dec, b: Dec): (r: int)
    ensures -1 <= r <= 1
  {
    var m := if a.exp <= b.exp then a.exp else b.exp;
    var x := Scaled(a, m);
    var y := Scaled(b, m);
    if x < y then -1 else if x == y then 0 else 1
  }

  /** `p * 10^-k` and `m` are the same number when `p == m * 10^k`. */
  lemma SameNumber(p: nat, m: nat, k: nat)
    requires p == m * Pow10(k)
    ensures DecCmp(Dec(false, p, -(k as int)), Dec(false, m, 0)) == 0
  {
    assert Scaled(Dec(false, p, -(k as int)), -(k as int)) == p;
    assert Scaled(Dec(false, m, 0), -(k as int)) == m * Pow10(k);
  }

  /** Swapping the operands flips the comparison; a number equals itself. */
  lemma DecCmpAntisymmetric(a: Dec, b: Dec)
    ensures DecCmp(a, b) == -DecCmp(b, a)
    ensures DecCmp(a, a) == 0
  {
  }

  /** Trailing zeros do not change a number: `m * 10^(e+1)` equals
      `(10 * m) * 10^e`, and zero equals minus zero. */
  lemma DecCmpScale(neg: bool, mant: nat, exp: int)
    ensures DecCmp(Dec(neg, mant, exp + 1), Dec(neg, 10 * mant, exp)) == 0
    ensures DecCmp(Dec(true, 0, exp), Dec(false, 0, exp)) == 0
  {
    assert Pow10(1) == 10;
  }
}

=== FILE: parents.dfy ===
/** The relationship stage, `ckeckParentDocument()`
    (src/Manager/DocumentManager.php:736-845): every relationship of the rule
    must resolve to a document of its related rule, unless the rule is a
    child rule or the relationship is exempted by its flags. */
module Parents {
  import opened Wrappers
  import opened Values
  import opened Statuses
  import opened Rules
  import opened Messages
  import opened Store
  import opened Engine
  import opened Relate
  import opened Classify

  /** `insertDocumentRelationship()` (1974-1992): records which document
      settled a relationship of the current document; a failed write is
      only a warning. */
  function InsertDocumentRelationship(w: World, env: Env, rel: Relationship, docRelId: string): (r: World)
    ensures env.persistOk ==> r.db.links == w.db.links + [DocLink(w.e.id, docRelId, rel.fieldNameSource)] && r.e == w.e
    ensures !env.persistOk ==> r.db == w.db && r.e.typeError == Warning && Trail(r) == Trail(w) + [RelationshipNotSaved(rel.fieldNameSource)]
    ensures Step(w, r)
    ensures r.e == w.e.(message := r.e.message, typeError := r.e.typeError)
  {
    if env.persistOk then
      var r := World(w.e, w.db.(links := w.db.links + [DocLink(w.e.id, docRelId, rel.fieldNameSource)]));
      assert Trail(r) == Trail(w);
      r
    else
      World(w.e.(message := w.e.message + [RelationshipNotSaved(rel.fieldNameSource)], typeError := Warning), w.db)
  }

  /** How the relationship loop ends: every relationship passed, one is
      missing, or its related document was filtered. */
  datatype LoopEnd = Passed | Missing(rel: Relationship) | ParentIsFiltered(docId: string)

  /** The source value of a relationship. */
  function SourceValue(w: World, rel: Relationship): Value {
    Get(w.e.sourceData, rel.fieldNameSource)
  }

  /** Whether a relationship is exempt from resolution (761-782): a blank
      source value without `errorEmpty`, no `errorMissing`, or the parent
      flag. A blank source value with `errorEmpty` is never exempt. */
  predicate Exempt(w: World, rel: Relationship) {
    if Blank(SourceValue(w, rel)) then !rel.errorEmpty
    else !rel.errorMissing || rel.parent
  }

  /** The resolution of a relationship that is not exempt (785-801): the
      settling document is recorded; without one, a filtered related
      document is reported, and otherwise the relationship is missing. */
  function Resolve(w: World, env: Env, rel: Relationship, v: Value): (r: (World, LoopEnd))
    ensures var t := GetTargetId(w, env, rel, v).1;
      && (r.1 == Passed <==> t.Some?)
      && (t.Some? && env.persistOk ==> r.0.db.links == w.db.links + [DocLink(w.e.id, t.value.documentId, rel.fieldNameSource)])
    ensures r.1.Missing? ==> r.1.rel == rel
    ensures r.1.ParentIsFiltered? ==> !EmptyText(r.1.docId) && Direction(env.cfg, rel).Some? && exists j | 0 <= j < |w.db.docs| ::
      && w.db.docs[j].id == r.1.docId
      && HasStatus(w.db.docs[j], rel.fieldId, v, Direction(env.cfg, rel).value, Filter)
    ensures Step(w, r.0) && r.0.db.docs == w.db.docs
    ensures r.0.e == w.e.(message := r.0.e.message, typeError := r.0.e.typeError)
  {
    var (w1, t) := GetTargetId(w, env, rel, v);
    match t
    case Some(found) =>
      var w2 := InsertDocumentRelationship(w1, env, rel, found.documentId);
      StepTrans(w, w1, w2);
      (w2, Passed)
    case None =>
      var (w2, d) := SearchRelateDocumentByStatus(w1, env, rel, v, Filter);
      StepTrans(w, w1, w2);
      match d
      case Some(parent) => (w2, ParentIsFiltered(parent.id))
      case None => (w2, Missing(rel))
  }

  /** One relationship of the loop (761-801). */
  function CheckRelationship(w: World, env: Env, rel: Relationship): (r: (World, LoopEnd))
    ensures Blank(SourceValue(w, rel)) && rel.errorEmpty ==> r == (w, Missing(rel))
    ensures Exempt(w, rel) ==> r.1 == Passed && r.0.db == w.db
    ensures !Exempt(w, rel) && !Blank(SourceValue(w, rel)) ==> r == Resolve(w, env, rel, SourceValue(w, rel))
    ensures r.1.Missing? ==> r.1.rel == rel
    ensures Step(w, r.0) && r.0.db.docs == w.db.docs
    ensures r.0.e == w.e.(message := r.0.e.message, typeError := r.0.e.typeError)
  {
    var v := SourceValue(w, rel);
    StepRefl(w);
    if Blank(v) then
      if rel.errorEmpty then (w, Missing(rel))
      else
        var w1 := Say(w, EmptySource(rel.fieldNameSource));
        SayStep(w, EmptySource(rel.fieldNameSource));
        (w1, Passed)
    else if !rel.errorMissing then
      var w1 := Say(w, MissingNotChecked(rel.fieldNameTarget));
      SayStep(w, MissingNotChecked(rel.fieldNameTarget));
      (w1, Passed)
    else if rel.parent then (w, Passed)
    else Resolve(w, env, rel, v)
  }

  /** The loop over the relationships (760-802): it stops at the first that
      is missing or whose related document was filtered. */
  function RelationshipLoop(w: World, env: Env, rels: seq<Relationship>): (r: (World, LoopEnd))
    ensures r.1.Missing? ==> r.1.rel in rels
    ensures |rels| == 0 ==> r == (w, Passed)
    ensures Step(w, r.0) && r.0.db.docs == w.db.docs
    ensures r.0.e == w.e.(message := r.0.e.message, typeError := r.0.e.typeError)
    decreases |rels|
  {
    if |rels| == 0 then (w, Passed)
    else
      var (w1, end) := CheckRelationship(w, env, rels[0]);
      if end != Passed then (w1, end)
      else
        var r := RelationshipLoop(w1, env, rels[1..]);
        StepTrans(w, w1, r.0);
        assert forall i | 1 <= i < |rels| :: rels[i] == rels[1..][i - 1];
        r
  }

  /** A relationship that lets the loop pass: exempt by its flags, or
      resolved to a settling document of its related rule. */
  predicate Settled(w: World, env: Env, rel: Relationship) {
    || Exempt(w, rel)
    || (!Blank(SourceValue(w, rel)) && GetTargetId(w, env, rel, SourceValue(w, rel)).1.Some?)
  }

  /** The loop passes exactly when every relationship is settled in the
      world it started from: what the loop itself changes (notes, severity,
      relationship rows) plays no part in the resolution of the next one. */
  lemma {:induction false} RelationshipLoopPasses(w: World, env: Env, rels: seq<Relationship>)
    ensures RelationshipLoop(w, env, rels).1 == Passed <==> forall i | 0 <= i < |rels| :: Settled(w, env, rels[i])
    decreases |rels|
  {
    if |rels| > 0 {
      var (w1, end) := CheckRelationship(w, env, rels[0]);
      CheckRelationshipSettled(w, env, rels[0]);
      if end == Passed {
        RelationshipLoopPasses(w1, env, rels[1..]);
        LoopPassesAfterFirst(w, w1, env, rels);
      } else {
        assert RelationshipLoop(w, env, rels).1 == end && !Settled(w, env, rels[0]);
      }
    }
  }

  /** Every relationship of the sequence is settled. */
  predicate AllSettled(w: World, env: Env, rels: seq<Relationship>) {
    forall i | 0 <= i < |rels| :: Settled(w, env, rels[i])
  }

  /** The step of that induction: once the first relationship is settled,
      the rest are settled in the world it left exactly when they are in the
      world before it. */
  lemma LoopPassesAfterFirst(w: World, w1: World, env: Env, rels: seq<Relationship>)
    requires |rels| > 0 && CheckRelationship(w, env, rels[0]).0 == w1 && CheckRelationship(w, env, rels[0]).1 == Passed
    requires RelationshipLoop(w1, env, rels[1..]).1 == Passed <==> AllSettled(w1, env, rels[1..])
    ensures RelationshipLoop(w, env, rels).1 == Passed <==> AllSettled(w, env, rels)
  {
    CheckRelationshipSettled(w, env, rels[0]);
    assert RelationshipLoop(w, env, rels).1 == RelationshipLoop(w1, env, rels[1..]).1;
    TailSettled(w, w1, env, rels[1..]);
    SettledFromFirst(w, env, rels);
  }

  /** Relationships are settled alike in two worlds that differ only in
      notes, severity and relationship rows. */
  lemma TailSettled(w: World, w1: World, env: Env, rels: seq<Relationship>)
    requires w1.e == w.e.(message := w1.e.message, typeError := w1.e.typeError)
    requires w1.db.docs == w.db.docs
    ensures AllSettled(w1, env, rels) <==> AllSettled(w, env, rels)
  {
    forall i | 0 <= i < |rels|
      ensures Settled(w1, env, rels[i]) == Settled(w, env, rels[i])
    {
      SettledFrame(w, w1, env, rels[i]);
    }
  }

  /** With the first relationship settled, all are exactly when the rest are. */
  lemma SettledFromFirst(w: World, env: Env, rels: seq<Relationship>)
    requires |rels| > 0 && Settled(w, env, rels[0])
    ensures AllSettled(w, env, rels) <==> AllSettled(w, env, rels[1..])
  {
    AllFromFirst(rels, rel => Settled(w, env, rel));
  }

  /** A property holds of every element exactly when it holds of the first
      and of every later one. */
  lemma AllFromFirst<T>(xs: seq<T>, p: T -> bool)
    requires |xs| > 0 && p(xs[0])
    ensures (forall i | 0 <= i < |xs| :: p(xs[i])) <==> (forall i | 0 <= i < |xs[1..]| :: p(xs[1..][i]))
  {
    assert forall i | 0 <= i < |xs[1..]| :: xs[1..][i] == xs[i + 1];
  }

  /** One relationship lets the loop go on exactly when it is settled. */
  lemma CheckRelationshipSettled(w: World, env: Env, rel: Relationship)
    ensures CheckRelationship(w, env, rel).1 == Passed <==> Settled(w, env, rel)
  {
  }

  /** Whether a relationship is settled does not depend on the notes, the
      severity or the relationship rows. */
  lemma SettledFrame(w: World, w1: World, env: Env, rel: Relationship)
    requires w1.e == w.e.(message := w1.e.message, typeError := w1.e.typeError)
    requires w1.db.docs == w.db.docs
    ensures Settled(w1, env, rel) == Settled(w, env, rel)
  {
    GetTargetIdReads(w, w1, env, rel, SourceValue(w, rel));
  }

  /** The re-classification after a Relate_KO (822-833): a Create document
      may have become an Update since, in which case its target id and its
      type are stored. The classification result replaces the type held in
      memory. */
  function Reclassify(w: World, env: Env): (r: World)
    ensures |r.db.docs| == |w.db.docs|
    ensures !(w.e.status == Some(RelateKo) && w.e.docType == Some(Create)) ==> r == w
    ensures w.e.status == Some(RelateKo) && w.e.docType == Some(Create) ==>
      r.e.docType == CheckRecordExist(w, env, Str(w.e.sourceId)).1
    ensures w.e.status == Some(RelateKo) && w.e.docType == Some(Create) && r.e.docType == Some(Update) && WriteOk(env, TypeUpdate(Update)) ==>
      forall i | 0 <= i < |w.db.docs| && w.db.docs[i].id == w.e.id :: r.db.docs[i].docType == Some(Update)
    ensures w.e.status == Some(RelateKo) && w.e.docType == Some(Create) && r.e.docType == Some(Update) && WriteOk(env, TargetIdUpdate(r.e.targetId)) ==>
      forall i | 0 <= i < |w.db.docs| && w.db.docs[i].id == w.e.id :: r.db.docs[i].targetId == r.e.targetId
    ensures r.e.status == w.e.status
    ensures Step(w, r)
  {
    if !(w.e.status == Some(RelateKo) && w.e.docType == Some(Create)) then w
    else
      var (w1, t) := CheckRecordExist(w, env, Str(w.e.sourceId));
      var w2 := World(w1.e.(docType := t), w1.db);
      StepKeepsTables(w1, w2);
      StepTrans(w, w1, w2);
      if t != Some(Update) then w2
      else
        var w3 := StoreUpdate(w2, env);
        StepTrans(w, w2, w3);
        w3
  }

  /** A re-classified update is stored (829-830): its target id, then the
      type U. */
  function StoreUpdate(w: World, env: Env): (r: World)
    ensures |r.db.docs| == |w.db.docs|
    ensures WriteOk(env, TypeUpdate(Update)) ==> forall i | 0 <= i < |w.db.docs| && w.db.docs[i].id == w.e.id ::
      r.db.docs[i].docType == Some(Update)
    ensures forall i | 0 <= i < |w.db.docs| && w.db.docs[i].id == w.e.id ::
      r.db.docs[i].targetId == if WriteOk(env, TargetIdUpdate(w.e.targetId)) then w.e.targetId else w.db.docs[i].targetId
    ensures r.e.status == w.e.status && r.e.docType == w.e.docType && r.e.targetId == w.e.targetId
    ensures Step(w, r)
  {
    var (w1, _) := UpdateTargetId(w, env, w.e.targetId);
    UpdateTargetIdStep(w, env, w.e.targetId);
    var w2 := UpdateType(w1, env, Update);
    StepTrans(w, w1, w2);
    w2
  }

  /** Whether the relationships of the current document are checked at all:
      a Delete and a document of a child rule are not (746-757). */
  predicate Checked(w: World, env: Env) {
    w.e.docType != Some(Delete) && |w.e.ruleRelationships| > 0 && !IsChild(env.cfg, w.e.ruleId)
  }

  /** The end of the stage after the loop (804-844): a missing related
      document is an error (Relate_KO); a filtered one filters this document
      too, with a warning and that document as reference; otherwise the
      re-classification runs and the status is Relate_OK. */
  function AfterLoop(w: World, env: Env, end: LoopEnd): (r: (World, bool))
    ensures r.1 <==> end == Passed
    ensures r.1 && WriteOk(env, StatusUpdate(RelateOk)) ==> r.0.e.status == Some(RelateOk)
    ensures end.Missing? ==>
      && r.0.e.typeError == Failure
      && Trail(w) + [RelatedDocumentMissing(end.rel.fieldNameSource)] <= Trail(r.0)
      && (WriteOk(env, StatusUpdate(RelateKo)) ==> r.0.e.status == Some(RelateKo))
    ensures end.ParentIsFiltered? ==>
      && r.0.e.docIdRefError == end.docId
      && Trail(w) + [ParentFiltered] <= Trail(r.0)
      && (WriteOk(env, StatusUpdate(Filter)) ==> r.0.e.typeError == Warning && r.0.e.status == Some(Filter))
    ensures Step(w, r.0)
  {
    match end
    case Missing(rel) =>
      var w1 := Fail(w, RelatedDocumentMissing(rel.fieldNameSource));
      StepKeepsTables(w, w1);
      var w2 := UpdateStatus(w1, env, RelateKo);
      StepTrans(w, w1, w2);
      (w2, false)
    case ParentIsFiltered(id) =>
      var w1 := Say(World(w.e.(docIdRefError := id, typeError := Warning), w.db), ParentFiltered);
      StepKeepsTables(w, w1);
      var w2 := UpdateStatus(w1, env, Filter);
      StepTrans(w, w1, w2);
      (w2, false)
    case Passed =>
      var w1 := Reclassify(w, env);
      var w2 := UpdateStatus(w1, env, RelateOk);
      StepTrans(w, w1, w2);
      (w2, true)
  }

  /** `ckeckParentDocument()`. A Delete passes at once, and so does every
      document of a rule without relationships or of a child rule; otherwise
      the relationship loop decides. */
  function CheckParentDocument(w: World, env: Env): (r: (World, bool))
    ensures !w.e.jobActive ==> !r.1 && r.0 == Say(w, JobNotActive)
    ensures w.e.jobActive && w.e.docType == Some(Delete) ==> r == (UpdateStatus(w, env, RelateOk), true)
    ensures w.e.jobActive && !Checked(w, env) ==> r.1
    ensures w.e.jobActive && Checked(w, env) ==>
      var (w1, end) := RelationshipLoop(w, env, w.e.ruleRelationships);
      r == AfterLoop(w1, env, end)
    ensures r.1 && WriteOk(env, StatusUpdate(RelateOk)) ==> r.0.e.status == Some(RelateOk)
    ensures Step(w, r.0)
  {
    if !w.e.jobActive then
      StepKeepsTables(w, Say(w, JobNotActive));
      (Say(w, JobNotActive), false)
    else if w.e.docType == Some(Delete) then (UpdateStatus(w, env, RelateOk), true)
    else
      var (w1, end) := if Checked(w, env) then RelationshipLoop(w, env, w.e.ruleRelationships) else (w, Passed);
      var r := AfterLoop(w1, env, end);
      StepTrans(w, w1, r.0);
      r
  }
}

=== FILE: predecessor.dfy ===
/** The predecessor stage, `ckeckPredecessorDocument()`
    (src/Manager/DocumentManager.php:562-733): no earlier unfinished document
    may exist for the same record, on the rule, on its bidirectional twin or
    on its child rules; then the document gets its type and, for an update
    or a deletion, its target id. */
module Predecessor {
  import opened Wrappers
  import opened Values
  import opened Statuses
  import opened Rules
  import opened Messages
  import opened Store
  import opened Engine
  import opened Classify

  /** A blocking document and the rule whose query found it. */
  datatype Block = Block(doc: DocRow, ruleId: string)

  /** What one predecessor query reports: the first matching row, which only
      blocks when its id is not empty-like. */
  function Blocking(docs: seq<DocRow>, ruleId: string, sourceId: string, before: nat, relaxed: bool): (r: Option<DocRow>)
    ensures r.Some? ==> r.value in docs && !EmptyText(r.value.id)
    ensures r.Some? ==> if relaxed then BlocksRelaxed(r.value, ruleId, sourceId, before) else Blocks(r.value, ruleId, sourceId, before)
    ensures (forall j | 0 <= j < |docs| :: !EmptyText(docs[j].id)) ==>
      (r.None? <==> forall j | 0 <= j < |docs| ::
        if relaxed then !BlocksRelaxed(docs[j], ruleId, sourceId, before) else !Blocks(docs[j], ruleId, sourceId, before))
  {
    match Blocker(docs, ruleId, sourceId, before, relaxed)
    case None => None
    case Some(d) => if EmptyText(d.id) then None else Some(d)
  }

  /** The loop over the child rules (651-661): the relaxed query on each, in
      order, up to the first that blocks. */
  function ChildBlocker(docs: seq<DocRow>, children: seq<string>, sourceId: string, before: nat): (r: Option<Block>)
    ensures r.Some? ==>
      && r.value.ruleId in children && r.value.doc in docs && !EmptyText(r.value.doc.id)
      && BlocksRelaxed(r.value.doc, r.value.ruleId, sourceId, before)
    ensures (forall j | 0 <= j < |docs| :: !EmptyText(docs[j].id)) ==>
      (r.None? <==> forall i, j | 0 <= i < |children| && 0 <= j < |docs| :: !BlocksRelaxed(docs[j], children[i], sourceId, before))
    decreases |children|
  {
    if |children| == 0 then None
    else
      match Blocking(docs, children[0], sourceId, before, true)
      case Some(d) => Some(Block(d, children[0]))
      case None =>
        var r := ChildBlocker(docs, children[1..], sourceId, before);
        assert forall i | 1 <= i < |children| :: children[i] == children[1..][i - 1];
        r
  }

  /** The three checks of 571-662 in order, with the parameters bound from
      the loaded row `d`: the rule itself, its bidirectional twin when the
      `bidirectional` parameter is set, then the child rules. */
  function FindBlocker(docs: seq<DocRow>, d: DocRow, bidirectional: string, children: seq<string>): (r: Option<Block>)
    ensures r.Some? ==>
      && r.value.doc in docs && !EmptyText(r.value.doc.id)
      && (|| (r.value.ruleId == d.ruleId && Blocks(r.value.doc, d.ruleId, d.sourceId, d.dateCreated))
          || (r.value.ruleId == bidirectional && !EmptyText(bidirectional) && Blocks(r.value.doc, bidirectional, d.sourceId, d.dateCreated))
          || (r.value.ruleId in children && BlocksRelaxed(r.value.doc, r.value.ruleId, d.sourceId, d.dateCreated)))
  {
    match Blocking(docs, d.ruleId, d.sourceId, d.dateCreated, false)
    case Some(b) => Some(Block(b, d.ruleId))
    case None =>
      var twin := if EmptyText(bidirectional) then None else Blocking(docs, bidirectional, d.sourceId, d.dateCreated, false);
      match twin
      case Some(b) => Some(Block(b, bidirectional))
      case None => ChildBlocker(docs, children, d.sourceId, d.dateCreated)
  }

  /** When every stored document has an id, nothing blocks exactly when no
      earlier unfinished document of the record exists on the rule, on the
      bidirectional rule, or, counting Ready_to_send as finished, on a child
      rule. */
  lemma FindBlockerNone(docs: seq<DocRow>, d: DocRow, bidirectional: string, children: seq<string>)
    requires forall j | 0 <= j < |docs| :: !EmptyText(docs[j].id)
    ensures FindBlocker(docs, d, bidirectional, children).None? <==>
      && (forall j | 0 <= j < |docs| :: !Blocks(docs[j], d.ruleId, d.sourceId, d.dateCreated))
      && (!EmptyText(bidirectional) ==> forall j | 0 <= j < |docs| :: !Blocks(docs[j], bidirectional, d.sourceId, d.dateCreated))
      && (forall i, j | 0 <= i < |children| && 0 <= j < |docs| :: !BlocksRelaxed(docs[j], children[i], d.sourceId, d.dateCreated))
  {
  }

  /** The child-rule ids as the source computes them name the current rule
      itself, so once the first query finds nothing the child check finds
      nothing either: the check behaves as if the rule had no child rule. */
  lemma AsWrittenChildCheckIsDead(cfg: Config, docs: seq<DocRow>, d: DocRow, bidirectional: string)
    requires forall j | 0 <= j < |docs| :: !EmptyText(docs[j].id)
    ensures FindBlocker(docs, d, bidirectional, ChildRuleIdsAsWritten(cfg, d.ruleId)) == FindBlocker(docs, d, bidirectional, [])
  {
    var children := ChildRuleIdsAsWritten(cfg, d.ruleId);
    if Blocking(docs, d.ruleId, d.sourceId, d.dateCreated, false).None? {
      forall i, j | 0 <= i < |children| && 0 <= j < |docs|
        ensures !BlocksRelaxed(docs[j], children[i], d.sourceId, d.dateCreated)
      {
        assert children[i] in children;
        assert !Blocks(docs[j], d.ruleId, d.sourceId, d.dateCreated);
      }
    }
  }

  /** The blocker of the current document: none without a loaded row, since
      the queries then bind SQL NULL. */
  function DocumentBlocker(w: World, env: Env): (r: Option<Block>)
    ensures w.e.loaded.None? ==> r.None?
    ensures w.e.loaded.Some? ==> r == FindBlocker(w.db.docs, w.e.loaded.value, Param(w.e.ruleParams, "bidirectional"), ChildRuleIds(env.cfg, w.e.loaded.value.ruleId))
  {
    match w.e.loaded
    case None => None
    case Some(d) => FindBlocker(w.db.docs, d, Param(w.e.ruleParams, "bidirectional"), ChildRuleIds(env.cfg, d.ruleId))
  }

  /** The exception path (723-732): the reference document, a note, the
      error severity and the status Predecessor_KO. */
  function Reject(w: World, env: Env, n: Note, ref: string): (r: (World, bool))
    ensures !r.1
    ensures r.0.e.docIdRefError == ref && r.0.e.typeError == Failure
    ensures WriteOk(env, StatusUpdate(PredecessorKo)) ==> r.0.e.status == Some(PredecessorKo)
    ensures Trail(w) + [n] <= Trail(r.0)
    ensures r.0.e.docType == w.e.docType
    ensures Step(w, r.0)
  {
    var w1 := Fail(World(w.e.(docIdRefError := ref), w.db), n);
    StepKeepsTables(w, w1);
    (UpdateStatus(w1, env, PredecessorKo), false)
  }

  /** The type of the document (664-678): a Delete keeps its type; otherwise
      the classification decides, overridden by S for a search rule. The
      type is held in memory and stored; no type at all is an error. */
  function SetType(w: World, env: Env): (r: (World, Option<Note>))
    ensures w.e.docType == Some(Delete) ==> r == (CheckRecordExist(w, env, Str(w.e.sourceId)).0, None)
    ensures w.e.docType != Some(Delete) && w.e.ruleMode == "S" ==> r.1.None? && r.0.e.docType == Some(Search)
    ensures r.1.None? ==> r.0.e.docType.Some?
    ensures r.1.None? && w.e.docType != Some(Delete) && w.e.ruleMode != "S" ==>
      r.0.e.docType == CheckRecordExist(w, env, Str(w.e.sourceId)).1
    ensures r.1.Some? ==> r.1.value == NoTypeFound
    ensures r.0.e.status == w.e.status
    ensures r.0.e.ruleMode == w.e.ruleMode && r.0.e.ruleId == w.e.ruleId
    ensures Step(w, r.0)
  {
    var (w1, found) := CheckRecordExist(w, env, Str(w.e.sourceId));
    if w.e.docType == Some(Delete) then (w1, None)
    else
      var t := if w.e.ruleMode == "S" then Some(Search) else found;
      var w2 := World(w1.e.(docType := t), w1.db);
      StepKeepsTables(w1, w2);
      StepTrans(w, w1, w2);
      if t.None? then (w2, Some(NoTypeFound))
      else
        var w3 := UpdateType(w2, env, t.value);
        StepTrans(w, w2, w3);
        (w3, None)
  }

  /** How the target id check ends. */
  datatype TargetCheck = Proceed | Cancelled | Broken(note: Note)

  /** The target id check (680-701): an update or a deletion of a rule that
      is not a child needs a target id, which is stored; a deletion without
      one is cancelled, since the record was never sent. */
  function CheckTarget(w: World, env: Env): (r: (World, TargetCheck))
    ensures !((w.e.docType == Some(Update) || w.e.docType == Some(Delete)) && !IsChild(env.cfg, w.e.ruleId)) ==> r == (w, Proceed)
    ensures r.1 == Cancelled <==>
      w.e.docType == Some(Delete) && !IsChild(env.cfg, w.e.ruleId) && EmptyText(w.e.targetId)
    ensures r.1 == Cancelled ==> Trail(w) + [NeverSent] <= Trail(r.0) && (WriteOk(env, StatusUpdate(Status.Cancel)) ==> r.0.e.status == Some(Status.Cancel))
    ensures |r.0.db.docs| == |w.db.docs|
    ensures r.1 == Proceed && (w.e.docType == Some(Update) || w.e.docType == Some(Delete)) && !IsChild(env.cfg, w.e.ruleId) ==>
      && !EmptyText(w.e.targetId) && WriteOk(env, TargetIdUpdate(w.e.targetId))
      && forall i | 0 <= i < |w.db.docs| && w.db.docs[i].id == w.e.id :: r.0.db.docs[i].targetId == w.e.targetId
    ensures r.1.Broken? ==> r.1.note == MissingTargetId || r.1.note == TargetIdNotSaved
    ensures r.1 == Broken(TargetIdNotSaved) <==>
      && (w.e.docType == Some(Update) || w.e.docType == Some(Delete)) && !IsChild(env.cfg, w.e.ruleId)
      && !EmptyText(w.e.targetId) && !WriteOk(env, TargetIdUpdate(w.e.targetId))
    ensures r.1 != Cancelled ==> r.0.e.status == w.e.status
    ensures r.0.e.docType == w.e.docType && r.0.e.targetId == w.e.targetId
    ensures r.0.e.ruleMode == w.e.ruleMode && r.0.e.ruleId == w.e.ruleId
    ensures Step(w, r.0)
  {
    if !((w.e.docType == Some(Update) || w.e.docType == Some(Delete)) && !IsChild(env.cfg, w.e.ruleId)) then (w, Proceed)
    else if EmptyText(w.e.targetId) then
      if w.e.docType == Some(Delete) then
        var w1 := Say(w, NeverSent);
        StepKeepsTables(w, w1);
        var w2 := UpdateStatus(w1, env, Status.Cancel);
        StepTrans(w, w1, w2);
        (w2, Cancelled)
      else (w, Broken(MissingTargetId))
    else
      var (w1, ok) := UpdateTargetId(w, env, w.e.targetId);
      UpdateTargetIdStep(w, env, w.e.targetId);
      (w1, if ok then Proceed else Broken(TargetIdNotSaved))
  }

  /** A create-only rule may not update or delete unless it is a child rule
      (708-720). */
  predicate CreateOnlyViolation(w: World, env: Env) {
    w.e.ruleMode == "C" && (w.e.docType == Some(Update) || w.e.docType == Some(Delete)) && !IsChild(env.cfg, w.e.ruleId)
  }

  /** The end of the stage (703-722): Predecessor_OK, then Filter for a
      create-only rule whose document would update or delete. */
  function Finish(w: World, env: Env): (r: (World, bool))
    ensures r.1 <==> !CreateOnlyViolation(w, env)
    ensures r.0.e.docType == w.e.docType && r.0.e.targetId == w.e.targetId
    ensures r.0.e.ruleMode == w.e.ruleMode && r.0.e.ruleId == w.e.ruleId
    ensures WriteOk(env, StatusUpdate(if r.1 then PredecessorOk else Filter)) ==> r.0.e.status == Some(if r.1 then PredecessorOk else Filter)
    ensures Trail(w) + [StatusNote(env, PredecessorOk)] <= Trail(r.0)
    ensures Step(w, r.0)
  {
    var w1 := UpdateStatus(w, env, PredecessorOk);
    if CreateOnlyViolation(w, env) then
      var w2 := Say(w1, CreateOnlyRule);
      StepKeepsTables(w1, w2);
      var w3 := UpdateStatus(w2, env, Filter);
      StepTrans(w1, w2, w3);
      StepTrans(w, w1, w3);
      (w3, false)
    else (w1, true)
  }

  /** What follows the blocker checks (664-732): the type, the target id
      and the final status, with the exception path for a missing type and a
      missing or unsaved target id. */
  function Settle(w: World, env: Env): (r: (World, bool))
    ensures r.1 ==> r.0.e.docType.Some? && !CreateOnlyViolation(r.0, env)
    ensures r.1 && WriteOk(env, StatusUpdate(PredecessorOk)) ==> r.0.e.status == Some(PredecessorOk)
    ensures r.1 && (r.0.e.docType == Some(Update) || r.0.e.docType == Some(Delete)) && !IsChild(env.cfg, r.0.e.ruleId) ==>
      !EmptyText(r.0.e.targetId)
    ensures w.e.docType == Some(Delete) ==> r.0.e.docType == Some(Delete)
    ensures r.0.e.ruleMode == w.e.ruleMode && r.0.e.ruleId == w.e.ruleId
    ensures Step(w, r.0)
  {
    var (w1, typeErr) := SetType(w, env);
    if typeErr.Some? then
      var r := Reject(w1, env, typeErr.value, "");
      StepTrans(w, w1, r.0);
      r
    else
      var (w2, check) := CheckTarget(w1, env);
      StepTrans(w, w1, w2);
      match check
      case Cancelled => (w2, false)
      case Broken(n) =>
        var r := Reject(w2, env, n, "");
        StepTrans(w, w2, r.0);
        r
      case Proceed =>
        var r := Finish(w2, env);
        StepTrans(w, w2, r.0);
        r
  }

  /** `ckeckPredecessorDocument()`. A blocking document ends the stage in
      Predecessor_KO with that document as reference; so do a missing type
      and a missing or unsaved target id, without reference. A deletion of a
      never sent record is cancelled. Otherwise the stage records
      Predecessor_OK and succeeds, unless the rule only creates. */
  function CheckPredecessorDocument(w: World, env: Env): (r: (World, bool))
    ensures !w.e.jobActive ==> !r.1 && r.0 == Say(w, JobNotActive)
    ensures w.e.jobActive && DocumentBlocker(w, env).Some? ==>
      && !r.1 && r.0.e.docIdRefError == DocumentBlocker(w, env).value.doc.id
      && r.0.e.typeError == Failure
      && (WriteOk(env, StatusUpdate(PredecessorKo)) ==> r.0.e.status == Some(PredecessorKo))
      && Trail(w) + [PredecessorBlocked(DocumentBlocker(w, env).value.doc.id, DocumentBlocker(w, env).value.ruleId)] <= Trail(r.0)
    ensures r.1 ==> DocumentBlocker(w, env).None? && r.0.e.docType.Some?
    ensures r.1 && WriteOk(env, StatusUpdate(PredecessorOk)) ==> r.0.e.status == Some(PredecessorOk)
    ensures r.1 ==> !CreateOnlyViolation(r.0, env)
    ensures r.1 && (r.0.e.docType == Some(Update) || r.0.e.docType == Some(Delete)) && !IsChild(env.cfg, w.e.ruleId) ==>
      !EmptyText(r.0.e.targetId)
    ensures w.e.docType == Some(Delete) ==> r.0.e.docType == Some(Delete)
    ensures Step(w, r.0)
  {
    if !w.e.jobActive then
      StepKeepsTables(w, Say(w, JobNotActive));
      (Say(w, JobNotActive), false)
    else
      match DocumentBlocker(w, env)
      case Some(b) => Reject(w, env, PredecessorBlocked(b.doc.id, b.ruleId), b.doc.id)
      case None => Settle(w, env)
  }

  /** The rejection Settle ends in, if any: a missing type, or a missing or
      unsaved target id. */
  function SettleFault(w: World, env: Env): (r: Option<Note>)
    ensures r.Some? ==> r.value == NoTypeFound || r.value == MissingTargetId || r.value == TargetIdNotSaved
  {
    var (w1, typeErr) := SetType(w, env);
    if typeErr.Some? then typeErr
    else match CheckTarget(w1, env).1
      case Broken(n) => Some(n)
      case _ => None
  }

  /** A rejection after the blocker checks (723-732) records its reason,
      the error severity and Predecessor_KO, with no reference document. */
  lemma RejectionRecorded(w: World, env: Env)
    requires SettleFault(w, env).Some?
    ensures var r := Settle(w, env);
      && !r.1 && r.0.e.docIdRefError == "" && r.0.e.typeError == Failure
      && (WriteOk(env, StatusUpdate(PredecessorKo)) ==> r.0.e.status == Some(PredecessorKo))
      && SettleFault(w, env).value in Trail(r.0)
  {
    var (w1, typeErr) := SetType(w, env);
    var n := SettleFault(w, env).value;
    if typeErr.Some? {
      assert Settle(w, env) == Reject(w1, env, n, "");
      assert (Trail(w1) + [n])[|Trail(w1)|] == n;
    } else {
      var w2 := CheckTarget(w1, env).0;
      assert Settle(w, env) == Reject(w2, env, n, "");
      assert (Trail(w2) + [n])[|Trail(w2)|] == n;
    }
  }

  /** What `$result` holds when the exception handler reads it (725): the
      id of the row the last query fetched, if any, or the result object of
      the child rule query, which that query leaves there when the rule has
      no child rule. */
  datatype Fetched = FetchedRow(id: Option<string>) | ResultObject

  /** The reference the handler takes from `$result` (725): the fetched id,
      or "" without one. Indexing the result object raises an `Error`, which
      the handler, catching only `Exception`, lets through: None. */
  function CatchRef(v: Fetched): (r: Option<string>)
    ensures r.None? <==> v.ResultObject?
    ensures v == FetchedRow(None) ==> r == Some("")
    ensures v.FetchedRow? && v.id.Some? && !EmptyText(v.id.value) ==> r == v.id
  {
    match v
    case ResultObject => None
    case FetchedRow(id) => Some(if id.Some? && !EmptyText(id.value) then id.value else "")
  }

  /** The child rules of the document's rule as the query of 612-628 lists
      them; without a loaded row the query binds SQL NULL and finds none. */
  function ChildRulesAtCheck(w: World, env: Env): (r: seq<string>)
    ensures w.e.loaded.None? ==> r == []
    ensures w.e.loaded.Some? ==> (|r| > 0 <==> |ChildRuleIds(env.cfg, w.e.loaded.value.ruleId)| > 0)
  {
    match w.e.loaded
    case None => []
    case Some(d) => ChildRuleIdsAsWritten(env.cfg, d.ruleId)
  }

  /** `$result` after the blocker checks found nothing: the last child
      document query fetched no row, or there was no child rule to query. */
  function FetchedAfterChecks(w: World, env: Env): (r: Fetched)
    ensures r.ResultObject? <==> |ChildRulesAtCheck(w, env)| == 0
    ensures r.FetchedRow? ==> r.id.None?
  {
    if |ChildRulesAtCheck(w, env)| == 0 then ResultObject else FetchedRow(None)
  }

  /** Settle as written: a rejection reaches the handler, which reads
      `$result` for the reference, so when the rule has no child rule the
      rejection raises an `Error` that leaves the method (None) with no
      note, no severity, no Predecessor_KO and no log. Otherwise the
      reference is "" and the outcome is Settle's. */
  function SettleAsWritten(w: World, env: Env): (r: Option<(World, bool)>)
    ensures r.None? <==> SettleFault(w, env).Some? && |ChildRulesAtCheck(w, env)| == 0
    ensures r.Some? ==> r.value == Settle(w, env)
  {
    match CatchRef(FetchedAfterChecks(w, env))
    case None => if SettleFault(w, env).Some? then None else Some(Settle(w, env))
    case Some(ref) =>
      assert ref == "";
      Some(Settle(w, env))
  }

  /** A Delete of a rule that is not a child rule, for which nothing blocks
      and the classification finds no target id, was never sent: it is
      cancelled, which is not an error, and the stage fails. */
  lemma NeverSentDeleteCancelled(w: World, env: Env)
    requires w.e.jobActive && DocumentBlocker(w, env).None?
    requires w.e.docType == Some(Delete) && !IsChild(env.cfg, w.e.ruleId)
    requires EmptyText(CheckRecordExist(w, env, Str(w.e.sourceId)).0.e.targetId)
    ensures var r := CheckPredecessorDocument(w, env);
      && !r.1 && r.0.e.docType == Some(Delete)
      && Trail(CheckRecordExist(w, env, Str(w.e.sourceId)).0) + [NeverSent] <= Trail(r.0)
      && (WriteOk(env, StatusUpdate(Status.Cancel)) ==> r.0.e.status == Some(Status.Cancel))
  {
    var (w1, e) := SetType(w, env);
    var (w2, c) := CheckTarget(w1, env);
    assert c == Cancelled;
    assert Settle(w, env) == (w2, false);
  }
}

=== FILE: relate.dfy ===
/** Relationship resolution: the record a relationship points to, found in
    the documents of the related rule, in storage or in the in-memory index
    of a mass run (src/Manager/DocumentManager.php:2103-2250). */
module Relate {
  import opened Wrappers
  import opened Values
  import opened Statuses
  import opened Rules
  import opened Messages
  import opened Store
  import opened Engine

  /** What `getTargetId()` returns: the related record id and the document
      that settled it. */
  datatype Resolved = Resolved(recordId: string, documentId: string)

  /** The id a settling document reports for the relationship: its source id
      when the direction is -1, its target id otherwise. */
  function RecordOf(d: DocRow, direction: int): string {
    if direction == -1 then d.sourceId else d.targetId
  }

  /** The in-memory documents of a rule for a record: by source id when the
      direction is 1, by target id otherwise. */
  function IndexList(idx: RuleIndex, direction: int, record: Value): seq<IndexDoc> {
    var m := if direction == 1 then idx.bySource else idx.byTarget;
    var key := Text(record);
    if key in m then m[key] else []
  }

  /** An in-memory document that settles a relationship (2152-2180): Close or
      No_send, with a non-empty id on the far side. */
  predicate SettlesIndexed(doc: IndexDoc, direction: int) {
    && (doc.global == Close || doc.status == NoSend)
    && (if direction == 1 then doc.targetId != "" else doc.sourceId != "")
  }

  function LinkedIndexed(doc: IndexDoc, direction: int): string {
    if direction == 1 then doc.targetId else doc.sourceId
  }

  /** The first settling document of the in-memory list. */
  function MemoryLookup(docs: seq<IndexDoc>, direction: int): (r: Option<IndexDoc>)
    ensures r.Some? ==> r.value in docs && SettlesIndexed(r.value, direction)
    ensures r.None? <==> forall j | 0 <= j < |docs| :: !SettlesIndexed(docs[j], direction)
  {
    match FindFirst(docs, (doc: IndexDoc) => SettlesIndexed(doc, direction))
    case None => None
    case Some(i) => Some(docs[i])
  }

  /** `getTargetId()`. An unknown direction is an error: a note, the
      document marked in error, and no result. With an in-memory index for
      the related rule the first settling indexed document answers; otherwise
      the most recently created settling stored document does, unless it is a
      Delete. A result whose record id is empty-like is dropped. */
  function GetTargetId(w: World, env: Env, rel: Relationship, record: Value): (r: (World, Option<Resolved>))
    ensures Direction(env.cfg, rel).None? ==> r.1.None? && r.0 == Fail(w, DirectionUnknown(rel.fieldId))
    ensures Direction(env.cfg, rel).Some? ==> r.0 == w
    ensures r.1.Some? ==> !EmptyText(r.1.value.recordId)
    ensures r.0.e == w.e.(message := r.0.e.message, typeError := r.0.e.typeError) && r.0.db == w.db
    ensures Step(w, r.0)
  {
    match Direction(env.cfg, rel)
    case None => (Fail(w, DirectionUnknown(rel.fieldId)), None)
    case Some(direction) =>
      if rel.fieldId in w.e.ruleDocuments then
        // The index documents carry no type, so a Delete is never rejected here.
        match MemoryLookup(IndexList(w.e.ruleDocuments[rel.fieldId], direction, record), direction)
        case None => (w, None)
        case Some(doc) =>
          var id := LinkedIndexed(doc, direction);
          (w, if EmptyText(id) then None else Some(Resolved(id, doc.id)))
      else
        match ResolveQuery(w.db.docs, rel.fieldId, record, direction)
        case None => (w, None)
        case Some(d) =>
          var id := RecordOf(d, direction);
          (w, if EmptyText(id) || d.docType == Some(Delete) then None else Some(Resolved(id, d.id)))
  }

  /** The answer depends on the in-memory index and the document table
      alone, not on the notes or the severity. */
  lemma GetTargetIdFrame(w: World, w': World, env: Env, rel: Relationship, record: Value)
    requires w'.e.ruleDocuments == w.e.ruleDocuments && w'.db.docs == w.db.docs
    ensures GetTargetId(w', env, rel, record).1 == GetTargetId(w, env, rel, record).1
  {
  }

  /** On the storage path a result comes from a settling document of the
      related rule that is not a Delete and that no other settling document
      postdates: direction -1 matched the record on the target id and reports
      the source id, direction 1 the reverse. */
  lemma GetTargetIdStored(w: World, env: Env, rel: Relationship, record: Value)
    requires Direction(env.cfg, rel).Some? && rel.fieldId !in w.e.ruleDocuments
    ensures var direction := Direction(env.cfg, rel).value;
      var r := GetTargetId(w, env, rel, record).1;
      r.Some? ==> exists i | 0 <= i < |w.db.docs| ::
        && w.db.docs[i].id == r.value.documentId
        && w.db.docs[i].ruleId == rel.fieldId && !w.db.docs[i].deleted
        && (w.db.docs[i].global == Close || w.db.docs[i].status == NoSend)
        && (direction == -1 ==> SqlEq(w.db.docs[i].targetId, record) && r.value.recordId == w.db.docs[i].sourceId)
        && (direction == 1 ==> SqlEq(w.db.docs[i].sourceId, record) && r.value.recordId == w.db.docs[i].targetId)
        && w.db.docs[i].docType != Some(Delete)
        && forall j | 0 <= j < |w.db.docs| && Resolves(w.db.docs[j], rel.fieldId, record, direction) ::
             w.db.docs[j].dateCreated <= w.db.docs[i].dateCreated
  {
  }

  /** On the storage path there is no result when no stored document settles
      the relationship. */
  lemma GetTargetIdNoneStored(w: World, env: Env, rel: Relationship, record: Value)
    requires Direction(env.cfg, rel).Some? && rel.fieldId !in w.e.ruleDocuments
    requires forall j | 0 <= j < |w.db.docs| :: !Resolves(w.db.docs[j], rel.fieldId, record, Direction(env.cfg, rel).value)
    ensures GetTargetId(w, env, rel, record).1.None?
  {
  }

  /** On the storage path the newest settling document decides: when it is a
      Delete, there is no result, whatever older documents say. */
  lemma GetTargetIdNewestDelete(w: World, env: Env, rel: Relationship, record: Value, i: nat)
    requires Direction(env.cfg, rel).Some? && rel.fieldId !in w.e.ruleDocuments
    requires i < |w.db.docs|
    requires Resolves(w.db.docs[i], rel.fieldId, record, Direction(env.cfg, rel).value)
    requires w.db.docs[i].docType == Some(Delete)
    requires forall j | 0 <= j < |w.db.docs| && j != i && Resolves(w.db.docs[j], rel.fieldId, record, Direction(env.cfg, rel).value) ::
      w.db.docs[j].dateCreated < w.db.docs[i].dateCreated
    ensures GetTargetId(w, env, rel, record).1.None?
  {
    var direction := Direction(env.cfg, rel).value;
    var q := ResolveQuery(w.db.docs, rel.fieldId, record, direction);
    var k :| 0 <= k < |w.db.docs| && w.db.docs[k] == q.value;
    assert k == i;
  }

  /** On the storage path the newest settling document is found: when it is
      not a Delete and the id it links is not empty, that id and that
      document are the result. */
  lemma GetTargetIdStoredFound(w: World, env: Env, rel: Relationship, record: Value, i: nat)
    requires Direction(env.cfg, rel).Some? && rel.fieldId !in w.e.ruleDocuments
    requires i < |w.db.docs|
    requires Resolves(w.db.docs[i], rel.fieldId, record, Direction(env.cfg, rel).value)
    requires w.db.docs[i].docType != Some(Delete)
    requires !EmptyText(RecordOf(w.db.docs[i], Direction(env.cfg, rel).value))
    requires forall j | 0 <= j < |w.db.docs| && j != i && Resolves(w.db.docs[j], rel.fieldId, record, Direction(env.cfg, rel).value) ::
      w.db.docs[j].dateCreated < w.db.docs[i].dateCreated
    ensures GetTargetId(w, env, rel, record).1 == Some(Resolved(RecordOf(w.db.docs[i], Direction(env.cfg, rel).value), w.db.docs[i].id))
  {
    var direction := Direction(env.cfg, rel).value;
    var q := ResolveQuery(w.db.docs, rel.fieldId, record, direction);
    var k :| 0 <= k < |w.db.docs| && w.db.docs[k] == q.value;
    assert k == i;
  }

  /** On the storage path a settling document is always answered for when no
      settling document is a Delete or links an empty id. */
  lemma GetTargetIdStoredSome(w: World, env: Env, rel: Relationship, record: Value)
    requires Direction(env.cfg, rel).Some? && rel.fieldId !in w.e.ruleDocuments
    requires exists i | 0 <= i < |w.db.docs| :: Resolves(w.db.docs[i], rel.fieldId, record, Direction(env.cfg, rel).value)
    requires forall j | 0 <= j < |w.db.docs| && Resolves(w.db.docs[j], rel.fieldId, record, Direction(env.cfg, rel).value) ::
      w.db.docs[j].docType != Some(Delete) && !EmptyText(RecordOf(w.db.docs[j], Direction(env.cfg, rel).value))
    ensures GetTargetId(w, env, rel, record).1.Some?
  {
    var direction := Direction(env.cfg, rel).value;
    var q := ResolveQuery(w.db.docs, rel.fieldId, record, direction);
    var k :| 0 <= k < |w.db.docs| && w.db.docs[k] == q.value;
  }

  /** On the in-memory path the stored documents play no part, so a stored
      Delete document never rejects the result there. */
  lemma GetTargetIdMemoryIgnoresStore(w: World, env: Env, rel: Relationship, record: Value, docs: seq<DocRow>)
    requires rel.fieldId in w.e.ruleDocuments
    ensures GetTargetId(w, env, rel, record).1 == GetTargetId(World(w.e, w.db.(docs := docs)), env, rel, record).1
  {
  }

  /** On the in-memory path a result is reported by an indexed document of
      the record that settles the relationship, and every earlier indexed
      document of the record does not. */
  lemma GetTargetIdMemory(w: World, env: Env, rel: Relationship, record: Value)
    requires Direction(env.cfg, rel).Some? && rel.fieldId in w.e.ruleDocuments
    ensures var direction := Direction(env.cfg, rel).value;
      var docs := IndexList(w.e.ruleDocuments[rel.fieldId], direction, record);
      var r := GetTargetId(w, env, rel, record).1;
      && (r.Some? ==> exists i | 0 <= i < |docs| ::
            && SettlesIndexed(docs[i], direction)
            && docs[i].id == r.value.documentId
            && LinkedIndexed(docs[i], direction) == r.value.recordId
            && forall j | 0 <= j < i :: !SettlesIndexed(docs[j], direction))
      && ((forall j | 0 <= j < |docs| :: !SettlesIndexed(docs[j], direction)) ==> r.None?)
  {
    var direction := Direction(env.cfg, rel).value;
    var docs := IndexList(w.e.ruleDocuments[rel.fieldId], direction, record);
    var p := (doc: IndexDoc) => SettlesIndexed(doc, direction);
    var f := FindFirst(docs, p);
    if f.Some? {
      assert MemoryLookup(docs, direction) == Some(docs[f.value]);
    }
  }

  /** On the in-memory path the first settling indexed document is found:
      when the id it links is not empty, that id and that document are the
      result. */
  lemma GetTargetIdMemoryFound(w: World, env: Env, rel: Relationship, record: Value, i: nat)
    requires Direction(env.cfg, rel).Some? && rel.fieldId in w.e.ruleDocuments
    requires var docs := IndexList(w.e.ruleDocuments[rel.fieldId], Direction(env.cfg, rel).value, record);
      && i < |docs| && SettlesIndexed(docs[i], Direction(env.cfg, rel).value)
      && (forall j | 0 <= j < i :: !SettlesIndexed(docs[j], Direction(env.cfg, rel).value))
      && !EmptyText(LinkedIndexed(docs[i], Direction(env.cfg, rel).value))
    ensures var direction := Direction(env.cfg, rel).value;
      var docs := IndexList(w.e.ruleDocuments[rel.fieldId], direction, record);
      GetTargetId(w, env, rel, record).1 == Some(Resolved(LinkedIndexed(docs[i], direction), docs[i].id))
  {
    var direction := Direction(env.cfg, rel).value;
    var docs := IndexList(w.e.ruleDocuments[rel.fieldId], direction, record);
    var p := (doc: IndexDoc) => SettlesIndexed(doc, direction);
    var f := FindFirst(docs, p);
    assert p(docs[i]);
    assert f.Some? && f.value == i;
    assert MemoryLookup(docs, direction) == Some(docs[i]);
  }

  /** The resolution reads only the stored documents and the in-memory
      index of the engine. */
  lemma GetTargetIdReads(w: World, w': World, env: Env, rel: Relationship, record: Value)
    requires w'.db.docs == w.db.docs && w'.e.ruleDocuments == w.e.ruleDocuments
    ensures GetTargetId(w', env, rel, record).1 == GetTargetId(w, env, rel, record).1
  {
  }

  /** `searchRelateDocumentByStatus()`: the first document of the related
      rule with the given status for the record, matched on the target id
      when the direction is -1 and on the source id otherwise. An unknown
      direction only adds a note. */
  function SearchRelateDocumentByStatus(w: World, env: Env, rel: Relationship, record: Value, s: Status): (r: (World, Option<DocRow>))
    ensures Direction(env.cfg, rel).None? ==> r.1.None? && r.0 == Say(w, SearchFailed(rel.fieldId))
    ensures Direction(env.cfg, rel).Some? ==> r.0 == w
    ensures r.1.Some? ==>
      && r.1.value in w.db.docs && !EmptyText(r.1.value.id)
      && HasStatus(r.1.value, rel.fieldId, record, Direction(env.cfg, rel).value, s)
    ensures Direction(env.cfg, rel).Some? && (forall j | 0 <= j < |w.db.docs| :: !EmptyText(w.db.docs[j].id)) ==>
      (r.1.Some? <==> exists j | 0 <= j < |w.db.docs| :: HasStatus(w.db.docs[j], rel.fieldId, record, Direction(env.cfg, rel).value, s))
    ensures Step(w, r.0)
  {
    match Direction(env.cfg, rel)
    case None => (Say(w, SearchFailed(rel.fieldId)), None)
    case Some(direction) =>
      match FirstRow(w.db.docs, (d: DocRow) => HasStatus(d, rel.fieldId, record, direction, s))
      case None => (w, None)
      case Some(d) => (w, if EmptyText(d.id) then None else Some(d))
  }
}

=== FILE: reset.dfy ===
/** Loading a document into the engine and resetting the engine between
    documents (src/Manager/DocumentManager.php:191-342, 1642-1660). */
module Reset {
  import opened Wrappers
  import opened Values
  import opened Statuses
  import opened Rules
  import opened Store
  import opened Engine

  /** The rule header passed to `setParam()` for a new document. */
  datatype RuleHeader = RuleHeader(id: string, nameSlug: string, mode: string)

  /** The parameter array of `setParam()`. Absent entries are empty. */
  datatype Params = Params(
    jobId: string,
    parentId: string,
    ruleDocuments: map<string, RuleIndex>,
    idDoc: string,
    rule: RuleHeader,
    ruleFields: seq<RuleField>,
    ruleRelationships: seq<Relationship>,
    data: Record)

  /** `clearAttributes()`: every per-document attribute back to empty, and the
      rule attributes too when `clearRule`. The severity is not reset here. */
  function ClearAttributes(e: Engine, clearRule: bool): (r: Engine)
    ensures clearRule ==>
      && r.ruleId == "" && r.ruleName == "" && r.ruleMode == ""
      && r.ruleFields == [] && r.ruleRelationships == [] && r.ruleParams == map[]
    ensures !clearRule ==>
      && r.ruleId == e.ruleId && r.ruleName == e.ruleName && r.ruleMode == e.ruleMode
      && r.ruleFields == e.ruleFields && r.ruleRelationships == e.ruleRelationships && r.ruleParams == e.ruleParams
    ensures r.id == "" && r.message == [] && r.sourceId == "" && r.targetId == "" && r.parentId == ""
    ensures r.loaded.None? && r.docType.None? && r.status.None? && r.attempt == 0
    ensures r.jobActive && r.docIdRefError == "" && !r.transformError && r.jobId == ""
    ensures r.sourceData == map[] && r.data == map[] && r.ruleDocuments == map[]
    ensures r.typeError == e.typeError
  {
    var e1 := if clearRule then
      e.(ruleName := "", ruleMode := "", ruleId := "", ruleFields := [], ruleRelationships := [], ruleParams := map[])
    else e;
    e1.(id := "", message := [], dateCreated := 0, sourceId := "", targetId := "", parentId := "",
        sourceData := map[], data := map[], docType := None, jobActive := true, attempt := 0,
        status := None, loaded := None, jobId := "", docIdRefError := "", transformError := false,
        ruleDocuments := map[])
  }

  /** Clearing twice is clearing once, and a full clear forgets everything
      about the previous document except its severity. */
  lemma ClearAttributesIdempotent(e: Engine, f: Engine, clearRule: bool)
    ensures ClearAttributes(ClearAttributes(e, clearRule), clearRule) == ClearAttributes(e, clearRule)
    ensures e.typeError == f.typeError ==> ClearAttributes(e, true) == ClearAttributes(f, true)
  {
  }

  /** The position of the first document row with the id (`WHERE id = :id_doc`). */
  function DocIndex(docs: seq<DocRow>, idDoc: string): (r: Option<nat>)
    ensures r.Some? ==> r.value < |docs| && docs[r.value].id == idDoc
    ensures r.Some? ==> forall j | 0 <= j < r.value :: docs[j].id != idDoc
    ensures r.None? <==> forall j | 0 <= j < |docs| :: docs[j].id != idDoc
  {
    FindFirst(docs, (d: DocRow) => d.id == idDoc)
  }

  /** `setDocument()`: loads the document row, its rule's slug and mode and its
      source snapshot. A missing document, rule or mode leaves only the loaded
      row cleared. */
  function SetDocument(w: World, env: Env, idDoc: string): (r: World)
    ensures r.db == w.db
    ensures r.e.loaded.Some? ==> r.e.loaded.value in w.db.docs && r.e.loaded.value.id == idDoc
    ensures r.e.loaded.Some? ==>
      && r.e.id == idDoc && r.e.ruleId == r.e.loaded.value.ruleId
      && r.e.status == Some(r.e.loaded.value.status) && r.e.docType == r.e.loaded.value.docType
      && r.e.sourceId == r.e.loaded.value.sourceId && r.e.targetId == r.e.loaded.value.targetId
      && r.e.attempt == r.e.loaded.value.attempt && r.e.dateCreated == r.e.loaded.value.dateCreated
      && FindRule(env.cfg.rules, r.e.ruleId).Some? && FindParam(env.cfg.params, r.e.ruleId, "mode") == Some(r.e.ruleMode)
      && Get(r.e.data, "id") == Str(r.e.sourceId)
    ensures r.e.loaded.None? ==> r.e == w.e.(loaded := None)
    ensures r.e.message == w.e.message && r.e.typeError == w.e.typeError && r.e.jobId == w.e.jobId
  {
    match LookupDocument(w.db, env, idDoc)
    case None => World(w.e.(loaded := None), w.db)
    case Some(f) => World(LoadRow(w.e, f), w.db)
  }

  /** What `setDocument()` reads for a document: its row, its rule, the
      rule's mode and its source snapshot. */
  datatype Lookup = Lookup(row: DocRow, rule: Rule, mode: string, source: Record)

  /** The reads of `setDocument()` (193-211): the first row with the id, then
      its rule and mode; nothing when any is missing or the id is empty. */
  function LookupDocument(db: Db, env: Env, idDoc: string): (r: Option<Lookup>)
    ensures r.Some? ==>
      && r.value.row in db.docs && r.value.row.id == idDoc && !EmptyText(idDoc)
      && FindRule(env.cfg.rules, r.value.row.ruleId) == Some(r.value.rule)
      && FindParam(env.cfg.params, r.value.row.ruleId, "mode") == Some(r.value.mode)
  {
    match DocIndex(db.docs, idDoc)
    case None => None
    case Some(k) =>
      var row := db.docs[k];
      match (FindRule(env.cfg.rules, row.ruleId), FindParam(env.cfg.params, row.ruleId, "mode"))
      case (Some(rule), Some(mode)) =>
        if EmptyText(row.id) then None
        else Some(Lookup(row, rule, mode, FindData(db.data, row.id, SourceData).GetOr(map[])))
      case _ => None
  }

  /** The engine holding a loaded document row (212-231), its rule and mode, and its
      source snapshot; the data read adds the record id and its source date. */
  function LoadRow(e: Engine, f: Lookup): Engine {
    e.(loaded := Some(f.row), id := f.row.id, dateCreated := f.row.dateCreated, ruleId := f.row.ruleId,
       status := Some(f.row.status), sourceId := f.row.sourceId, targetId := f.row.targetId,
       ruleName := f.rule.nameSlug, ruleMode := f.mode, docType := f.row.docType, attempt := f.row.attempt,
       sourceData := f.source,
       data := f.source["id" := Str(f.row.sourceId)]["source_date_modified" := Str(f.row.sourceDateModified)])
  }

  /** A document is loadable when `setDocument()` finds it with its rule and mode. */
  predicate Loadable(db: Db, cfg: Config, id: string) {
    exists i | 0 <= i < |db.docs| ::
      && db.docs[i].id == id && !EmptyText(id)
      && (forall j | 0 <= j < i :: db.docs[j].id != id)
      && FindRule(cfg.rules, db.docs[i].ruleId).Some?
      && FindParam(cfg.params, db.docs[i].ruleId, "mode").Some?
  }

  /** Loading succeeds exactly for loadable documents. */
  lemma SetDocumentLoadable(w: World, env: Env, idDoc: string)
    ensures SetDocument(w, env, idDoc).e.loaded.Some? <==> Loadable(w.db, env.cfg, idDoc)
  {
    var f := DocIndex(w.db.docs, idDoc);
    if Loadable(w.db, env.cfg, idDoc) {
      var i :| 0 <= i < |w.db.docs| && w.db.docs[i].id == idDoc && !EmptyText(idDoc)
        && (forall j | 0 <= j < i :: w.db.docs[j].id != idDoc)
        && FindRule(env.cfg.rules, w.db.docs[i].ruleId).Some?
        && FindParam(env.cfg.params, w.db.docs[i].ruleId, "mode").Some?;
      assert f.Some? && f.value == i;
    }
  }

  /** The job, parent and in-memory index given to `setParam()`, when given. */
  function TakeParams(e: Engine, p: Params): (r: Engine)
    ensures r == e.(jobId := r.jobId, parentId := r.parentId, ruleDocuments := r.ruleDocuments)
    ensures r.jobId == (if EmptyText(p.jobId) then e.jobId else p.jobId)
    ensures r.parentId == (if EmptyText(p.parentId) then e.parentId else p.parentId)
    ensures r.ruleDocuments == (if |p.ruleDocuments| == 0 then e.ruleDocuments else p.ruleDocuments)
  {
    e.(jobId := if !EmptyText(p.jobId) then p.jobId else e.jobId,
       parentId := if !EmptyText(p.parentId) then p.parentId else e.parentId,
       ruleDocuments := if |p.ruleDocuments| > 0 then p.ruleDocuments else e.ruleDocuments)
  }

  /** Parameters that give no job, parent or index leave the engine as it
      was; given ones take effect, and taking them again changes nothing. */
  lemma TakeParamsIdempotent(e: Engine, p: Params)
    ensures EmptyText(p.jobId) && EmptyText(p.parentId) && |p.ruleDocuments| == 0 ==> TakeParams(e, p) == e
    ensures !EmptyText(p.jobId) ==> TakeParams(e, p).jobId == p.jobId
    ensures !EmptyText(p.parentId) ==> TakeParams(e, p).parentId == p.parentId
    ensures |p.ruleDocuments| > 0 ==> TakeParams(e, p).ruleDocuments == p.ruleDocuments
    ensures TakeParams(TakeParams(e, p), p) == TakeParams(e, p)
  {
  }

  /** A new document built from the record and rule header: fresh id, current
      date, status New, no attempt, and the Delete type when the record
      carries the deletion flag. */
  function StartNew(e: Engine, env: Env, p: Params): (r: Engine)
    ensures r.id == env.newId && r.dateCreated == env.now && r.status == Some(New) && r.attempt == 0
    ensures r.sourceId == Text(Get(p.data, "id")) && r.data == p.data && r.ruleFields == p.ruleFields
    ensures r.ruleId == p.rule.id && r.ruleMode == p.rule.mode && r.ruleName == p.rule.nameSlug
    ensures !Empty(Get(p.data, "myddleware_deletion")) ==> r.docType == Some(Delete)
    ensures Empty(Get(p.data, "myddleware_deletion")) ==> r.docType == e.docType
    ensures r.loaded == e.loaded && r.message == e.message && r.ruleParams == e.ruleParams
      && r.ruleRelationships == e.ruleRelationships && r.jobId == e.jobId
      && r.transformError == e.transformError && r.docIdRefError == e.docIdRefError && r.jobActive == e.jobActive
  {
    e.(id := env.newId, dateCreated := env.now, ruleName := p.rule.nameSlug, ruleMode := p.rule.mode,
       ruleId := p.rule.id, ruleFields := p.ruleFields, data := p.data, sourceId := Text(Get(p.data, "id")),
       status := Some(New), attempt := 0,
       docType := if !Empty(Get(p.data, "myddleware_deletion")) then Some(Delete) else e.docType)
  }

  /** The rule parameters from the table when none are loaded yet, then the
      rule fields and relationships when given. */
  function TakeRule(e: Engine, env: Env, p: Params): (r: Engine)
    ensures |e.ruleParams| == 0 ==> r.ruleParams == LoadParams(env.cfg.params, e.ruleId, e.ruleParams)
    ensures |e.ruleParams| > 0 ==> r.ruleParams == e.ruleParams
    ensures r.ruleFields == (if |p.ruleFields| > 0 then p.ruleFields else e.ruleFields)
    ensures r.ruleRelationships == (if |p.ruleRelationships| > 0 then p.ruleRelationships else e.ruleRelationships)
    ensures r == e.(ruleParams := r.ruleParams, ruleFields := r.ruleFields, ruleRelationships := r.ruleRelationships)
  {
    e.(ruleParams := if |e.ruleParams| == 0 then LoadParams(env.cfg.params, e.ruleId, e.ruleParams) else e.ruleParams,
       ruleFields := if |p.ruleFields| > 0 then p.ruleFields else e.ruleFields,
       ruleRelationships := if |p.ruleRelationships| > 0 then p.ruleRelationships else e.ruleRelationships)
  }

  /** `setParam()`: optionally clears the engine, takes the job, parent and
      in-memory index, then either loads an existing document or starts a new
      one from the given record; loads the rule parameters when none are
      loaded, takes the rule fields and relationships when given, and resets
      the severity. */
  function SetParam(w: World, env: Env, p: Params, clear: bool, clearRule: bool): (r: World)
    ensures r.db == w.db
    ensures r.e.typeError == Success
    ensures EmptyText(p.idDoc) ==>
      && r.e.id == env.newId && r.e.status == Some(New) && r.e.attempt == 0 && r.e.loaded == (if clear then None else w.e.loaded)
      && r.e.sourceId == Text(Get(p.data, "id")) && r.e.data == p.data && r.e.dateCreated == env.now
      && r.e.ruleId == p.rule.id && r.e.ruleMode == p.rule.mode
    ensures EmptyText(p.idDoc) && !Empty(Get(p.data, "myddleware_deletion")) ==> r.e.docType == Some(Delete)
    ensures EmptyText(p.idDoc) && clear ==> (r.e.docType == Some(Delete) <==> !Empty(Get(p.data, "myddleware_deletion")))
    ensures !EmptyText(p.idDoc) && r.e.loaded.Some? ==> r.e.id == p.idDoc && r.e.loaded.value.id == p.idDoc
    ensures !EmptyText(p.jobId) ==> r.e.jobId == p.jobId
    ensures |p.ruleFields| > 0 ==> r.e.ruleFields == p.ruleFields
    ensures |p.ruleRelationships| > 0 ==> r.e.ruleRelationships == p.ruleRelationships
    ensures clear ==> r.e.message == [] && !r.e.transformError && r.e.docIdRefError == "" && r.e.jobActive
  {
    var e1 := TakeParams(if clear then ClearAttributes(w.e, clearRule) else w.e, p);
    var e2 := if !EmptyText(p.idDoc) then SetDocument(World(e1, w.db), env, p.idDoc).e else StartNew(e1, env, p);
    World(TakeRule(e2, env, p).(typeError := Success), w.db)
  }

  /** Loading a document does not look at the severity. */
  lemma SetDocumentSeverity(e: Engine, db: Db, env: Env, idDoc: string, t: Severity)
    ensures SetDocument(World(e.(typeError := t), db), env, idDoc).e == SetDocument(World(e, db), env, idDoc).e.(typeError := t)
  {
    match LookupDocument(db, env, idDoc)
    case None =>
    case Some(f) => LoadRowSeverity(e, f, t);
  }

  /** Nor does loading a row. */
  lemma LoadRowSeverity(e: Engine, f: Lookup, t: Severity)
    ensures LoadRow(e.(typeError := t), f) == LoadRow(e, f).(typeError := t)
  {
  }

  /** After a full reset the engine no longer depends on the document it held
      before: two engines that differ in every attribute end up identical. */
  lemma SetParamForgets(w1: World, w2: World, env: Env, p: Params)
    requires w1.db == w2.db
    ensures SetParam(w1, env, p, true, true) == SetParam(w2, env, p, true, true)
  {
    var c1 := ClearAttributes(w1.e, true);
    var c2 := ClearAttributes(w2.e, true);
    assert c1 == c2.(typeError := w1.e.typeError);
    var e1 := TakeParams(c1, p);
    var e2 := TakeParams(c2, p);
    assert e1 == e2.(typeError := w1.e.typeError);
    if !EmptyText(p.idDoc) {
      SetDocumentSeverity(e2, w1.db, env, p.idDoc, w1.e.typeError);
    }
  }
}

=== FILE: rules.dfy ===
/** The rule configuration the engine reads but never writes: rules, their
    fields and relationships, and the queries the engine runs over them
    (src/Manager/DocumentManager.php:612-628, 1522-1580, 2072-2100). */
module Rules {
  import opened Wrappers
  import opened Strings

  /** The synthetic field that carries the id of the record in the other application. */
  const ElementId := "Myddleware_element_id"

  /** The source-field placeholder of a formula that uses no source field. */
  const MyValue := "my_value"

  /** A mapped field of a rule: target field, source field name(s) separated
      by `;`, and an optional formula. */
  datatype RuleField = RuleField(ruleId: string, sourceFieldName: string, targetFieldName: string, formula: string)

  /** A row of the rule relationship table: the rule `ruleId` reads the field
      `fieldNameSource` as an id of the related rule `fieldId`. */
  datatype Relationship = Relationship(
    id: string,
    ruleId: string,
    fieldId: string,
    fieldNameSource: string,
    fieldNameTarget: string,
    parent: bool,
    errorEmpty: bool,
    errorMissing: bool)

  /** A rule header. */
  datatype Rule = Rule(
    id: string,
    name: string,
    nameSlug: string,
    connSource: string,
    connTarget: string,
    moduleTarget: string,
    deleted: bool)

  /** A row of the rule parameter table. */
  datatype RuleParam = RuleParam(ruleId: string, name: string, value: string)

  /** The rule, rule-field, rule-relationship and rule-parameter tables. */
  datatype Config = Config(
    rules: seq<Rule>,
    fields: seq<RuleField>,
    relationships: seq<Relationship>,
    params: seq<RuleParam>)

  /** A loaded rule parameter, "" when it is not set. */
  function Param(params: map<string, string>, name: string): (r: string)
    ensures name in params ==> r == params[name]
    ensures name !in params ==> r == ""
  {
    if name in params then params[name] else ""
  }

  /** The first parameter row of a rule with the given name. */
  function FindParam(rows: seq<RuleParam>, ruleId: string, name: string): (r: Option<string>)
    ensures r.Some? <==> exists i | 0 <= i < |rows| :: rows[i].ruleId == ruleId && rows[i].name == name
    ensures r.Some? ==> exists i | 0 <= i < |rows| :: rows[i].ruleId == ruleId && rows[i].name == name && rows[i].value == r.value
  {
    if |rows| == 0 then None
    else if rows[0].ruleId == ruleId && rows[0].name == name then Some(rows[0].value)
    else
      var r := FindParam(rows[1..], ruleId, name);
      assert forall i | 1 <= i < |rows| :: rows[i] == rows[1..][i - 1];
      r
  }

  /** `setRuleParam()`: every parameter row of the rule, its value left-trimmed,
      added to the parameters already loaded; a later row with the same name
      overrides an earlier one. */
  function LoadParams(rows: seq<RuleParam>, ruleId: string, into: map<string, string>): (r: map<string, string>)
    ensures forall n | n in into :: n in r
    ensures forall i | 0 <= i < |rows| && rows[i].ruleId == ruleId :: rows[i].name in r
    decreases |rows|
  {
    if |rows| == 0 then into
    else
      var next := if rows[0].ruleId == ruleId then into[rows[0].name := TrimLeft(rows[0].value)] else into;
      var r := LoadParams(rows[1..], ruleId, next);
      assert forall i | 1 <= i < |rows| :: rows[i] == rows[1..][i - 1];
      r
  }

  /** A name no parameter row of the rule carries keeps the value it had. */
  lemma {:induction false} LoadParamsUntouched(rows: seq<RuleParam>, ruleId: string, into: map<string, string>, name: string)
    requires name in into
    requires forall j | 0 <= j < |rows| :: !(rows[j].ruleId == ruleId && rows[j].name == name)
    ensures LoadParams(rows, ruleId, into)[name] == into[name]
    decreases |rows|
  {
    if |rows| > 0 {
      var next := if rows[0].ruleId == ruleId then into[rows[0].name := TrimLeft(rows[0].value)] else into;
      assert forall j | 0 <= j < |rows| - 1 :: rows[1..][j] == rows[j + 1];
      LoadParamsUntouched(rows[1..], ruleId, next, name);
    }
  }

  /** The last parameter row of a rule with a given name decides its loaded value. */
  lemma {:induction false} LoadParamsLastWins(rows: seq<RuleParam>, ruleId: string, into: map<string, string>, i: nat)
    requires i < |rows| && rows[i].ruleId == ruleId
    requires forall j | i < j < |rows| :: !(rows[j].ruleId == ruleId && rows[j].name == rows[i].name)
    ensures rows[i].name in LoadParams(rows, ruleId, into)
    ensures LoadParams(rows, ruleId, into)[rows[i].name] == TrimLeft(rows[i].value)
    decreases |rows|
  {
    var next := if rows[0].ruleId == ruleId then into[rows[0].name := TrimLeft(rows[0].value)] else into;
    assert forall j | 0 <= j < |rows| - 1 :: rows[1..][j] == rows[j + 1];
    if i == 0 {
      LoadParamsUntouched(rows[1..], ruleId, next, rows[0].name);
    } else {
      LoadParamsLastWins(rows[1..], ruleId, next, i - 1);
    }
  }

  /** The first element of `s` whose id is `id`: a row looked up by its
      primary key. */
  function FindById<T>(s: seq<T>, idOf: T -> string, id: string): (r: Option<T>)
    ensures r.Some? ==> r.value in s && idOf(r.value) == id
    ensures r.None? <==> forall i | 0 <= i < |s| :: idOf(s[i]) != id
    decreases |s|
  {
    if |s| == 0 then None
    else if idOf(s[0]) == id then Some(s[0])
    else FindById(s[1..], idOf, id)
  }

  function RuleKey(r: Rule): string {
    r.id
  }

  function RelationshipKey(r: Relationship): string {
    r.id
  }

  /** The first rule with the given id. */
  function FindRule(rules: seq<Rule>, id: string): (r: Option<Rule>)
    ensures r.Some? ==> r.value in rules && r.value.id == id
    ensures r.None? ==> forall i | 0 <= i < |rules| :: rules[i].id != id
  {
    FindById(rules, RuleKey, id)
  }

  /** `getRelationshipDirection()`: the stored relationship row with the same
      id joins its own rule `a` and the related rule `b`; the direction is 1
      when `a` and `b` read the same source connection, -1 when `a` reads
      from `b`'s target connection, and 1 otherwise. Nothing when the row or
      one of the two rules is missing. */
  function Direction(cfg: Config, rel: Relationship): (d: Option<int>)
    ensures d.Some? ==> d.value == 1 || d.value == -1
  {
    match FindById(cfg.relationships, RelationshipKey, rel.id)
    case None => None
    case Some(row) =>
      match (FindRule(cfg.rules, row.ruleId), FindRule(cfg.rules, row.fieldId))
      case (Some(a), Some(b)) =>
        Some(if a.connSource == b.connSource then 1 else if a.connSource == b.connTarget then -1 else 1)
      case _ => None
  }

  /** The direction is -1 exactly when the two rules do not share their
      source connection and the relationship's own rule reads from the related
      rule's target connection; it is known exactly when both rules exist. */
  lemma DirectionCases(cfg: Config, rel: Relationship, row: Relationship)
    requires FindById(cfg.relationships, RelationshipKey, rel.id) == Some(row)
    ensures Direction(cfg, rel).Some? <==> FindRule(cfg.rules, row.ruleId).Some? && FindRule(cfg.rules, row.fieldId).Some?
    ensures Direction(cfg, rel) == Some(-1) <==>
      && FindRule(cfg.rules, row.ruleId).Some? && FindRule(cfg.rules, row.fieldId).Some?
      && FindRule(cfg.rules, row.ruleId).value.connSource != FindRule(cfg.rules, row.fieldId).value.connSource
      && FindRule(cfg.rules, row.ruleId).value.connSource == FindRule(cfg.rules, row.fieldId).value.connTarget
  {
  }

  /** Some live rule has the given id. */
  predicate LiveRule(cfg: Config, id: string) {
    exists i | 0 <= i < |cfg.rules| :: cfg.rules[i].id == id && !cfg.rules[i].deleted
  }

  /** `isChild()`: a live rule declares a parent relationship towards this rule. */
  predicate IsChild(cfg: Config, ruleId: string) {
    exists j | 0 <= j < |cfg.relationships| ::
      && cfg.relationships[j].fieldId == ruleId
      && cfg.relationships[j].parent
      && LiveRule(cfg, cfg.relationships[j].ruleId)
  }

  /** `isParent()`: this rule declares a parent relationship (no liveness test). */
  predicate IsParent(cfg: Config, ruleId: string) {
    exists j | 0 <= j < |cfg.relationships| ::
      cfg.relationships[j].ruleId == ruleId && cfg.relationships[j].parent
  }

  /** A row the child-rule query of the predecessor check joins on: a parent
      relationship of the live rule `ruleId` towards a live child rule. */
  predicate ChildLink(cfg: Config, ruleId: string, rel: Relationship) {
    rel.ruleId == ruleId && rel.parent && LiveRule(cfg, ruleId) && LiveRule(cfg, rel.fieldId)
  }

  /** The rows among `rels` that satisfy `ChildLink`, in table order. */
  function ChildLinks(cfg: Config, ruleId: string, rels: seq<Relationship>): (r: seq<Relationship>)
    ensures forall x :: x in r <==> x in rels && ChildLink(cfg, ruleId, x)
  {
    if |rels| == 0 then []
    else if ChildLink(cfg, ruleId, rels[0]) then [rels[0]] + ChildLinks(cfg, ruleId, rels[1..])
    else ChildLinks(cfg, ruleId, rels[1..])
  }

  /** The child rules of `ruleId`: the related rule of each child link. */
  function ChildRuleIds(cfg: Config, ruleId: string): (r: seq<string>)
    ensures forall c :: c in r <==> exists x :: x in cfg.relationships && ChildLink(cfg, ruleId, x) && x.fieldId == c
  {
    var links := ChildLinks(cfg, ruleId, cfg.relationships);
    var r := seq(|links|, i requires 0 <= i < |links| => links[i].fieldId);
    assert forall x :: x in links ==> x.fieldId in r by {
      forall x | x in links ensures x.fieldId in r {
        var i :| 0 <= i < |links| && links[i] == x;
        assert r[i] == x.fieldId;
      }
    }
    r
  }

  /** The ids the child-rule query of the predecessor check returns as
      written: it selects `DISTINCT rulerelationship.rule_id`, which the join
      pins to the current rule, so it returns the current rule once when the
      rule has a child link and nothing otherwise. */
  function ChildRuleIdsAsWritten(cfg: Config, ruleId: string): (r: seq<string>)
    ensures forall c | c in r :: c == ruleId
    ensures |r| <= 1
    ensures |r| > 0 <==> |ChildRuleIds(cfg, ruleId)| > 0
  {
    var links := ChildLinks(cfg, ruleId, cfg.relationships);
    if |links| == 0 then []
    else
      assert links[0] in links;
      [links[0].ruleId]
  }

  /** As written, the relaxed child-rule test of the predecessor check asks
      whether the current rule is among the ids above; that holds exactly when
      the rule has a child link, which the check has already ruled out. */
  lemma ChildRuleIdsAsWrittenIsSelf(cfg: Config, ruleId: string)
    ensures ruleId in ChildRuleIdsAsWritten(cfg, ruleId) <==> |ChildRuleIds(cfg, ruleId)| > 0
  {
    var r := ChildRuleIdsAsWritten(cfg, ruleId);
    if |r| > 0 {
      assert r[0] in r;
    }
  }
}

=== FILE: snapshot.dfy ===
/** The data snapshots a document keeps of its source, target and history
    records, and the target field list they are taken over
    (src/Manager/DocumentManager.php:1189-1311, 1583-1639). */
module Snapshot {
  import opened Wrappers
  import opened Strings
  import opened Values
  import opened Statuses
  import opened Rules
  import opened Messages
  import opened Store
  import opened Engine

  /** The key a source field name is stored under: `Myddleware_element_id`
      is the record id. */
  function SourceKey(name: string): string {
    if name == ElementId then "id" else name
  }

  /** The keys a rule field's source names give: one per `;`-separated name. */
  function SourceKeys(name: string): (r: seq<string>)
    ensures |r| == |Split(name, ';')|
    ensures forall j | 0 <= j < |r| :: r[j] == SourceKey(Split(name, ';')[j])
  {
    var parts := Split(name, ';');
    seq(|parts|, j requires 0 <= j < |parts| => SourceKey(parts[j]))
  }

  /** Some rule field other than a `my_value` constant names the key. */
  predicate SourceNamed(fields: seq<RuleField>, k: string) {
    exists i | 0 <= i < |fields| :: fields[i].sourceFieldName != MyValue && k in SourceKeys(fields[i].sourceFieldName)
  }

  /** Stores each key with its value in `data`, in order. */
  function PutKeys(keys: seq<string>, data: Record, acc: Record): (r: Record)
    ensures forall k :: k in r <==> k in acc || k in keys
    ensures forall k | k in r :: r[k] == if k in keys then Get(data, k) else acc[k]
    decreases |keys|
  {
    if |keys| == 0 then acc
    else
      var r := PutKeys(keys[1..], data, acc[keys[0] := Get(data, keys[0])]);
      assert forall k :: k in keys <==> k == keys[0] || k in keys[1..];
      r
  }

  /** The rule-field part of a source snapshot (1236-1250): `my_value`
      constants are skipped and every other source name is stored, with
      `Myddleware_element_id` stored as the record id. */
  function PutSourceFields(fields: seq<RuleField>, data: Record, acc: Record): (r: Record)
    ensures forall k :: k in r <==> k in acc || SourceNamed(fields, k)
    ensures forall k | k in r :: r[k] == if SourceNamed(fields, k) then Get(data, k) else acc[k]
    decreases |fields|
  {
    if |fields| == 0 then acc
    else
      var f := fields[0];
      var acc1 := if f.sourceFieldName == MyValue then acc else PutKeys(SourceKeys(f.sourceFieldName), data, acc);
      var r := PutSourceFields(fields[1..], data, acc1);
      assert forall k :: SourceNamed(fields, k) <==>
        (f.sourceFieldName != MyValue && k in SourceKeys(f.sourceFieldName)) || SourceNamed(fields[1..], k)
      by {
        forall k ensures SourceNamed(fields, k) ==>
          (f.sourceFieldName != MyValue && k in SourceKeys(f.sourceFieldName)) || SourceNamed(fields[1..], k)
        {
          if SourceNamed(fields, k) {
            var i :| 0 <= i < |fields| && fields[i].sourceFieldName != MyValue && k in SourceKeys(fields[i].sourceFieldName);
            if i > 0 {
              assert fields[1..][i - 1] == fields[i];
            }
          }
        }
        forall k ensures SourceNamed(fields[1..], k) ==> SourceNamed(fields, k) {
          if SourceNamed(fields[1..], k) {
            var i :| 0 <= i < |fields[1..]| && fields[1..][i].sourceFieldName != MyValue && k in SourceKeys(fields[1..][i].sourceFieldName);
            assert fields[i + 1] == fields[1..][i];
          }
        }
      }
      r
  }

  /** The value a relationship stores in a source snapshot (1268): the
      record id for `Myddleware_element_id`, otherwise the field value, or ""
      when it is empty-like. */
  function RelatedSourceValue(data: Record, name: string): Value {
    if name == ElementId then Get(data, "id")
    else if !Empty(Get(data, name)) then Get(data, name) else Str("")
  }

  /** The value a relationship stores in a target or history snapshot
      (1270): the field value, or "" when it is empty-like. */
  function RelatedTargetValue(data: Record, name: string): Value {
    OrEmpty(Get(data, name))
  }

  /** A value, or "" when it is empty-like. */
  function OrEmpty(v: Value): Value {
    if !Empty(v) then v else Str("")
  }

  /** Overwrites each key with the relationship value `v(data, key)`. The
      value depends on the key alone, so the order of the relationships does
      not matter. */
  function PutRelated(keys: seq<string>, data: Record, acc: Record, source: bool): (r: Record)
    ensures forall k :: k in r <==> k in acc || k in keys
    ensures forall k | k in r ::
      r[k] == if k !in keys then acc[k] else if source then RelatedSourceValue(data, k) else RelatedTargetValue(data, k)
    decreases |keys|
  {
    if |keys| == 0 then acc
    else
      var v := if source then RelatedSourceValue(data, keys[0]) else RelatedTargetValue(data, keys[0]);
      var r := PutRelated(keys[1..], data, acc[keys[0] := v], source);
      assert forall k :: k in keys <==> k == keys[0] || k in keys[1..];
      r
  }

  /** The source field names of the relationships. */
  function RelatedSources(rels: seq<Relationship>): (r: seq<string>)
    ensures forall k :: k in r <==> exists i | 0 <= i < |rels| :: rels[i].fieldNameSource == k
  {
    var r := seq(|rels|, i requires 0 <= i < |rels| => rels[i].fieldNameSource);
    assert forall i | 0 <= i < |rels| :: r[i] == rels[i].fieldNameSource;
    r
  }

  /** The target field names of the relationships. */
  function RelatedTargets(rels: seq<Relationship>): (r: seq<string>)
    ensures forall k :: k in r <==> exists i | 0 <= i < |rels| :: rels[i].fieldNameTarget == k
  {
    var r := seq(|rels|, i requires 0 <= i < |rels| => rels[i].fieldNameTarget);
    assert forall i | 0 <= i < |rels| :: r[i] == rels[i].fieldNameTarget;
    r
  }

  /** The target field names of the rule fields. */
  function FieldTargets(fields: seq<RuleField>): (r: seq<string>)
    ensures |r| == |fields|
    ensures forall i | 0 <= i < |fields| :: r[i] == fields[i].targetFieldName
  {
    seq(|fields|, i requires 0 <= i < |fields| => fields[i].targetFieldName)
  }

  /** The rule-field names a target or history snapshot keeps: all of them
      for a target snapshot, only those the read returned for a history one
      (1251-1260). */
  function KeptTargets(names: seq<string>, data: Record, history: bool): (r: seq<string>)
    ensures forall k :: k in r <==> k in names && (!history || k in data)
    decreases |names|
  {
    if |names| == 0 then []
    else
      var rest := KeptTargets(names[1..], data, history);
      assert forall k :: k in names <==> k == names[0] || k in names[1..];
      if !history || names[0] in data then [names[0]] + rest else rest
  }

  /** `getTargetFields()`: the target fields of the module when `all`, else
      the target fields of the rule's fields and relationships (the source
      field of a parent relationship); nothing for an empty list, and
      otherwise the list without its first `Myddleware_element_id`. */
  function GetTargetFields(e: Engine, env: Env, all: bool): (r: Option<seq<string>>)
    ensures r.None? <==> |AllTargetFields(e, env, all)| == 0
    ensures r.Some? ==> multiset(r.value) == multiset(AllTargetFields(e, env, all)) - multiset{ElementId}
    ensures r.Some? ==> |r.value| == |AllTargetFields(e, env, all)| - (if ElementId in AllTargetFields(e, env, all) then 1 else 0)
  {
    var fields := AllTargetFields(e, env, all);
    if |fields| == 0 then None else Some(RemoveFirst(fields, ElementId))
  }

  /** The field list asks only for candidate fields, and for every candidate
      other than `Myddleware_element_id`. */
  lemma TargetFieldsMembers(e: Engine, env: Env, all: bool)
    requires GetTargetFields(e, env, all).Some?
    ensures forall k | k in GetTargetFields(e, env, all).value :: k in AllTargetFields(e, env, all)
    ensures forall k | k in AllTargetFields(e, env, all) && k != ElementId :: k in GetTargetFields(e, env, all).value
  {
    var r := GetTargetFields(e, env, all).value;
    var a := AllTargetFields(e, env, all);
    forall k | k in r
      ensures k in a
    {
      assert k in multiset(r);
    }
    forall k | k in a && k != ElementId
      ensures k in r
    {
      assert k in multiset(a);
      assert multiset(r)[k] == multiset(a)[k];
    }
  }

  /** The target fields before `Myddleware_element_id` is removed. */
  function AllTargetFields(e: Engine, env: Env, all: bool): seq<string> {
    if all then env.moduleFields
    else if EmptyText(e.ruleId) then []
    else RuleTargets(env.cfg.fields, e.ruleId) + RelationshipTargets(env.cfg.relationships, e.ruleId)
  }

  /** The target field names of a rule's fields, in table order. */
  function RuleTargets(fields: seq<RuleField>, ruleId: string): (r: seq<string>)
    ensures forall k :: k in r <==> exists i | 0 <= i < |fields| :: fields[i].ruleId == ruleId && fields[i].targetFieldName == k
    decreases |fields|
  {
    if |fields| == 0 then []
    else
      var rest := RuleTargets(fields[1..], ruleId);
      assert forall i | 1 <= i < |fields| :: fields[i] == fields[1..][i - 1];
      if fields[0].ruleId == ruleId then [fields[0].targetFieldName] + rest else rest
  }

  /** The field a relationship writes on the target: the source field for a
      parent relationship, which names the parent's field. */
  function RelationshipTarget(rel: Relationship): string {
    if rel.parent then rel.fieldNameSource else rel.fieldNameTarget
  }

  /** The target field names of a rule's relationships, in table order. */
  function RelationshipTargets(rels: seq<Relationship>, ruleId: string): (r: seq<string>)
    ensures forall k :: k in r <==> exists i | 0 <= i < |rels| :: rels[i].ruleId == ruleId && RelationshipTarget(rels[i]) == k
    decreases |rels|
  {
    if |rels| == 0 then []
    else
      var rest := RelationshipTargets(rels[1..], ruleId);
      assert forall i | 1 <= i < |rels| :: rels[i] == rels[1..][i - 1];
      if rels[0].ruleId == ruleId then [RelationshipTarget(rels[0])] + rest else rest
  }

  /** `array_search` and `unset`: the list without the first occurrence of `x`. */
  function RemoveFirst(s: seq<string>, x: string): (r: seq<string>)
    ensures multiset(r) == multiset(s) - multiset{x}
    ensures x !in s ==> r == s
    ensures x in s ==> |r| == |s| - 1
    decreases |s|
  {
    if |s| == 0 then []
    else if s[0] == x then
      assert s == [s[0]] + s[1..];
      s[1..]
    else
      assert s == [s[0]] + s[1..];
      [s[0]] + RemoveFirst(s[1..], x)
  }

  /** The rule-field names a snapshot of the given kind is taken over: the
      fields of the target module when a Delete document saves its history,
      the rule's target fields otherwise. */
  function SnapshotNames(e: Engine, env: Env): seq<string> {
    if e.docType == Some(Delete) then GetTargetFields(e, env, true).GetOr([])
    else FieldTargets(e.ruleFields)
  }

  /** The record `insertDataTable()` stores for `data`. */
  function TakeSnapshot(e: Engine, env: Env, data: Record, kind: DataKind): Record {
    if kind == SourceData then
      PutRelated(RelatedSources(e.ruleRelationships), data, PutSourceFields(e.ruleFields, data, map[]), true)
    else
      var names := if kind == HistoryData then SnapshotNames(e, env) else FieldTargets(e.ruleFields);
      var kept := KeptTargets(names, data, kind == HistoryData);
      PutRelated(RelatedTargets(e.ruleRelationships), data, PutKeys(kept, data, map[]), false)
  }

  /** A source snapshot holds exactly the keys named by a rule field that is
      not a `my_value` constant (`Myddleware_element_id` as `id`) and the
      source fields of the relationships. A rule-field key holds the record's
      value; a relationship key the relationship's value, which wins. */
  lemma SourceSnapshotContents(e: Engine, env: Env, data: Record)
    ensures var r := TakeSnapshot(e, env, data, SourceData);
      forall k :: k in r <==> SourceNamed(e.ruleFields, k) || k in RelatedSources(e.ruleRelationships)
    ensures var r := TakeSnapshot(e, env, data, SourceData);
      forall k | k in r :: r[k] == if k in RelatedSources(e.ruleRelationships) then RelatedSourceValue(data, k) else Get(data, k)
  {
  }

  /** A source name list splits on `;`: every piece is a key of the
      snapshot, under `id` for `Myddleware_element_id`. */
  lemma SourceSnapshotSplits(e: Engine, env: Env, data: Record, i: nat, piece: string)
    requires i < |e.ruleFields| && e.ruleFields[i].sourceFieldName != MyValue
    requires piece in Split(e.ruleFields[i].sourceFieldName, ';')
    ensures SourceKey(piece) in TakeSnapshot(e, env, data, SourceData)
  {
    var parts := Split(e.ruleFields[i].sourceFieldName, ';');
    var j :| 0 <= j < |parts| && parts[j] == piece;
    assert SourceKeys(e.ruleFields[i].sourceFieldName)[j] == SourceKey(piece);
    SourceSnapshotContents(e, env, data);
  }

  /** Without a relationship reading `Myddleware_element_id`, that name is
      never a key of a source snapshot, and `my_value` is one only when some
      other field or relationship names it. */
  lemma SourceSnapshotNames(e: Engine, env: Env, data: Record)
    requires forall i | 0 <= i < |e.ruleRelationships| :: e.ruleRelationships[i].fieldNameSource != ElementId
    ensures ElementId !in TakeSnapshot(e, env, data, SourceData)
  {
    SourceSnapshotContents(e, env, data);
  }

  /** A history snapshot keeps a rule field only when the read returned it;
      every key it holds was read, or is a relationship target field. */
  lemma HistorySnapshotKeys(e: Engine, env: Env, data: Record)
    ensures var r := TakeSnapshot(e, env, data, HistoryData);
      forall k | k in r :: k in data || k in RelatedTargets(e.ruleRelationships)
    ensures var r := TakeSnapshot(e, env, data, HistoryData);
      forall k | k in SnapshotNames(e, env) && k in data :: k in r && (k in RelatedTargets(e.ruleRelationships) || r[k] == data[k])
  {
  }

  /** A target snapshot keeps every rule target field, read or not, and the
      relationship target fields, and nothing else. A rule field holds its
      value in `data`; a relationship field holds its value, or "" when that
      is empty-like, and wins over a rule field of the same name. */
  lemma TargetSnapshotKeys(e: Engine, env: Env, data: Record)
    ensures var r := TakeSnapshot(e, env, data, TargetData);
      forall i | 0 <= i < |e.ruleFields| :: e.ruleFields[i].targetFieldName in r
    ensures var r := TakeSnapshot(e, env, data, TargetData);
      forall k :: k in r <==> k in FieldTargets(e.ruleFields) || k in RelatedTargets(e.ruleRelationships)
    ensures var r := TakeSnapshot(e, env, data, TargetData);
      forall k | k in r :: r[k] == if k in RelatedTargets(e.ruleRelationships) then RelatedTargetValue(data, k) else Get(data, k)
  {
    var names := FieldTargets(e.ruleFields);
    forall i | 0 <= i < |e.ruleFields| ensures e.ruleFields[i].targetFieldName in names {
      assert names[i] == e.ruleFields[i].targetFieldName;
    }
  }

  /** The letter of a snapshot kind, as the data table stores it. */
  function KindLetter(kind: DataKind): string {
    match kind
    case SourceData => "S"
    case TargetData => "T"
    case HistoryData => "H"
  }

  /** `insertDataTable()`: appends the snapshot of `data` as a data row of
      the document; a failed write is an error note and false. */
  function InsertDataTable(w: World, env: Env, data: Record, kind: DataKind): (r: (World, bool))
    ensures r.1 == env.persistOk
    ensures r.1 ==> r.0.db.data == w.db.data + [DataRow(w.e.id, kind, TakeSnapshot(w.e, env, data, kind))]
    ensures r.1 ==> r.0.e == w.e && Trail(r.0) == Trail(w)
    ensures !r.1 ==> r.0 == Fail(w, SnapshotNotSaved(KindLetter(kind)))
    ensures r.0.db == w.db.(data := r.0.db.data)
    ensures Step(w, r.0)
  {
    if env.persistOk then
      (World(w.e, w.db.(data := w.db.data + [DataRow(w.e.id, kind, TakeSnapshot(w.e, env, data, kind))])), true)
    else (Fail(w, SnapshotNotSaved(KindLetter(kind))), false)
  }

  /** The first snapshot of a kind a document stores is the one its later
      reads return. */
  lemma InsertedSnapshotIsRead(w: World, env: Env, data: Record, kind: DataKind)
    requires env.persistOk
    requires FindData(w.db.data, w.e.id, kind).None?
    ensures FindData(InsertDataTable(w, env, data, kind).0.db.data, w.e.id, kind) == Some(TakeSnapshot(w.e, env, data, kind))
  {
    FindDataAppend(w.db.data, DataRow(w.e.id, kind, TakeSnapshot(w.e, env, data, kind)), w.e.id, kind);
  }

  /** `updateHistoryTable()`: stores a history snapshot of a non-empty read;
      an empty read stores nothing and a failed write adds a second note. */
  function UpdateHistoryTable(w: World, env: Env, data: Record): (r: (World, bool))
    ensures |data| == 0 ==> r == (w, false)
    ensures |data| > 0 ==> r.1 == env.persistOk
    ensures |data| > 0 && r.1 ==> r.0 == InsertDataTable(w, env, data, HistoryData).0
    ensures |data| > 0 && !r.1 ==>
      && Trail(r.0) == Trail(w) + [SnapshotNotSaved("H"), HistoryNotSaved]
      && r.0.e.typeError == Failure && r.0.db == w.db
    ensures Step(w, r.0)
  {
    if |data| == 0 then (w, false)
    else
      var (w1, ok) := InsertDataTable(w, env, data, HistoryData);
      if ok then (w1, true) else (Fail(w1, HistoryNotSaved), false)
  }

  /** `getDocumentData()`: the first stored snapshot of the kind, if any. */
  function GetDocumentData(w: World, kind: DataKind): (r: Option<Record>)
    ensures r.Some? ==> exists i | 0 <= i < |w.db.data| :: w.db.data[i] == DataRow(w.e.id, kind, r.value)
    ensures r.None? <==> forall i | 0 <= i < |w.db.data| :: !IsData(w.db.data[i], w.e.id, kind)
  {
    FindData(w.db.data, w.e.id, kind)
  }
}

=== FILE: statuses.dfy ===
/** Document statuses, the fixed status-to-global-status table, document types
    and log severities (src/Manager/DocumentManager.php:81-100, 181-189). */
module Statuses {
  import opened Wrappers
  import opened Strings

  /** The fine-grained status of a document. */
  datatype Status =
    | New | PredecessorOk | RelateOk | Transformed | ReadyToSend | FilterOk
    | Send | Found
    | Filter | NoSend | Cancel
    | FilterKo | PredecessorKo | RelateKo | ErrorTransformed | ErrorChecking | ErrorSending | NotFound

  /** The coarse status derived from a status. */
  datatype Global = Open | Close | Cancel | Error

  /** The document type: Create, Update, Delete or Search. */
  datatype DocType = Create | Update | Delete | Search

  /** The type column of a log row: I, W, E or S. */
  datatype Severity = Info | Warning | Failure | Success

  /** The global status of every status. */
  function GlobalOf(s: Status): Global {
    match s
    case New | PredecessorOk | RelateOk | Transformed | ReadyToSend | FilterOk => Open
    case Send | Found => Close
    case Filter | NoSend | Cancel => Global.Cancel
    case FilterKo | PredecessorKo | RelateKo | ErrorTransformed | ErrorChecking | ErrorSending | NotFound => Error
  }

  /** The status names as they are stored in the document table. */
  function StatusName(s: Status): string {
    match s
    case New => "New"
    case PredecessorOk => "Predecessor_OK"
    case RelateOk => "Relate_OK"
    case Transformed => "Transformed"
    case ReadyToSend => "Ready_to_send"
    case FilterOk => "Filter_OK"
    case Send => "Send"
    case Found => "Found"
    case Filter => "Filter"
    case NoSend => "No_send"
    case Cancel => "Cancel"
    case FilterKo => "Filter_KO"
    case PredecessorKo => "Predecessor_KO"
    case RelateKo => "Relate_KO"
    case ErrorTransformed => "Error_transformed"
    case ErrorChecking => "Error_checking"
    case ErrorSending => "Error_sending"
    case NotFound => "Not_found"
  }

  function GlobalName(g: Global): string {
    match g
    case Open => "Open"
    case Close => "Close"
    case Cancel => "Cancel"
    case Error => "Error"
  }

  /** The status table exactly as the engine declares it, keyed by stored names. */
  const GlobalTable: map<string, string> := map[
    "New" := "Open",
    "Predecessor_OK" := "Open",
    "Relate_OK" := "Open",
    "Transformed" := "Open",
    "Ready_to_send" := "Open",
    "Filter_OK" := "Open",
    "Send" := "Close",
    "Found" := "Close",
    "Filter" := "Cancel",
    "No_send" := "Cancel",
    "Cancel" := "Cancel",
    "Filter_KO" := "Error",
    "Predecessor_KO" := "Error",
    "Relate_KO" := "Error",
    "Error_transformed" := "Error",
    "Error_checking" := "Error",
    "Error_sending" := "Error",
    "Not_found" := "Error"
  ]

  /** `GlobalOf` agrees with the declared table on every status. */
  lemma GlobalOfMatchesTable(s: Status)
    ensures StatusName(s) in GlobalTable
    ensures GlobalTable[StatusName(s)] == GlobalName(GlobalOf(s))
  {
  }

  /** Reading a stored status name back; unknown names give nothing. */
  function ParseStatus(name: string): (r: Option<Status>)
    ensures r.Some? ==> StatusName(r.value) == name
  {
    if name == "New" then Some(New)
    else if name == "Predecessor_OK" then Some(PredecessorOk)
    else if name == "Relate_OK" then Some(RelateOk)
    else if name == "Transformed" then Some(Transformed)
    else if name == "Ready_to_send" then Some(ReadyToSend)
    else if name == "Filter_OK" then Some(FilterOk)
    else if name == "Send" then Some(Send)
    else if name == "Found" then Some(Found)
    else if name == "Filter" then Some(Filter)
    else if name == "No_send" then Some(NoSend)
    else if name == "Cancel" then Some(Status.Cancel)
    else if name == "Filter_KO" then Some(FilterKo)
    else if name == "Predecessor_KO" then Some(PredecessorKo)
    else if name == "Relate_KO" then Some(RelateKo)
    else if name == "Error_transformed" then Some(ErrorTransformed)
    else if name == "Error_checking" then Some(ErrorChecking)
    else if name == "Error_sending" then Some(ErrorSending)
    else if name == "Not_found" then Some(NotFound)
    else None
  }

  /** Status names read back to the status they name. */
  lemma ParseStatusName(s: Status)
    ensures ParseStatus(StatusName(s)) == Some(s)
  {
  }

  /** Every key of the declared table is the name of a status, so the table
      and `GlobalOf` describe the same total function. */
  lemma TableKeysAreStatuses(name: string)
    requires name in GlobalTable
    ensures ParseStatus(name).Some?
  {
  }

  /** Position of a global status in the document table's string order
      (`ORDER BY global_status`): Cancel < Close < Error < Open. */
  function GlobalRank(g: Global): (r: int)
    ensures 0 <= r <= 3
  {
    match g
    case Cancel => 0
    case Close => 1
    case Error => 2
    case Open => 3
  }

  /** The rank order is the byte order of the stored names. */
  lemma GlobalRankIsNameOrder(a: Global, b: Global)
    ensures GlobalRank(a) < GlobalRank(b) <==> LexCmp(GlobalName(a), GlobalName(b)) < 0
  {
  }

  /** Whether a status update counts as an attempt (src/Manager/DocumentManager.php:1904). */
  predicate CountsAttempt(g: Global) {
    g == Error || g == Close
  }
}

=== FILE: store.dfy ===
/** The engine's storage: document rows, document data snapshots, document
    relationships and log rows, with the queries the engine runs over them,
    each written as a pure filter or ordering over a snapshot of the tables. */
module Store {
  import opened Wrappers
  import opened Values
  import opened Statuses
  import opened Messages

  /** A row of the document table. `docType` is None while the type is unset. */
  datatype DocRow = DocRow(
    id: string,
    ruleId: string,
    sourceId: string,
    targetId: string,
    parentId: string,
    docType: Option<DocType>,
    status: Status,
    global: Global,
    attempt: nat,
    deleted: bool,
    dateCreated: nat,
    dateModified: nat,
    sourceDateModified: string)

  /** Which snapshot of a document a data row holds: S(ource), T(arget) or H(istory). */
  datatype DataKind = SourceData | TargetData | HistoryData

  /** A row of the document data table. */
  datatype DataRow = DataRow(docId: string, kind: DataKind, record: Record)

  /** A row of the document relationship table: `docId` refers to `docRelId` through `sourceField`. */
  datatype DocLink = DocLink(docId: string, docRelId: string, sourceField: string)

  /** All tables the engine reads and writes. */
  datatype Db = Db(docs: seq<DocRow>, data: seq<DataRow>, links: seq<DocLink>, logs: seq<LogEntry>)

  /** Every stored global status is the one the status table gives for the stored status. */
  predicate Consistent(db: Db) {
    forall i | 0 <= i < |db.docs| :: db.docs[i].global == GlobalOf(db.docs[i].status)
  }

  /** `db2` holds the same document rows as `db1` up to their mutable columns:
      same ids, rules, record ids, parents and creation dates, in the same order. */
  predicate SameRows(db1: Db, db2: Db) {
    && |db1.docs| == |db2.docs|
    && forall i | 0 <= i < |db1.docs| ::
      && db2.docs[i].id == db1.docs[i].id
      && db2.docs[i].ruleId == db1.docs[i].ruleId
      && db2.docs[i].sourceId == db1.docs[i].sourceId
      && db2.docs[i].parentId == db1.docs[i].parentId
      && db2.docs[i].deleted == db1.docs[i].deleted
      && db2.docs[i].dateCreated == db1.docs[i].dateCreated
      && db2.docs[i].sourceDateModified == db1.docs[i].sourceDateModified
  }

  /** SQL equality between a text column and a bound value: a null parameter matches nothing. */
  predicate SqlEq(col: string, v: Value) {
    v != Null && col == Text(v)
  }

  /** A sort key compared lexicographically (`ORDER BY a DESC, b DESC, c DESC`). */
  datatype Key = Key(a: int, b: int, c: int)

  predicate KeyLt(x: Key, y: Key) {
    x.a < y.a || (x.a == y.a && (x.b < y.b || (x.b == y.b && x.c < y.c)))
  }

  /** The key order is a strict total order. */
  lemma KeyOrder(x: Key, y: Key, z: Key)
    ensures !KeyLt(x, x)
    ensures KeyLt(x, y) && KeyLt(y, z) ==> KeyLt(x, z)
    ensures !KeyLt(x, y) && !KeyLt(y, x) ==> x == y
    ensures !KeyLt(x, y) && KeyLt(x, z) ==> KeyLt(y, z)
  {
  }

  /** `LIMIT 1` without ordering: the first element satisfying `p`. */
  function FindFirst<T>(s: seq<T>, p: T -> bool): (r: Option<nat>)
    ensures r.Some? ==> r.value < |s| && p(s[r.value])
    ensures r.Some? ==> forall j | 0 <= j < r.value :: !p(s[j])
    ensures r.None? <==> forall j | 0 <= j < |s| :: !p(s[j])
  {
    if |s| == 0 then None
    else if p(s[0]) then Some(0)
    else
      var r := FindFirst(s[1..], p);
      assert forall j | 1 <= j < |s| :: s[j] == s[1..][j - 1];
      if r.Some? then Some(r.value + 1) else None
  }

  /** `ORDER BY key DESC LIMIT 1`: a greatest element satisfying `p`, the first
      one in table order among equals. */
  function Best<T>(s: seq<T>, p: T -> bool, key: T -> Key): (r: Option<nat>)
    ensures r.Some? ==> r.value < |s| && p(s[r.value])
    ensures r.Some? ==> forall j | 0 <= j < |s| && p(s[j]) :: !KeyLt(key(s[r.value]), key(s[j]))
    ensures r.Some? ==> forall j | 0 <= j < r.value && p(s[j]) :: KeyLt(key(s[j]), key(s[r.value]))
    ensures r.None? <==> forall j | 0 <= j < |s| :: !p(s[j])
    decreases |s|
  {
    if |s| == 0 then None
    else
      var n := |s| - 1;
      var b := Best(s[..n], p, key);
      assert forall j | 0 <= j < n :: s[..n][j] == s[j];
      if p(s[n]) && (b.None? || KeyLt(key(s[b.value]), key(s[n]))) then
        assert forall j | 0 <= j < n && p(s[j]) :: KeyLt(key(s[j]), key(s[n])) by {
          forall j | 0 <= j < n && p(s[j]) ensures KeyLt(key(s[j]), key(s[n])) {
            KeyOrder(key(s[j]), key(s[b.value]), key(s[n]));
          }
        }
        Some(n)
      else
        assert b.Some? ==> forall j | 0 <= j <= n && p(s[j]) :: !KeyLt(key(s[b.value]), key(s[j]));
        b
  }

  /** The element `Best` picks, when there is one. */
  function BestRow(docs: seq<DocRow>, p: DocRow -> bool, key: DocRow -> Key): (r: Option<DocRow>)
    ensures r.Some? ==> r.value in docs && p(r.value)
    ensures r.None? <==> forall j | 0 <= j < |docs| :: !p(docs[j])
  {
    match Best(docs, p, key)
    case None => None
    case Some(i) => Some(docs[i])
  }

  /** The element `FindFirst` picks, when there is one. */
  function FirstRow(docs: seq<DocRow>, p: DocRow -> bool): (r: Option<DocRow>)
    ensures r.Some? ==> r.value in docs && p(r.value)
    ensures r.None? <==> forall j | 0 <= j < |docs| :: !p(docs[j])
  {
    match FindFirst(docs, p)
    case None => None
    case Some(i) => Some(docs[i])
  }

  /** Every row satisfying `p`, in table order (`fetchAllAssociative`). */
  function RowsWhere(docs: seq<DocRow>, p: DocRow -> bool): (r: seq<DocRow>)
    ensures forall d :: d in r <==> d in docs && p(d)
  {
    if |docs| == 0 then []
    else if p(docs[0]) then [docs[0]] + RowsWhere(docs[1..], p)
    else RowsWhere(docs[1..], p)
  }

  /** `UPDATE document SET ... WHERE id = :id`: applies `upd` to the rows with that id. */
  function UpdateWhere(docs: seq<DocRow>, id: string, upd: DocRow -> DocRow): (r: seq<DocRow>)
    ensures |r| == |docs|
    ensures forall i | 0 <= i < |docs| && docs[i].id != id :: r[i] == docs[i]
    ensures forall i | 0 <= i < |docs| && docs[i].id == id :: r[i] == upd(docs[i])
  {
    seq(|docs|, i requires 0 <= i < |docs| => if docs[i].id == id then upd(docs[i]) else docs[i])
  }

  /** Appending an element keeps the first match, or makes the new element the first. */
  lemma {:induction false} FindFirstAppend<T>(s: seq<T>, x: T, p: T -> bool)
    ensures FindFirst(s, p).Some? ==> FindFirst(s + [x], p) == FindFirst(s, p)
    ensures FindFirst(s, p).None? && p(x) ==> FindFirst(s + [x], p) == Some(|s|)
  {
    if |s| > 0 && !p(s[0]) {
      assert (s + [x])[1..] == s[1..] + [x];
      FindFirstAppend(s[1..], x, p);
    }
  }

  predicate IsData(row: DataRow, docId: string, kind: DataKind) {
    row.docId == docId && row.kind == kind
  }

  /** `getDocumentData()`: the first stored snapshot of the given kind for a document. */
  function FindData(data: seq<DataRow>, docId: string, kind: DataKind): (r: Option<Record>)
    ensures r.Some? ==> exists i | 0 <= i < |data| :: IsData(data[i], docId, kind) && data[i].record == r.value
    ensures r.None? <==> forall i | 0 <= i < |data| :: !IsData(data[i], docId, kind)
  {
    match FindFirst(data, (row: DataRow) => IsData(row, docId, kind))
    case None => None
    case Some(i) => Some(data[i].record)
  }

  /** Storing one more snapshot never hides the earlier one of the same kind;
      the first one of its kind becomes visible. */
  lemma FindDataAppend(data: seq<DataRow>, row: DataRow, docId: string, kind: DataKind)
    ensures FindData(data, docId, kind).Some? ==> FindData(data + [row], docId, kind) == FindData(data, docId, kind)
    ensures FindData(data, docId, kind).None? && IsData(row, docId, kind) ==>
      FindData(data + [row], docId, kind) == Some(row.record)
  {
    var p := (r: DataRow) => IsData(r, docId, kind);
    FindFirstAppend(data, row, p);
    assert (data + [row])[|data|] == row;
    assert forall j | 0 <= j < |data| :: (data + [row])[j] == data[j];
  }

  // ----- The document queries of the engine -----

  /** The predecessor query (src/Manager/DocumentManager.php:571-584): an
      earlier, not deleted, Open or Error document of the rule for the record. */
  predicate Blocks(d: DocRow, ruleId: string, sourceId: string, before: nat) {
    && d.ruleId == ruleId && d.sourceId == sourceId && d.dateCreated < before
    && !d.deleted && (d.global == Error || d.global == Open)
  }

  /** The relaxed predecessor query on child rules (631-650): Open documents
      already `Ready_to_send` do not block. */
  predicate BlocksRelaxed(d: DocRow, ruleId: string, sourceId: string, before: nat) {
    && d.ruleId == ruleId && d.sourceId == sourceId && d.dateCreated < before
    && !d.deleted && (d.global == Error || (d.global == Open && d.status != ReadyToSend))
  }

  /** The first blocking document, as `LIMIT 1` returns it. */
  function Blocker(docs: seq<DocRow>, ruleId: string, sourceId: string, before: nat, relaxed: bool): (r: Option<DocRow>)
    ensures r.Some? ==> r.value in docs
    ensures r.Some? ==> if relaxed then BlocksRelaxed(r.value, ruleId, sourceId, before) else Blocks(r.value, ruleId, sourceId, before)
    ensures r.None? <==> forall j | 0 <= j < |docs| ::
      if relaxed then !BlocksRelaxed(docs[j], ruleId, sourceId, before) else !Blocks(docs[j], ruleId, sourceId, before)
  {
    if relaxed then FirstRow(docs, d => BlocksRelaxed(d, ruleId, sourceId, before))
    else FirstRow(docs, d => Blocks(d, ruleId, sourceId, before))
  }

  /** A relaxed blocker is also a blocker, so on the same rule the relaxed
      query can only find something when the strict one already has. */
  lemma RelaxedBlockerIsBlocker(docs: seq<DocRow>, ruleId: string, sourceId: string, before: nat)
    ensures Blocker(docs, ruleId, sourceId, before, true).Some? ==> Blocker(docs, ruleId, sourceId, before, false).Some?
  {
    if Blocker(docs, ruleId, sourceId, before, true).Some? {
      var d := Blocker(docs, ruleId, sourceId, before, true).value;
      var i :| 0 <= i < |docs| && docs[i] == d;
      assert Blocks(docs[i], ruleId, sourceId, before);
    }
  }

  /** The classification query (1672-1715): a Close document, or a No_send
      one, of the rule, matched on its source id (or on its target id when
      `byTarget`), other than the current document and not deleted. */
  predicate Classifiable(d: DocRow, ruleId: string, id: Value, selfId: string, byTarget: bool) {
    && d.ruleId == ruleId
    && (d.global == Close || (d.global == Global.Cancel && d.status == NoSend))
    && SqlEq(if byTarget then d.targetId else d.sourceId, id)
    && d.id != selfId
    && !d.deleted
  }

  /** The classification order: a non-empty target id first, then Close before
      Cancel (the stored names sort that way), then the most recently modified. */
  function ClassifyKey(d: DocRow): Key {
    Key(if d.targetId == "" then 0 else 1, GlobalRank(d.global), d.dateModified)
  }

  function ClassifyQuery(docs: seq<DocRow>, ruleId: string, id: Value, selfId: string, byTarget: bool): (r: Option<DocRow>)
    ensures r.Some? ==> r.value in docs && Classifiable(r.value, ruleId, id, selfId, byTarget)
    ensures r.None? <==> forall j | 0 <= j < |docs| :: !Classifiable(docs[j], ruleId, id, selfId, byTarget)
  {
    BestRow(docs, d => Classifiable(d, ruleId, id, selfId, byTarget), ClassifyKey)
  }

  /** The id the classification query reports as `target_id`: the target id,
      or the source id when the query searched by target id. */
  function LinkedId(d: DocRow, byTarget: bool): string {
    if byTarget then d.sourceId else d.targetId
  }

  /** A document that settles a relationship (2109-2142): a Close or No_send
      document of the related rule, matched on its target id with a source id
      when the direction is -1, and on its source id with a target id otherwise. */
  predicate Resolves(d: DocRow, ruleId: string, record: Value, direction: int) {
    && d.ruleId == ruleId && !d.deleted
    && (d.global == Close || d.status == NoSend)
    && if direction == -1 then d.sourceId != "" && SqlEq(d.targetId, record)
       else SqlEq(d.sourceId, record) && d.targetId != ""
  }

  function CreatedKey(d: DocRow): Key {
    Key(d.dateCreated, 0, 0)
  }

  /** The most recently created document that settles the relationship. */
  function ResolveQuery(docs: seq<DocRow>, ruleId: string, record: Value, direction: int): (r: Option<DocRow>)
    ensures r.Some? ==> r.value in docs && Resolves(r.value, ruleId, record, direction)
    ensures r.Some? ==> forall j | 0 <= j < |docs| && Resolves(docs[j], ruleId, record, direction) ::
      docs[j].dateCreated <= r.value.dateCreated
    ensures r.None? <==> forall j | 0 <= j < |docs| :: !Resolves(docs[j], ruleId, record, direction)
  {
    match Best(docs, d => Resolves(d, ruleId, record, direction), CreatedKey)
    case None => None
    case Some(i) => Some(docs[i])
  }

  /** The query of `searchRelateDocumentByStatus()` (2214-2232). */
  predicate HasStatus(d: DocRow, ruleId: string, record: Value, direction: int, s: Status) {
    && d.ruleId == ruleId
    && SqlEq(if direction == -1 then d.targetId else d.sourceId, record)
    && d.status == s && !d.deleted
  }

  /** The child documents of a document (1546-1560): not deleted, with that parent id. */
  function Children(docs: seq<DocRow>, id: string): (r: seq<DocRow>)
    ensures forall d :: d in r <==> d in docs && d.parentId == id && !d.deleted
  {
    RowsWhere(docs, (d: DocRow) => d.parentId == id && !d.deleted)
  }
}

=== FILE: strings.dfy ===
/** ASCII models of the PHP string functions the document engine relies on:
    `trim`/`ltrim`, `strtoupper`, `explode`, `stripos` and byte-wise string ordering. */
module Strings {
  import opened Wrappers

  /** The characters PHP's `trim()` strips by default: space, tab, newline,
      carriage return, NUL and vertical tab. */
  predicate IsSpace(c: char) {
    c == ' ' || c == '\t' || c == '\n' || c == '\r' || c as int == 0 || c as int == 11
  }

  /** `ltrim()`: the longest suffix of `s` that does not start with whitespace. */
  function TrimLeft(s: string): (r: string)
    ensures |r| <= |s| && r == s[|s| - |r|..]
    ensures forall k | 0 <= k < |s| - |r| :: IsSpace(s[k])
    ensures |r| > 0 ==> !IsSpace(r[0])
    decreases |s|
  {
    if |s| > 0 && IsSpace(s[0]) then
      var r := TrimLeft(s[1..]);
      assert s[1..][|s| - 1 - |r|..] == s[|s| - |r|..];
      assert forall k | 1 <= k < |s| - |r| :: s[k] == s[1..][k - 1];
      r
    else s
  }

  /** `rtrim()`: the longest prefix of `s` that does not end with whitespace. */
  function TrimRight(s: string): (r: string)
    ensures |r| <= |s| && r == s[..|r|]
    ensures forall k | |r| <= k < |s| :: IsSpace(s[k])
    ensures |r| > 0 ==> !IsSpace(r[|r| - 1])
    decreases |s|
  {
    if |s| > 0 && IsSpace(s[|s| - 1]) then
      var r := TrimRight(s[..|s| - 1]);
      assert s[..|s| - 1][..|r|] == s[..|r|];
      assert forall k | |r| <= k < |s| - 1 :: s[k] == s[..|s| - 1][k];
      r
    else s
  }

  /** `trim()`: `s` with leading and trailing whitespace removed. */
  function Trim(s: string): (r: string)
    ensures |r| <= |s|
    ensures |r| > 0 ==> !IsSpace(r[0]) && !IsSpace(r[|r| - 1])
    ensures (forall k | 0 <= k < |s| :: IsSpace(s[k])) <==> r == ""
  {
    var l := TrimLeft(s);
    var r := TrimRight(l);
    assert |r| > 0 ==> r[0] == l[0];
    r
  }

  /** `strtoupper()` on one ASCII character. */
  function UpperChar(c: char): char {
    if 'a' <= c <= 'z' then (c as int - 32) as char else c
  }

  /** `strtoupper()`: ASCII upper-casing, character by character. */
  function Upper(s: string): (r: string)
    ensures |r| == |s|
    ensures forall i | 0 <= i < |s| :: r[i] == UpperChar(s[i])
  {
    seq(|s|, i requires 0 <= i < |s| => UpperChar(s[i]))
  }

  /** An ASCII lower-case letter, the only characters `strtoupper()` changes. */
  predicate IsLower(c: char) {
    'a' <= c <= 'z'
  }

  /** Upper-casing leaves no lower-case letter, keeps every other character,
      and doing it twice is doing it once. */
  lemma UpperIdempotent(s: string)
    ensures forall i | 0 <= i < |s| :: !IsLower(Upper(s)[i])
    ensures forall i | 0 <= i < |s| :: !IsLower(s[i]) ==> Upper(s)[i] == s[i]
    ensures Upper(Upper(s)) == Upper(s)
  {
    var u := Upper(s);
    forall i | 0 <= i < |s|
      ensures UpperChar(u[i]) == u[i]
    {
    }
  }

  /** Upper-casing commutes with slicing. */
  lemma UpperSlice(s: string, i: nat, j: nat)
    requires i <= j <= |s|
    ensures Upper(s[i..j]) == Upper(s)[i..j]
  {
  }

  /** Position of the first occurrence of `c` in `s`. */
  function IndexOf(s: string, c: char): (r: nat)
    requires c in s
    ensures r < |s| && s[r] == c && c !in s[..r]
  {
    if s[0] == c then 0 else 1 + IndexOf(s[1..], c)
  }

  /** `explode($sep, $s)`: the pieces of `s` between separators; never empty. */
  function Split(s: string, sep: char): (parts: seq<string>)
    ensures |parts| >= 1
    ensures forall i | 0 <= i < |parts| :: sep !in parts[i]
    decreases |s|
  {
    if sep !in s then [s]
    else
      var i := IndexOf(s, sep);
      [s[..i]] + Split(s[i + 1..], sep)
  }

  /** `implode($sep, $parts)`. */
  function Join(parts: seq<string>, sep: char): string
    requires |parts| >= 1
    decreases |parts|
  {
    if |parts| == 1 then parts[0] else parts[0] + [sep] + Join(parts[1..], sep)
  }

  /** Splitting and joining again gives back the original text. */
  lemma {:induction false} JoinSplit(s: string, sep: char)
    ensures Join(Split(s, sep), sep) == s
    decreases |s|
  {
    if sep in s {
      var i := IndexOf(s, sep);
      var rest := Split(s[i + 1..], sep);
      assert Split(s, sep) == [s[..i]] + rest;
      assert ([s[..i]] + rest)[1..] == rest;
      assert Join(Split(s, sep), sep) == s[..i] + [sep] + Join(rest, sep);
      JoinSplit(s[i + 1..], sep);
      assert s == s[..i] + [sep] + s[i + 1..];
    }
  }

  /** Joining separator-free pieces and splitting again gives back the pieces. */
  lemma {:induction false} SplitJoin(parts: seq<string>, sep: char)
    requires |parts| >= 1
    requires forall i | 0 <= i < |parts| :: sep !in parts[i]
    ensures Split(Join(parts, sep), sep) == parts
    decreases |parts|
  {
    if |parts| > 1 {
      assert Join(parts, sep) == parts[0] + [sep] + Join(parts[1..], sep);
      SplitFirst(parts[0], Join(parts[1..], sep), sep);
      assert forall i | 0 <= i < |parts[1..]| :: parts[1..][i] == parts[i + 1];
      SplitJoin(parts[1..], sep);
      assert parts == [parts[0]] + parts[1..];
    }
  }

  /** A separator-free piece followed by the separator splits off first. */
  lemma SplitFirst(a: string, rest: string, sep: char)
    requires sep !in a
    ensures Split(a + [sep] + rest, sep) == [a] + Split(rest, sep)
  {
    var s := a + [sep] + rest;
    assert s[|a|] == sep;
    assert s[..|a|] == a;
    assert sep in s;
    var i := IndexOf(s, sep);
    assert i == |a|;
    assert s[i + 1..] == rest;
  }

  /** `needle` occurs in `hay` starting at position `i`. */
  predicate MatchAt(hay: string, needle: string, i: nat) {
    i + |needle| <= |hay| && hay[i..i + |needle|] == needle
  }

  /** The first position at or after `i` where `needle` occurs in `hay`. */
  function FindFrom(hay: string, needle: string, i: nat): (r: Option<nat>)
    requires i <= |hay|
    ensures r.Some? ==> i <= r.value && MatchAt(hay, needle, r.value)
    ensures r.Some? ==> forall j | i <= j < r.value :: !MatchAt(hay, needle, j)
    ensures r.None? ==> forall j | i <= j <= |hay| :: !MatchAt(hay, needle, j)
    decreases |hay| - i
  {
    if MatchAt(hay, needle, i) then Some(i)
    else if i + |needle| >= |hay| then None
    else FindFrom(hay, needle, i + 1)
  }

  /** `stripos()`: case-insensitive position of `needle` in `hay` (an empty
      needle is found at position 0, as in PHP 8). */
  function Stripos(hay: string, needle: string): (r: Option<nat>)
    ensures r.Some? <==> exists j | 0 <= j <= |hay| :: MatchAt(Upper(hay), Upper(needle), j)
  {
    FindFrom(Upper(hay), Upper(needle), 0)
  }

  /** Byte-wise three-way comparison of two strings (`strcmp` sign). */
  function LexCmp(a: string, b: string): (r: int)
    ensures -1 <= r <= 1
    ensures r == 0 <==> a == b
    decreases |a|
  {
    if |a| == 0 then (if |b| == 0 then 0 else -1)
    else if |b| == 0 then 1
    else if a[0] < b[0] then -1
    else if b[0] < a[0] then 1
    else
      var r := LexCmp(a[1..], b[1..]);
      assert a == [a[0]] + a[1..] && b == [b[0]] + b[1..];
      r
  }

  /** Swapping the operands of the comparison flips its sign. */
  lemma {:induction false} LexCmpAntisymmetric(a: string, b: string)
    ensures LexCmp(a, b) == -LexCmp(b, a)
    decreases |a|
  {
    if |a| > 0 && |b| > 0 && a[0] == b[0] {
      LexCmpAntisymmetric(a[1..], b[1..]);
    }
  }
}

=== FILE: target_read.dfy ===
/** The checking stage: the read of the target record before an update, a
    deletion or a duplicate search (`getDocumentHistory()`), the no-change
    test (`checkNoChange()`) and `getTargetDataDocument()` that chains them
    (src/Manager/DocumentManager.php:908-1186). */
module TargetRead {
  import opened Wrappers
  import opened Strings
  import opened Values
  import opened Statuses
  import opened Rules
  import opened Messages
  import opened Store
  import opened Engine
  import opened Snapshot

  /** What `getDocumentHistory()` returns: `false` when the target has no
      such record, `-1` on a read or history-write error, or the record. */
  datatype History = Absent | Unreadable | Present(record: Record)

  /** The read request of `getDocumentHistory()` (1145-1157): every field of
      the module for a Delete, the rule's target fields otherwise. */
  function HistoryQuery(w: World, env: Env, search: Record): (r: ReadQuery)
    ensures r.query == search && r.docType == w.e.docType
    ensures r.fields == GetTargetFields(w.e, env, w.e.docType == Some(Delete))
  {
    ReadQuery(GetTargetFields(w.e, env, w.e.docType == Some(Delete)), search, w.e.docType)
  }

  /** The fields the history read asks for. A Delete asks for the module's
      fields, all but the element id; anything else asks for the rule's
      field and relationship targets, every rule field but the element id
      among them. */
  lemma HistoryQueryFields(w: World, env: Env, search: Record)
    ensures var r := HistoryQuery(w, env, search);
      && (w.e.docType == Some(Delete) ==> (r.fields.None? <==> |env.moduleFields| == 0))
      && (w.e.docType == Some(Delete) && r.fields.Some? ==>
            && (forall k | k in r.fields.value :: k in env.moduleFields)
            && (forall k | k in env.moduleFields && k != ElementId :: k in r.fields.value))
    ensures var r := HistoryQuery(w, env, search);
      && (w.e.docType != Some(Delete) && r.fields.Some? ==>
            forall k | k in r.fields.value :: k in RuleTargets(env.cfg.fields, w.e.ruleId) || k in RelationshipTargets(env.cfg.relationships, w.e.ruleId))
      && (w.e.docType != Some(Delete) && !EmptyText(w.e.ruleId) ==>
            forall i | 0 <= i < |env.cfg.fields| && env.cfg.fields[i].ruleId == w.e.ruleId && env.cfg.fields[i].targetFieldName != ElementId ::
              r.fields.Some? && env.cfg.fields[i].targetFieldName in r.fields.value)
  {
    var all := w.e.docType == Some(Delete);
    var fields := GetTargetFields(w.e, env, all);
    if fields.Some? {
      TargetFieldsMembers(w.e, env, all);
    }
    forall i | 0 <= i < |env.cfg.fields| && env.cfg.fields[i].ruleId == w.e.ruleId && env.cfg.fields[i].targetFieldName != ElementId && !all && !EmptyText(w.e.ruleId)
      ensures fields.Some? && env.cfg.fields[i].targetFieldName in fields.value
    {
      assert env.cfg.fields[i].targetFieldName in RuleTargets(env.cfg.fields, w.e.ruleId);
      assert env.cfg.fields[i].targetFieldName in AllTargetFields(w.e, env, all);
      TargetFieldsMembers(w.e, env, all);
    }
  }

  /** The history of a successful read (1172-1184): the first record, once
      stored as the history snapshot. A failed write, or an empty first
      record, which is never stored, is Unreadable; the error text then
      appended is empty. */
  function KeepFirst(w: World, env: Env, first: Record): (r: (World, History))
    ensures r.1.Present? <==> |first| > 0 && env.persistOk
    ensures r.1.Present? ==>
      && r.1.record == first
      && r.0.db.data == w.db.data + [DataRow(w.e.id, HistoryData, TakeSnapshot(w.e, env, first, HistoryData))]
    ensures !r.1.Present? ==> r.1 == Unreadable
    ensures r.0.e.docType == w.e.docType && r.0.e.status == w.e.status && r.0.e.targetId == w.e.targetId && r.0.e.id == w.e.id
    ensures Step(w, r.0)
  {
    var (w1, ok) := UpdateHistoryTable(w, env, first);
    (w1, if ok then Present(first) else Unreadable)
  }

  /** The target's answer to the history read. */
  function HistoryRead(w: World, env: Env, search: Record): ReadResult {
    env.readTarget(HistoryQuery(w, env, search))
  }

  /** `getDocumentHistory()` (1142-1186). No values and no error is Absent;
      an error is Unreadable; otherwise the first record is kept. */
  function GetDocumentHistory(w: World, env: Env, search: Record): (r: (World, History))
    ensures var read := HistoryRead(w, env, search);
      && (|read.values| == 0 && EmptyText(read.error) ==> r == (w, Absent))
      && (!EmptyText(read.error) ==> r == (Say(w, ReadError(read.error)), Unreadable))
      && (|read.values| > 0 && EmptyText(read.error) ==> r == KeepFirst(w, env, read.values[0]))
    ensures r.0.e.docType == w.e.docType && r.0.e.status == w.e.status && r.0.e.targetId == w.e.targetId && r.0.e.id == w.e.id
    ensures Step(w, r.0)
  {
    var read := HistoryRead(w, env, search);
    if |read.values| == 0 && EmptyText(read.error) then (w, Absent)
    else if !EmptyText(read.error) then
      SayStep(w, ReadError(read.error));
      (Say(w, ReadError(read.error)), Unreadable)
    else KeepFirst(w, env, read.values[0])
  }

  /** A history exists exactly when the read succeeds with a non-empty first
      record that is stored; it is that record, and it becomes the document's
      history snapshot when none was stored before. */
  lemma HistoryStored(w: World, env: Env, search: Record)
    ensures var r := GetDocumentHistory(w, env, search);
      var read := HistoryRead(w, env, search);
      && (r.1.Present? <==> EmptyText(read.error) && |read.values| > 0 && |read.values[0]| > 0 && env.persistOk)
      && (r.1.Present? ==> r.1.record == read.values[0])
    ensures var r := GetDocumentHistory(w, env, search);
      r.1.Present? && FindData(w.db.data, w.e.id, HistoryData).None? ==>
        FindData(r.0.db.data, w.e.id, HistoryData) == Some(TakeSnapshot(w.e, env, r.1.record, HistoryData))
  {
    var read := HistoryRead(w, env, search);
    var r := GetDocumentHistory(w, env, search);
    if r.1.Present? && FindData(w.db.data, w.e.id, HistoryData).None? {
      InsertedSnapshotIsRead(w, env, read.values[0], HistoryData);
    }
  }

  // ----- checkNoChange() -----

  /** A rule field is unchanged (1100-1116) when both sides are loosely
      equal after trimming (two numeric strings as numbers), or both are
      empty. */
  predicate FieldUnchanged(history: Record, target: Record, name: string) {
    || StrLooseEq(Trim(Text(Get(history, name))), Trim(Text(Get(target, name))))
    || (Empty(Get(history, name)) && Empty(Get(target, name)))
  }

  /** A relationship field is unchanged (1119-1128) when it is
      `Myddleware_element_id` or both sides are loosely equal, with no
      trimming and no empty-equivalence beyond that of `==`. */
  predicate RelationshipUnchanged(history: Record, target: Record, rel: Relationship) {
    rel.fieldNameTarget == ElementId || LooseEq(Get(history, rel.fieldNameTarget), Get(target, rel.fieldNameTarget))
  }

  /** Whether `same` holds of every rule field's target name, checked up to
      the first failure. */
  function AllFields(fields: seq<RuleField>, same: string -> bool): (r: bool)
    ensures r <==> forall i | 0 <= i < |fields| :: same(fields[i].targetFieldName)
    decreases |fields|
  {
    if |fields| == 0 then true
    else if !same(fields[0].targetFieldName) then false
    else
      var r := AllFields(fields[1..], same);
      assert forall i | 1 <= i < |fields| :: fields[i] == fields[1..][i - 1];
      r
  }

  /** The rule-field loop, up to the first difference. */
  function FieldsUnchanged(history: Record, target: Record, fields: seq<RuleField>): (r: bool)
    ensures r <==> forall i | 0 <= i < |fields| :: FieldUnchanged(history, target, fields[i].targetFieldName)
  {
    AllFields(fields, name => FieldUnchanged(history, target, name))
  }

  /** The relationship loop, up to the first difference. */
  function RelationshipsUnchanged(history: Record, target: Record, rels: seq<Relationship>): (r: bool)
    ensures r <==> forall i | 0 <= i < |rels| :: RelationshipUnchanged(history, target, rels[i])
    decreases |rels|
  {
    if |rels| == 0 then true
    else if !RelationshipUnchanged(history, target, rels[0]) then false
    else
      var r := RelationshipsUnchanged(history, target, rels[1..]);
      assert forall i | 1 <= i < |rels| :: rels[i] == rels[1..][i - 1];
      r
  }

  /** The target snapshot as compared (1094-1096): a non-empty
      `Myddleware_element_id` is blanked, since the history never has it. */
  function ComparedTarget(target: Record): (r: Record)
    ensures forall k | k != ElementId :: Get(r, k) == Get(target, k)
    ensures Empty(Get(r, ElementId))
    ensures r.Keys == target.Keys
  {
    if Empty(Get(target, ElementId)) then target else target[ElementId := Str("")]
  }

  /** The history compared (1080-1091): the one given when it is not empty,
      otherwise the stored history snapshot; none when that is empty too. */
  function ComparedHistory(w: World, given: Option<Record>): (r: Option<Record>)
    ensures r.Some? ==> |r.value| > 0
    ensures given.Some? && |given.value| > 0 ==> r == given
    ensures !(given.Some? && |given.value| > 0) ==>
      (r.Some? <==> GetDocumentData(w, HistoryData).Some? && |GetDocumentData(w, HistoryData).value| > 0)
  {
    if given.Some? && |given.value| > 0 then given
    else
      match GetDocumentData(w, HistoryData)
      case Some(h) => if |h| > 0 then Some(h) else None
      case None => None
  }

  /** Whether the data to send equals what the target already holds. */
  predicate NoChange(w: World, history: Record) {
    var target := ComparedTarget(GetDocumentData(w, TargetData).GetOr(map[]));
    && (forall i | 0 <= i < |w.e.ruleFields| :: FieldUnchanged(history, target, w.e.ruleFields[i].targetFieldName))
    && (forall i | 0 <= i < |w.e.ruleRelationships| :: RelationshipUnchanged(history, target, w.e.ruleRelationships[i]))
  }

  /** `checkNoChange()` (1076-1139). With no history to compare, nothing
      happens. When every rule field and relationship field is unchanged the
      document becomes No_send with a warning; any single difference leaves
      everything as it was. */
  function CheckNoChange(w: World, env: Env, given: Option<Record>): (r: (World, bool))
    ensures ComparedHistory(w, given).None? ==> r == (w, false)
    ensures r.1 <==> ComparedHistory(w, given).Some? && NoChange(w, ComparedHistory(w, given).value)
    ensures !r.1 ==> r.0 == w
    ensures r.1 ==> Trail(w) + [IdenticalData, StatusNote(env, NoSend)] == Trail(r.0)
    ensures r.1 && WriteOk(env, StatusUpdate(NoSend)) ==> r.0.e.status == Some(NoSend) && r.0.e.typeError == Warning
    ensures r.0.e.docType == w.e.docType
    ensures Step(w, r.0)
  {
    match ComparedHistory(w, given)
    case None => (w, false)
    case Some(history) =>
      var target := ComparedTarget(GetDocumentData(w, TargetData).GetOr(map[]));
      if FieldsUnchanged(history, target, w.e.ruleFields) && RelationshipsUnchanged(history, target, w.e.ruleRelationships) then
        var w1 := Say(World(w.e.(typeError := Warning), w.db), IdenticalData);
        StepKeepsTables(w, w1);
        var w2 := UpdateStatus(w1, env, NoSend);
        StepTrans(w, w1, w2);
        TrailTwo(w, w1, w2, IdenticalData, StatusNote(env, NoSend));
        (w2, true)
      else (w, false)
  }

  /** A single difference in a rule field is enough to send the document. */
  lemma OneDifferenceSends(w: World, env: Env, given: Option<Record>, i: nat)
    requires i < |w.e.ruleFields| && ComparedHistory(w, given).Some?
    requires !FieldUnchanged(ComparedHistory(w, given).value, ComparedTarget(GetDocumentData(w, TargetData).GetOr(map[])), w.e.ruleFields[i].targetFieldName)
    ensures CheckNoChange(w, env, given) == (w, false)
  {
  }

  // ----- getTargetDataDocument() -----

  /** How a branch of `getTargetDataDocument()` ends: on to the no-change
      test with the history read, stopped (a deletion whose record is gone),
      or an exception with its note. */
  datatype Branch = Continue(history: Option<Record>) | Stopped | Thrown(note: Note)

  /** The history as `checkNoChange()` receives it. */
  function Given(h: History): Option<Record> {
    match h
    case Present(record) => Some(record)
    case _ => None
  }

  /** Whether the target record is read by its id (923-929): an update or a
      deletion of a rule that is not a child rule. */
  predicate ReadsById(w: World, env: Env) {
    (w.e.docType == Some(Update) || w.e.docType == Some(Delete)) && !IsChild(env.cfg, w.e.ruleId)
  }

  /** The read by id (930-951): a deletion whose record is gone is
      cancelled; an unreadable record is an error; otherwise the document is
      Ready_to_send. */
  function ReadById(w: World, env: Env): (r: (World, Branch))
    ensures var h := GetDocumentHistory(w, env, map["id" := Str(w.e.targetId)]).1;
      && (w.e.docType == Some(Delete) && h == Absent ==> r.1 == Stopped)
      && (h == Unreadable ==> r.1 == Thrown(HistoryMissing(w.e.targetId)))
      && (r.1.Continue? <==> h != Unreadable && !(w.e.docType == Some(Delete) && h == Absent))
      && (r.1.Continue? ==> r.1.history == Given(h))
    ensures r.1 == Stopped && WriteOk(env, StatusUpdate(Status.Cancel)) ==> r.0.e.status == Some(Status.Cancel)
    ensures r.1.Continue? && WriteOk(env, StatusUpdate(ReadyToSend)) ==> r.0.e.status == Some(ReadyToSend)
    ensures r.0.e.docType == w.e.docType
    ensures Step(w, r.0)
  {
    var (w1, h) := GetDocumentHistory(w, env, map["id" := Str(w.e.targetId)]);
    if w.e.docType == Some(Delete) && h == Absent then
      var w2 := CancelGone(w1, env);
      StepTrans(w, w1, w2);
      (w2, Stopped)
    else if h == Unreadable then (w1, Thrown(HistoryMissing(w.e.targetId)))
    else
      var w2 := UpdateStatus(w1, env, ReadyToSend);
      StepTrans(w, w1, w2);
      (w2, Continue(Given(h)))
  }

  /** A deletion whose target record is already gone (936-943): noted, then
      Cancel. */
  function CancelGone(w: World, env: Env): (r: World)
    ensures Trail(r) == Trail(w) + [DeleteTargetGone, StatusNote(env, Status.Cancel)]
    ensures WriteOk(env, StatusUpdate(Status.Cancel)) ==> r.e.status == Some(Status.Cancel)
    ensures r.e.docType == w.e.docType
    ensures Step(w, r)
  {
    var w1 := Say(w, DeleteTargetGone);
    SayStep(w, DeleteTargetGone);
    var w2 := UpdateStatus(w1, env, Status.Cancel);
    StepTrans(w, w1, w2);
    TrailTwo(w, w1, w2, DeleteTargetGone, StatusNote(env, Status.Cancel));
    w2
  }

  /** The search of the duplicate read (962-964): each duplicate field
      with its value in the target snapshot, a missing one as null. */
  function SearchFields(target: Record, names: seq<string>): (r: Record)
    ensures r.Keys == set n | n in names
    ensures forall n | n in names :: r[n] == Get(target, n)
  {
    map n | n in names :: Get(target, n)
  }

  /** The search is the target snapshot cut down to the duplicate fields:
      every field it holds is one of them, and a field the snapshot has keeps
      its value; one it lacks is searched as null. */
  lemma SearchFieldsRestrict(target: Record, names: seq<string>)
    ensures forall k | k in SearchFields(target, names) :: k in names
    ensures forall k | k in names && k in target :: k in SearchFields(target, names) && SearchFields(target, names)[k] == target[k]
    ensures forall k | k in names && k !in target :: SearchFields(target, names)[k] == Null
    ensures (forall k | k in names :: k in target) ==> SearchFields(target, names).Items <= target.Items
  {
  }

  /** The duplicate search (953-969): the values of the `duplicate_fields`
      of the target snapshot, read from the target. No target snapshot or
      an unreadable target is an error. Nothing found: a search document is
      Not_found, with an error severity but no exception; any other is
      Ready_to_send. Found: a search document is Found, any other is
      Ready_to_send and stored as an update; either way the found id is
      stored as target id. */
  function SearchDuplicate(w: World, env: Env, names: seq<string>): (r: (World, Branch))
    ensures var target := GetDocumentData(w, TargetData);
      target.None? || |target.value| == 0 ==> r == (w, Thrown(DuplicateSearchNoTarget))
    ensures r.1.Thrown? ==> r.1.note == DuplicateSearchNoTarget || r.1.note == DuplicateSearchFailed
    ensures r.1 != Stopped
    ensures |r.0.db.docs| == |w.db.docs|
    ensures r.1.Continue? && r.1.history.Some? ==>
      && (WriteOk(env, StatusUpdate(if w.e.docType == Some(Search) then Found else ReadyToSend)) ==>
          r.0.e.status == Some(if w.e.docType == Some(Search) then Found else ReadyToSend))
      && StoresDuplicate(w, env, r.0, Text(Get(r.1.history.value, "id")))
    ensures r.1.Continue? && r.1.history.None? && WriteOk(env, StatusUpdate(if w.e.docType == Some(Search) then NotFound else ReadyToSend)) ==>
      && r.0.e.status == Some(if w.e.docType == Some(Search) then NotFound else ReadyToSend)
      && (w.e.docType == Some(Search) ==> r.0.e.typeError == Failure)
    ensures r.0.e.docType == w.e.docType
    ensures Step(w, r.0)
  {
    var target := GetDocumentData(w, TargetData);
    if target.None? || |target.value| == 0 then (w, Thrown(DuplicateSearchNoTarget))
    else
      var search := SearchFields(target.value, names);
      var (w1, h) := GetDocumentHistory(w, env, search);
      match h
      case Unreadable => (w1, Thrown(DuplicateSearchFailed))
      case Absent =>
        var r := NotDuplicated(w1, env);
        StepTrans(w, w1, r);
        (r, Continue(None))
      case Present(record) =>
        var r := Duplicated(w1, env, search, record);
        StepTrans(w, w1, r);
        StoresDuplicateFrom(w, env, w1, r, Text(Get(record, "id")));
        (r, Continue(Some(record)))
  }

  /** No duplicate in the target (972-980). */
  function NotDuplicated(w: World, env: Env): (r: World)
    ensures WriteOk(env, StatusUpdate(if w.e.docType == Some(Search) then NotFound else ReadyToSend)) ==>
      && r.e.status == Some(if w.e.docType == Some(Search) then NotFound else ReadyToSend)
      && (w.e.docType == Some(Search) ==> r.e.typeError == Failure)
    ensures r.e.docType == w.e.docType
    ensures Step(w, r)
  {
    if w.e.docType == Some(Search) then
      var w1 := World(w.e.(typeError := Failure), w.db);
      StepKeepsTables(w, w1);
      var w2 := UpdateStatus(w1, env, NotFound);
      StepTrans(w, w1, w2);
      w2
    else UpdateStatus(w, env, ReadyToSend)
  }

  /** The document's rows in `r` hold the found id as target id, and a
      document that is not a search is stored as an update. */
  predicate StoresDuplicate(w: World, env: Env, r: World, id: string)
    requires |r.db.docs| == |w.db.docs|
  {
    forall i | 0 <= i < |w.db.docs| && w.db.docs[i].id == w.e.id ::
      && (WriteOk(env, TargetIdUpdate(id)) ==> r.db.docs[i].targetId == id)
      && (w.e.docType != Some(Search) && WriteOk(env, TypeUpdate(Update)) ==> r.db.docs[i].docType == Some(Update))
  }

  /** The rows of a document are found alike before and after a step that
      keeps its id and type. */
  lemma StoresDuplicateFrom(w: World, env: Env, w1: World, r: World, id: string)
    requires SameRows(w.db, w1.db) && |r.db.docs| == |w1.db.docs|
    requires w1.e.id == w.e.id && w1.e.docType == w.e.docType
    requires StoresDuplicate(w1, env, r, id)
    ensures StoresDuplicate(w, env, r, id)
  {
  }

  /** A duplicate found in the target (981-998): its id becomes the target
      id, and a document that is not a search is stored as an update; the
      type held in memory is left as it was. */
  function Duplicated(w: World, env: Env, search: Record, record: Record): (r: World)
    ensures |r.db.docs| == |w.db.docs|
    ensures WriteOk(env, StatusUpdate(if w.e.docType == Some(Search) then Found else ReadyToSend)) ==>
      r.e.status == Some(if w.e.docType == Some(Search) then Found else ReadyToSend)
    ensures StoresDuplicate(w, env, r, Text(Get(record, "id")))
    ensures r.e.docType == w.e.docType
    ensures Step(w, r)
  {
    var w1 := Say(w, FoundDuplicate(search));
    StepKeepsTables(w, w1);
    var w2 := if w.e.docType == Some(Search) then UpdateStatus(w1, env, Found)
      else UpdateType(UpdateStatus(w1, env, ReadyToSend), env, Update);
    StepTrans(w, w1, w2);
    var (w3, _) := UpdateTargetId(w2, env, Text(Get(record, "id")));
    UpdateTargetIdStep(w2, env, Text(Get(record, "id")));
    StepTrans(w, w2, w3);
    w3
  }

  /** The branch of `getTargetDataDocument()` the document takes. */
  function SelectBranch(w: World, env: Env): (r: (World, Branch))
    ensures ReadsById(w, env) ==> r == ReadById(w, env)
    ensures !ReadsById(w, env) && !EmptyText(Param(w.e.ruleParams, "duplicate_fields")) ==>
      r == SearchDuplicate(w, env, Split(Param(w.e.ruleParams, "duplicate_fields"), ';'))
    ensures !ReadsById(w, env) && EmptyText(Param(w.e.ruleParams, "duplicate_fields")) ==>
      r == (UpdateStatus(w, env, ReadyToSend), Continue(None))
    ensures r.0.e.docType == w.e.docType
    ensures Step(w, r.0)
  {
    if ReadsById(w, env) then ReadById(w, env)
    else if !EmptyText(Param(w.e.ruleParams, "duplicate_fields")) then
      SearchDuplicate(w, env, Split(Param(w.e.ruleParams, "duplicate_fields"), ';'))
    else (UpdateStatus(w, env, ReadyToSend), Continue(None))
  }

  /** The exception path of `getTargetDataDocument()` (1015-1026): the
      note, the error severity, and Not_found for a search document or
      Error_checking for any other. */
  function Abort(w: World, env: Env, n: Note): (r: World)
    ensures r.e.typeError == Failure
    ensures WriteOk(env, StatusUpdate(if w.e.docType == Some(Search) then NotFound else ErrorChecking)) ==>
      r.e.status == Some(if w.e.docType == Some(Search) then NotFound else ErrorChecking)
    ensures Trail(r) == Trail(w) + [n, StatusNote(env, if w.e.docType == Some(Search) then NotFound else ErrorChecking)]
    ensures Step(w, r)
  {
    var w1 := Fail(w, n);
    StepKeepsTables(w, w1);
    UpdateStatus(w1, env, if w.e.docType == Some(Search) then NotFound else ErrorChecking)
  }

  /** Whether the no-change test runs (1008-1014): not for a search or a
      deletion, nor for a parent rule, whose children may have changed. */
  predicate TestsNoChange(w: World, env: Env) {
    w.e.docType != Some(Search) && w.e.docType != Some(Delete) && !IsParent(env.cfg, w.e.ruleId)
  }

  /** `getTargetDataDocument()` (908-1029). The child rules run first, and
      their failure is an error; then the branch, then the no-change test. */
  function GetTargetDataDocument(w: World, env: Env): (r: (World, bool))
    ensures !w.e.jobActive ==> r == (Say(w, JobNotActive), false)
    ensures w.e.jobActive && env.childRun.ChildrenFailed? ==>
      r == (Abort(w, env, ChildFailed(env.childRun.error)), false)
    ensures w.e.jobActive && env.childRun == ChildrenOk ==>
      match SelectBranch(w, env)
      case (w1, Stopped) => r == (w1, false)
      case (w1, Thrown(n)) => r == (Abort(w1, env, n), false)
      case (w1, Continue(h)) => r.1 && r.0 == (if TestsNoChange(w, env) then CheckNoChange(w1, env, h).0 else w1)
    ensures Step(w, r.0)
  {
    if !w.e.jobActive then
      StepKeepsTables(w, Say(w, JobNotActive));
      (Say(w, JobNotActive), false)
    else if env.childRun.ChildrenFailed? then (Abort(w, env, ChildFailed(env.childRun.error)), false)
    else
      var (w1, branch) := SelectBranch(w, env);
      match branch
      case Stopped => (w1, false)
      case Thrown(n) =>
        var w2 := Abort(w1, env, n);
        StepTrans(w, w1, w2);
        (w2, false)
      case Continue(h) =>
        if TestsNoChange(w, env) then
          var w2 := CheckNoChange(w1, env, h).0;
          StepTrans(w, w1, w2);
          (w2, true)
        else (w1, true)
  }

  /** A deletion whose record the target no longer has is cancelled, not an
      error: the stage fails with the status Cancel. */
  lemma DeleteOfGoneRecordCancelled(w: World, env: Env)
    requires w.e.jobActive && env.childRun == ChildrenOk && WriteOk(env, StatusUpdate(Status.Cancel))
    requires w.e.docType == Some(Delete) && !IsChild(env.cfg, w.e.ruleId)
    requires GetDocumentHistory(w, env, map["id" := Str(w.e.targetId)]).1 == Absent
    ensures var r := GetTargetDataDocument(w, env);
      !r.1 && r.0.e.status == Some(Status.Cancel)
  {
    assert SelectBranch(w, env).1 == Stopped;
  }
}

=== FILE: transform.dfy ===
/** The transformation stage: the value of every target field, the target
    snapshot, and the C to U promotion of a document whose target record is
    known (src/Manager/DocumentManager.php:848-905, 1314-1485). */
module Transform {
  import opened Wrappers
  import opened Strings
  import opened Values
  import opened Statuses
  import opened Rules
  import opened Messages
  import opened Store
  import opened Engine
  import opened Relate
  import opened Classify
  import opened Snapshot

  /** What `getTransformValue()` is asked for: a rule field or a relationship. */
  datatype FieldSpec = Plain(field: RuleField) | Related(rel: Relationship)

  /** The variables a formula sees, or the first field it names that the
      source record lacks. */
  datatype Binding = Bound(vars: Record) | UnknownField(name: string)

  /** The value a formula variable takes from the record (1398): the field
      value, or "" when it is empty-like. */
  function BoundValue(source: Record, name: string): Value {
    if !Empty(Get(source, name)) then Get(source, name) else Str("")
  }

  /** Binds each name but `my_value` in turn; a name the record lacks (even
      as a null) stops the binding. */
  function BindAll(names: seq<string>, source: Record, acc: Record): (r: Binding)
    ensures r.UnknownField? <==> exists j | 0 <= j < |names| :: names[j] != MyValue && names[j] !in source
    ensures r.UnknownField? ==> exists j | 0 <= j < |names| ::
      && names[j] == r.name && r.name != MyValue && r.name !in source
      && forall i | 0 <= i < j :: names[i] == MyValue || names[i] in source
    ensures r.Bound? ==> forall k :: k in r.vars <==> k in acc || (k in names && k != MyValue)
    ensures r.Bound? ==> forall k | k in r.vars ::
      r.vars[k] == if k in names && k != MyValue then BoundValue(source, k) else acc[k]
    decreases |names|
  {
    if |names| == 0 then Bound(acc)
    else
      var n := names[0];
      assert forall k :: k in names <==> k == n || k in names[1..];
      assert forall j | 1 <= j < |names| :: names[j] == names[1..][j - 1];
      if n == MyValue then BindAll(names[1..], source, acc)
      else if n !in source then UnknownField(n)
      else BindAll(names[1..], source, acc[n := BoundValue(source, n)])
  }

  /** The variables of a formula (1391-1411): with several `;`-separated
      source names each must exist in the record; a single name is bound to
      its value, null when missing; `my_value` is a constant and binds
      nothing. */
  function FormulaBindings(source: Record, name: string): (r: Binding)
    ensures |Split(name, ';')| == 1 ==> r.Bound?
    ensures |Split(name, ';')| == 1 && name != MyValue ==> r == Bound(map[name := Get(source, name)])
  {
    var parts := Split(name, ';');
    if |parts| > 1 then BindAll(parts, source, map[])
    else if name == MyValue then Bound(map[])
    else Bound(map[name := Get(source, name)])
  }

  /** A caught transformation failure (1476-1484): a note, the document
      marked in error, and the sticky transformation error flag set. */
  function TransformFail(w: World, n: Note): (r: World)
    ensures Trail(r) == Trail(w) + [n] && r.db == w.db
    ensures r.e == w.e.(message := w.e.message + [n], typeError := Failure, transformError := true)
  {
    World(w.e.(message := w.e.message + [n], typeError := Failure, transformError := true), w.db)
  }

  /** The value of a field sent as it is (1462-1475): the record's value when
      set, the record id for `Myddleware_element_id`, null otherwise. */
  function PlainValue(source: Record, name: string): (r: Value)
    ensures IsSet(source, name) ==> r == source[name]
    ensures !IsSet(source, name) && !(name == ElementId && IsSet(source, "id")) ==> r == Null
  {
    if IsSet(source, name) then source[name]
    else if name == ElementId && IsSet(source, "id") then source["id"]
    else Null
  }

  /** The formula evaluator's answer for a formula over bound variables. */
  function Evaluate(env: Env, formula: string, vars: Record): Option<Value> {
    env.eval(formula, vars)
  }

  /** The result of a formula: the evaluator's answer over the variables
      bound from the record, null when a field is missing or there is none. */
  function FormulaResult(env: Env, source: Record, f: RuleField): Value {
    match FormulaBindings(source, f.sourceFieldName)
    case UnknownField(_) => Null
    case Bound(vars) => Evaluate(env, f.formula, vars).GetOr(Null)
  }

  /** The value a target field receives, independently of how failures are
      reported: the formula result, the related record id (null for a blank
      source value, a parent relationship or no related record), or the
      plain value. */
  function TransformedValue(w: World, env: Env, source: Record, spec: FieldSpec): Value {
    match spec
    case Plain(f) =>
      if EmptyText(f.formula) then PlainValue(source, f.sourceFieldName) else FormulaResult(env, source, f)
    case Related(rel) =>
      if EmptyText(rel.fieldId) then PlainValue(source, "")
      else if Blank(Get(source, rel.fieldNameSource)) || rel.parent then Null
      else match GetTargetId(w, env, rel, Get(source, rel.fieldNameSource)).1
        case Some(found) => Str(found.recordId)
        case None => Null
  }

  /** The value depends on the source record, the in-memory index and the
      document table alone: the notes, the severity and the sticky error
      flag play no part, so a failure earlier in a loop leaves the values
      after it as they were. */
  lemma TransformedValueFrame(w: World, w': World, env: Env, source: Record, spec: FieldSpec)
    requires w'.e.ruleDocuments == w.e.ruleDocuments && w'.db.docs == w.db.docs
    ensures TransformedValue(w', env, source, spec) == TransformedValue(w, env, source, spec)
  {
    if spec.Related? {
      GetTargetIdFrame(w, w', env, spec.rel, Get(source, spec.rel.fieldNameSource));
    }
  }

  /** When `getTransformValue()` fails: a formula naming a missing field, or
      whose evaluation fails or yields nothing; or a relationship with a
      usable source value and no parent flag whose related record is not
      found. */
  predicate TransformFails(w: World, env: Env, source: Record, spec: FieldSpec) {
    match spec
    case Plain(f) =>
      && !EmptyText(f.formula)
      && (match FormulaBindings(source, f.sourceFieldName)
          case UnknownField(_) => true
          case Bound(vars) => Evaluate(env, f.formula, vars).None? || Evaluate(env, f.formula, vars) == Some(Null))
    case Related(rel) =>
      && !EmptyText(rel.fieldId)
      && !Blank(Get(source, rel.fieldNameSource))
      && !rel.parent
      && GetTargetId(w, env, rel, Get(source, rel.fieldNameSource)).1.None?
  }

  /** `getTransformValue()`: the formula result, the related record id, or
      the plain value. A failure yields null and sets the sticky error flag;
      otherwise nothing but the value changes. */
  function GetTransformValue(w: World, env: Env, source: Record, spec: FieldSpec): (r: (World, Value))
    ensures r.0.e.transformError == (w.e.transformError || TransformFails(w, env, source, spec))
    ensures TransformFails(w, env, source, spec) ==> r.1 == Null && r.0.e.typeError == Failure
    ensures !TransformFails(w, env, source, spec) ==> r.0 == w
    ensures spec.Related? && !EmptyText(spec.rel.fieldId) && (Blank(Get(source, spec.rel.fieldNameSource)) || spec.rel.parent) ==>
      r == (w, Null)
    ensures spec.Related? && !TransformFails(w, env, source, spec) && !EmptyText(spec.rel.fieldId)
            && !Blank(Get(source, spec.rel.fieldNameSource)) && !spec.rel.parent
      ==> r.1.Str? && !EmptyText(r.1.s)
    ensures spec.Plain? && EmptyText(spec.field.formula) && IsSet(source, spec.field.sourceFieldName) ==>
      r == (w, source[spec.field.sourceFieldName])
    ensures spec.Plain? && EmptyText(spec.field.formula) ==> r == (w, PlainValue(source, spec.field.sourceFieldName))
    ensures r.1 == TransformedValue(w, env, source, spec)
    // A formula that does not fail yields the evaluator's result over the
    // variables bound from the record.
    ensures spec.Plain? && !EmptyText(spec.field.formula) && !TransformFails(w, env, source, spec) ==>
      && FormulaBindings(source, spec.field.sourceFieldName).Bound?
      && Evaluate(env, spec.field.formula, FormulaBindings(source, spec.field.sourceFieldName).vars) == Some(r.1)
    // A relationship that does not fail yields the related record id.
    ensures spec.Related? && !TransformFails(w, env, source, spec) && !EmptyText(spec.rel.fieldId)
            && !Blank(Get(source, spec.rel.fieldNameSource)) && !spec.rel.parent
      ==> && GetTargetId(w, env, spec.rel, Get(source, spec.rel.fieldNameSource)).1.Some?
          && r.1 == Str(GetTargetId(w, env, spec.rel, Get(source, spec.rel.fieldNameSource)).1.value.recordId)
    ensures Trail(w) <= Trail(r.0) && r.0.db == w.db
    ensures r.0.e == w.e.(message := r.0.e.message, typeError := r.0.e.typeError, transformError := r.0.e.transformError)
  {
    match spec
    case Plain(f) =>
      if EmptyText(f.formula) then (w, PlainValue(source, f.sourceFieldName))
      else FormulaValue(w, env, source, f)
    case Related(rel) =>
      // A relationship row names no plain source field, so without a
      // related rule it is looked up under the empty name.
      if EmptyText(rel.fieldId) then (w, PlainValue(source, ""))
      else RelatedValue(w, env, source, rel)
  }

  /** The formula branch (1387-1438): the formula evaluated over the bound
      variables; a missing field, a failed evaluation or no result fails. */
  function FormulaValue(w: World, env: Env, source: Record, f: RuleField): (r: (World, Value))
    requires !EmptyText(f.formula)
    ensures TransformFails(w, env, source, Plain(f)) ==>
      && r.1 == Null && r.0.e.typeError == Failure
      && r.0.e.transformError && Trail(w) <= Trail(r.0) && r.0.db == w.db
      && r.0.e == w.e.(message := r.0.e.message, typeError := Failure, transformError := true)
    ensures !TransformFails(w, env, source, Plain(f)) ==> r.0 == w && r.1 != Null
    ensures !TransformFails(w, env, source, Plain(f)) ==>
      && FormulaBindings(source, f.sourceFieldName).Bound?
      && Evaluate(env, f.formula, FormulaBindings(source, f.sourceFieldName).vars) == Some(r.1)
  {
    match FormulaBindings(source, f.sourceFieldName)
    case UnknownField(n) => (TransformFail(w, UnknownFormulaField(n)), Null)
    case Bound(vars) =>
      match Evaluate(env, f.formula, vars)
      case Some(v) => if v == Null then (TransformFail(w, InvalidFormula(f.formula)), Null) else (w, v)
      case None => (TransformFail(w, InvalidFormula(f.formula)), Null)
  }

  /** The relationship branch (1442-1460): a blank source value or a parent
      relationship gives null; otherwise the related record id, and its
      absence fails. */
  function RelatedValue(w: World, env: Env, source: Record, rel: Relationship): (r: (World, Value))
    requires !EmptyText(rel.fieldId)
    ensures TransformFails(w, env, source, Related(rel)) ==>
      && r.1 == Null && r.0.e.typeError == Failure
      && r.0.e.transformError && Trail(w) <= Trail(r.0) && r.0.db == w.db
      && r.0.e == w.e.(message := r.0.e.message, typeError := Failure, transformError := true)
    ensures !TransformFails(w, env, source, Related(rel)) ==> r.0 == w
    ensures Blank(Get(source, rel.fieldNameSource)) || rel.parent ==> r == (w, Null)
    ensures !TransformFails(w, env, source, Related(rel)) && !Blank(Get(source, rel.fieldNameSource)) && !rel.parent ==>
      && r.1.Str? && !EmptyText(r.1.s)
      && GetTargetId(w, env, rel, Get(source, rel.fieldNameSource)).1.Some?
      && r.1 == Str(GetTargetId(w, env, rel, Get(source, rel.fieldNameSource)).1.value.recordId)
  {
    var v := Get(source, rel.fieldNameSource);
    if Blank(v) || rel.parent then (w, Null)
    else
      var (w1, res) := GetTargetId(w, env, rel, v);
      match res
      case Some(found) => (w, Str(found.recordId))
      case None =>
        TransformFailAfter(w, w1, RelatedTargetIdMissing(v, rel.fieldId));
        (TransformFail(w1, RelatedTargetIdMissing(v, rel.fieldId)), Null)
  }

  /** Failing after a step that only added notes or an error severity. */
  lemma TransformFailAfter(w: World, w1: World, n: Note)
    requires w1.e == w.e.(message := w1.e.message, typeError := w1.e.typeError)
    requires w1.db == w.db && Trail(w) <= Trail(w1)
    ensures var r := TransformFail(w1, n);
      && Trail(w) <= Trail(r) && r.db == w.db
      && r.e == w.e.(message := r.e.message, typeError := Failure, transformError := true)
  {
  }

  /** A formula over several fields fails exactly when one of them, other
      than `my_value`, is missing from the record. */
  lemma FormulaUnknownField(w: World, env: Env, source: Record, f: RuleField)
    requires !EmptyText(f.formula) && |Split(f.sourceFieldName, ';')| > 1
    requires exists j | 0 <= j < |Split(f.sourceFieldName, ';')| ::
      Split(f.sourceFieldName, ';')[j] != MyValue && Split(f.sourceFieldName, ';')[j] !in source
    ensures TransformFails(w, env, source, Plain(f))
    ensures GetTransformValue(w, env, source, Plain(f)).1 == Null
  {
  }

  /** The rule-field loop of `updateTargetTable()` (1318-1326): stops with
      an error at the first field whose transformation left the error flag
      set. An empty field list skips the loop, whatever the flag holds. */
  function TransformFields(w: World, env: Env, fields: seq<RuleField>, acc: Record): (r: (World, Option<Record>))
    ensures r.1.None? ==> r.0.e.typeError == Failure && r.0.e.transformError
    ensures r.1.Some? ==> r.0 == w
    ensures r.1.Some? && |fields| > 0 ==> !w.e.transformError
    ensures r.1.Some? ==> forall i | 0 <= i < |fields| :: fields[i].targetFieldName in r.1.value
    ensures r.1.Some? ==> forall k | k in acc :: k in r.1.value
    // On success every rule field is assigned its value, in order.
    ensures r.1.Some? ==> r.1.value == Assign(FieldPairs(w, env, fields), acc)
    ensures |fields| == 0 ==> r == (w, Some(acc))
    ensures w.e.transformError && |fields| > 0 ==> r.1.None?
    ensures Trail(w) <= Trail(r.0) && r.0.db == w.db
    ensures r.0.e == w.e.(message := r.0.e.message, typeError := r.0.e.typeError, transformError := r.0.e.transformError)
    decreases |fields|
  {
    if |fields| == 0 then (w, Some(acc))
    else
      var f := fields[0];
      var (w1, v) := FieldValue(w, env, Plain(f));
      if w1.e.transformError then (Fail(w1, TransformFailed(f.targetFieldName)), None)
      else
        var r := TransformFields(w1, env, fields[1..], acc[f.targetFieldName := v]);
        assert forall i | 1 <= i < |fields| :: fields[i] == fields[1..][i - 1];
        assert FieldPairs(w, env, fields)[1..] == FieldPairs(w, env, fields[1..]);
        r
  }

  /** The value of a field over the document's own source data, with only
      what the loops of `updateTargetTable()` need to know of it: a failure
      sets the sticky error flag, and nothing else but the message and the
      severity changes. */
  function FieldValue(w: World, env: Env, spec: FieldSpec): (r: (World, Value))
    ensures w.e.transformError ==> r.0.e.transformError
    ensures !r.0.e.transformError ==> r.0 == w
    ensures Trail(w) <= Trail(r.0) && r.0.db == w.db
    ensures r.0.e == w.e.(message := r.0.e.message, typeError := r.0.e.typeError, transformError := r.0.e.transformError)
    ensures r.1 == TransformedValue(w, env, w.e.sourceData, spec)
  {
    GetTransformValue(w, env, w.e.sourceData, spec)
  }

  /** A relationship without value (1333-1335): a note and a warning. */
  function Warn(w: World, n: Note): (r: World)
    ensures Trail(r) == Trail(w) + [n] && r.db == w.db
    ensures r.e == w.e.(message := w.e.message + [n], typeError := Warning)
  {
    World(w.e.(message := w.e.message + [n], typeError := Warning), w.db)
  }

  /** One relationship of the loop of `updateTargetTable()` (1330-1340): its
      value is stored under its target field name, and a failure is noted as
      a warning. The source tests the `errorMissing` flag of a variable that
      is never set there, so a failed relationship is never an error. */
  function RelationshipValue(w: World, env: Env, rel: Relationship, acc: Record): (r: (World, Record))
    ensures r.1 == acc[rel.fieldNameTarget := TransformedValue(w, env, w.e.sourceData, Related(rel))]
    ensures r.0.e.transformError && !w.e.transformError ==> r.0.e.typeError == Warning
    ensures r.0.e.transformError ==> r.0.e.typeError == Warning || r.0.e.typeError == w.e.typeError
    ensures w.e.transformError ==> r.0.e.transformError && r.0.e.typeError == Warning
    ensures !r.0.e.transformError ==> r.0 == w
    ensures Trail(w) <= Trail(r.0) && r.0.db == w.db
    ensures r.0.e == w.e.(message := r.0.e.message, typeError := r.0.e.typeError, transformError := r.0.e.transformError)
  {
    var (w1, v) := FieldValue(w, env, Related(rel));
    var w2 := if w1.e.transformError then Warn(w1, RelationshipValueMissing(rel.fieldNameTarget)) else w1;
    (w2, acc[rel.fieldNameTarget := v])
  }

  /** The relationship loop of `updateTargetTable()` (1328-1342). Since the
      error flag stays set, once a relationship fails every relationship
      after it is also noted as a warning. */
  function TransformRelationships(w: World, env: Env, rels: seq<Relationship>, acc: Record): (r: (World, Record))
    ensures forall i | 0 <= i < |rels| :: rels[i].fieldNameTarget in r.1
    ensures forall k | k in acc :: k in r.1
    // Every relationship is assigned its value, in order, as if no
    // relationship had failed before it.
    ensures r.1 == Assign(RelationshipPairs(w, env, rels), acc)
    ensures |rels| == 0 ==> r == (w, acc)
    ensures r.0.e.transformError && |rels| > 0 ==> r.0.e.typeError == Warning
    ensures !r.0.e.transformError ==> r.0.e.typeError == w.e.typeError
    ensures w.e.transformError ==> r.0.e.transformError
    ensures Trail(w) <= Trail(r.0) && r.0.db == w.db
    ensures r.0.e == w.e.(message := r.0.e.message, typeError := r.0.e.typeError, transformError := r.0.e.transformError)
    decreases |rels|
  {
    if |rels| == 0 then (w, acc)
    else
      var (w1, acc1) := RelationshipValue(w, env, rels[0], acc);
      assert forall i | 1 <= i < |rels| :: rels[i] == rels[1..][i - 1];
      RelationshipPairsTail(w, w1, env, rels);
      TransformRelationships(w1, env, rels[1..], acc1)
  }

  /** Assigns each key its value in turn, as `$targetField[$name] = $value`
      does in a loop. */
  function Assign(pairs: seq<(string, Value)>, acc: Record): Record
    decreases |pairs|
  {
    if |pairs| == 0 then acc else Assign(pairs[1..], acc[pairs[0].0 := pairs[0].1])
  }

  /** No pair after the i-th assigns the same key. */
  predicate LastPair(pairs: seq<(string, Value)>, i: int) {
    && 0 <= i < |pairs|
    && forall j | i < j < |pairs| :: pairs[j].0 != pairs[i].0
  }

  /** The keys some pair assigns. */
  predicate Assigned(pairs: seq<(string, Value)>, k: string) {
    exists i | 0 <= i < |pairs| :: pairs[i].0 == k
  }

  /** In-order assignment: the keys assigned are added, each holds the value
      of the last pair assigning it, and every other key keeps its value. */
  lemma {:induction false} AssignContents(pairs: seq<(string, Value)>, acc: Record)
    ensures forall k :: k in Assign(pairs, acc) <==> k in acc || Assigned(pairs, k)
    ensures forall i | LastPair(pairs, i) :: pairs[i].0 in Assign(pairs, acc) && Assign(pairs, acc)[pairs[i].0] == pairs[i].1
    ensures forall k | k in acc && !Assigned(pairs, k) :: Assign(pairs, acc)[k] == acc[k]
    decreases |pairs|
  {
    if |pairs| > 0 {
      var rest := pairs[1..];
      AssignContents(rest, acc[pairs[0].0 := pairs[0].1]);
      assert forall i | 1 <= i < |pairs| :: pairs[i] == rest[i - 1];
      assert forall k :: Assigned(pairs, k) <==> k == pairs[0].0 || Assigned(rest, k) by {
        forall k | Assigned(pairs, k) && k != pairs[0].0 ensures Assigned(rest, k) {
          var i :| 0 <= i < |pairs| && pairs[i].0 == k;
          assert rest[i - 1].0 == k;
        }
      }
      assert forall i | 1 <= i < |pairs| :: LastPair(pairs, i) == LastPair(rest, i - 1);
      assert LastPair(pairs, 0) ==> !Assigned(rest, pairs[0].0);
    }
  }

  /** Pairs whose keys are the given names, in order, assign exactly those
      names. */
  lemma AssignedNames(pairs: seq<(string, Value)>, names: seq<string>)
    requires |pairs| == |names| && forall i | 0 <= i < |pairs| :: pairs[i].0 == names[i]
    ensures forall k :: k in names <==> Assigned(pairs, k)
  {
    forall k | Assigned(pairs, k) ensures k in names {
      var i :| 0 <= i < |pairs| && pairs[i].0 == k;
      assert names[i] == k;
    }
  }

  /** The pairs the rule-field loop assigns: each rule field's target name
      with its value. */
  function FieldPairs(w: World, env: Env, fields: seq<RuleField>): (r: seq<(string, Value)>)
    ensures |r| == |fields|
    ensures forall i | 0 <= i < |fields| :: r[i] == (fields[i].targetFieldName, TransformedValue(w, env, w.e.sourceData, Plain(fields[i])))
  {
    seq(|fields|, i requires 0 <= i < |fields| => (fields[i].targetFieldName, TransformedValue(w, env, w.e.sourceData, Plain(fields[i]))))
  }

  /** The pairs the relationship loop assigns: each relationship's target
      name with its value. */
  function RelationshipPairs(w: World, env: Env, rels: seq<Relationship>): (r: seq<(string, Value)>)
    ensures |r| == |rels|
    ensures forall i | 0 <= i < |rels| :: r[i] == (rels[i].fieldNameTarget, TransformedValue(w, env, w.e.sourceData, Related(rels[i])))
  {
    seq(|rels|, i requires 0 <= i < |rels| => (rels[i].fieldNameTarget, TransformedValue(w, env, w.e.sourceData, Related(rels[i]))))
  }

  /** The relationship pairs depend on the index and the document table
      alone, not on the notes, the severity or the sticky error flag. */
  lemma RelationshipPairsTail(w: World, w': World, env: Env, rels: seq<Relationship>)
    requires |rels| > 0
    requires w'.e.sourceData == w.e.sourceData && w'.e.ruleDocuments == w.e.ruleDocuments
    requires w'.db.docs == w.db.docs
    ensures RelationshipPairs(w, env, rels) == [RelationshipPairs(w, env, rels)[0]] + RelationshipPairs(w', env, rels[1..])
  {
    forall i | 1 <= i < |rels|
      ensures RelationshipPairs(w', env, rels[1..])[i - 1] == RelationshipPairs(w, env, rels)[i]
    {
      assert rels[1..][i - 1] == rels[i];
      TransformedValueFrame(w, w', env, w.e.sourceData, Related(rels[i]));
    }
  }

  /** The end of `updateTargetTable()` (1343-1358): an empty target is an
      error, otherwise it is stored as the target snapshot. */
  function StoreTarget(w: World, env: Env, target: Record): (r: (World, bool))
    ensures r.1 ==>
      && |r.0.db.data| == |w.db.data| + 1
      && r.0.db.data[|w.db.data|] == DataRow(w.e.id, TargetData, TakeSnapshot(w.e, env, target, TargetData))
    ensures r.1 ==> forall i | 0 <= i < |w.e.ruleFields| :: w.e.ruleFields[i].targetFieldName in r.0.db.data[|w.db.data|].record
    ensures r.1 <==> |target| > 0 && env.persistOk
    ensures !r.1 ==> r.0.e.typeError == Failure
    ensures Step(w, r.0)
    ensures r.1 ==> r.0.e == w.e
    ensures r.0.e == w.e.(message := r.0.e.message, typeError := r.0.e.typeError)
  {
    if |target| == 0 then (Fail(w, NoTargetData), false)
    else
      var (w1, ok) := InsertDataTable(w, env, target, TargetData);
      TargetSnapshotKeys(w.e, env, target);
      if ok then (w1, true) else (Fail(w1, DataNotSaved), false)
  }

  /** `updateTargetTable()`: the target values of the rule fields, then of
      the relationships, stored as the target snapshot. A field failure, an
      empty result or a failed write is an error. */
  function UpdateTargetTable(w: World, env: Env): (r: (World, bool))
    ensures r.1 ==>
      && |r.0.db.data| == |w.db.data| + 1 && r.0.db.data[|w.db.data|].kind == TargetData
      && r.0.db.data[|w.db.data|].docId == w.e.id
    ensures r.1 ==> forall i | 0 <= i < |w.e.ruleFields| :: w.e.ruleFields[i].targetFieldName in r.0.db.data[|w.db.data|].record
    ensures !r.1 ==> r.0.e.typeError == Failure
    // With the error flag already set, a rule field fails the stage; with
    // no rule fields the relationships are kept, each noted as a warning.
    ensures w.e.transformError && |w.e.ruleFields| > 0 ==> !r.1
    ensures w.e.transformError && r.1 ==> r.0.e.typeError == Warning
    // A relationship without value is never what fails the stage: success
    // depends on the rule fields, a non-empty target and the write alone.
    ensures r.1 <==>
      && TransformFields(w, env, w.e.ruleFields, map[]).1.Some?
      && (|w.e.ruleFields| > 0 || |w.e.ruleRelationships| > 0)
      && env.persistOk
    ensures r.1 && r.0.e.transformError ==> r.0.e.typeError == Warning
    ensures Step(w, r.0)
    ensures r.0.e == w.e.(message := r.0.e.message, typeError := r.0.e.typeError, transformError := r.0.e.transformError)
  {
    var (w1, fields) := TransformFields(w, env, w.e.ruleFields, map[]);
    match fields
    case None => StepKeepsTables(w, w1); (w1, false)
    case Some(values) =>
      var (w2, target) := TransformRelationships(w1, env, w.e.ruleRelationships, values);
      StepKeepsTables(w, w2);
      assert |w.e.ruleFields| > 0 ==> w.e.ruleFields[0].targetFieldName in target;
      assert |w.e.ruleRelationships| > 0 ==> w.e.ruleRelationships[0].fieldNameTarget in target;
      NotesOnlyTrans(w.e, w1.e, w2.e);
      var (w3, ok) := StoreTarget(w2, env, target);
      StepTrans(w, w2, w3);
      NotesOnlyTrans(w.e, w2.e, w3.e);
      (w3, ok)
  }

  /** The target record a successful `updateTargetTable()` builds: the rule
      fields' values assigned in order, then the relationships'. */
  function TargetRecord(w: World, env: Env): Record {
    Assign(RelationshipPairs(w, env, w.e.ruleRelationships), Assign(FieldPairs(w, env, w.e.ruleFields), map[]))
  }

  /** A successful `updateTargetTable()` stores the snapshot of that record. */
  lemma StoredTargetRecord(w: World, env: Env)
    requires UpdateTargetTable(w, env).1
    ensures var r := UpdateTargetTable(w, env).0;
      r.db.data[|w.db.data|].record == TakeSnapshot(r.e, env, TargetRecord(w, env), TargetData)
  {
    var (w1, values) := TransformFields(w, env, w.e.ruleFields, map[]);
    var (w2, target) := TransformRelationships(w, env, w.e.ruleRelationships, values.value);
    assert target == TargetRecord(w, env);
  }

  /** A target row built from the rule fields' pairs `fp` and the
      relationships' pairs `rp`: it holds exactly their names; a
      relationship field holds its value, or "" when that is empty-like; any
      other field holds the value of the last rule field naming it. */
  ghost predicate TargetRowOf(row: Record, fp: seq<(string, Value)>, rp: seq<(string, Value)>) {
    && (forall k :: k in row <==> Assigned(fp, k) || Assigned(rp, k))
    && (forall i | LastPair(rp, i) :: rp[i].0 in row && row[rp[i].0] == OrEmpty(rp[i].1))
    && (forall i | LastPair(fp, i) && !Assigned(rp, fp[i].0) :: fp[i].0 in row && row[fp[i].0] == fp[i].1)
  }

  /** The target snapshot of assigned pairs, one per rule field and one per
      relationship with their target names: exactly those names are kept, a
      relationship field holds its value or "" when that is empty-like, and
      any other field holds the value of the last rule field naming it. */
  lemma TargetSnapshotOfPairs(e: Engine, env: Env, fp: seq<(string, Value)>, rp: seq<(string, Value)>)
    requires |fp| == |e.ruleFields| && forall i | 0 <= i < |fp| :: fp[i].0 == e.ruleFields[i].targetFieldName
    requires |rp| == |e.ruleRelationships| && forall i | 0 <= i < |rp| :: rp[i].0 == e.ruleRelationships[i].fieldNameTarget
    ensures TargetRowOf(TakeSnapshot(e, env, Assign(rp, Assign(fp, map[])), TargetData), fp, rp)
  {
    var v := Assign(fp, map[]);
    var t := Assign(rp, v);
    var row := TakeSnapshot(e, env, t, TargetData);
    AssignContents(fp, map[]);
    AssignContents(rp, v);
    TargetSnapshotKeys(e, env, t);
    AssignedNames(fp, FieldTargets(e.ruleFields));
    assert forall k :: k in RelatedTargets(e.ruleRelationships) <==> Assigned(rp, k);
  }

  /** The target snapshot a successful `updateTargetTable()` stores holds
      exactly the target fields of the rule fields and relationships. A
      relationship field holds its value, or "" when that is empty-like; any
      other field holds the value of the last rule field naming it. */
  lemma TargetRowValues(w: World, env: Env)
    requires UpdateTargetTable(w, env).1
    ensures TargetRowOf(UpdateTargetTable(w, env).0.db.data[|w.db.data|].record,
                        FieldPairs(w, env, w.e.ruleFields), RelationshipPairs(w, env, w.e.ruleRelationships))
  {
    var e := UpdateTargetTable(w, env).0.e;
    StoredTargetRecord(w, env);
    TargetSnapshotOfPairs(e, env, FieldPairs(w, env, w.e.ruleFields), RelationshipPairs(w, env, w.e.ruleRelationships));
  }

  /** A rule without fields, entered with the error flag already set: the
      field loop is skipped, every relationship is noted as a warning, and the
      target snapshot is stored when there is a relationship to store. */
  lemma StickyErrorWithoutFields(w: World, env: Env)
    requires w.e.transformError && |w.e.ruleFields| == 0
    ensures var r := UpdateTargetTable(w, env);
      && (r.1 <==> |w.e.ruleRelationships| > 0 && env.persistOk)
      && (r.1 ==> r.0.e.typeError == Warning)
  {
  }

  /** Ends the stage in error (897-904): a note, `typeError = 'E'`, and the
      status Error_transformed. */
  function Abort(w: World, env: Env, n: Note): (r: (World, bool))
    ensures !r.1
    ensures Trail(r.0) == Trail(w) + [n, if WriteOk(env, StatusUpdate(ErrorTransformed)) then StatusSet(ErrorTransformed) else StatusWriteFailed]
    ensures WriteOk(env, StatusUpdate(ErrorTransformed)) ==> r.0.e.status == Some(ErrorTransformed)
    ensures r.0.e.typeError == Failure
    ensures Step(w, r.0)
  {
    StepKeepsTables(w, Fail(w, n));
    (UpdateStatus(Fail(w, n), env, ErrorTransformed), false)
  }

  /** The C to U promotion (864-874): when the target snapshot carries a
      `Myddleware_element_id`, it becomes the target id, persisted, and the
      stored type becomes U; the in-memory type stays C. */
  function Promote(w: World, env: Env): (r: (World, Option<Note>))
    ensures |r.0.db.docs| == |w.db.docs|
    ensures var mei := Get(GetDocumentData(w, TargetData).GetOr(map[]), ElementId);
      && (Empty(mei) ==> r == (w, None))
      && (!Empty(mei) ==> r.0.e.targetId == Text(mei) && (r.1.None? <==> WriteOk(env, TargetIdUpdate(Text(mei)))))
      && (!Empty(mei) && WriteOk(env, TargetIdUpdate(Text(mei))) ==>
            forall i | 0 <= i < |w.db.docs| && w.db.docs[i].id == w.e.id ::
              r.0.db.docs[i] == w.db.docs[i].(targetId := Text(mei), dateModified := env.now,
                docType := if WriteOk(env, TypeUpdate(Update)) then Some(Update) else w.db.docs[i].docType))
      && (!Empty(mei) && WriteOk(env, TargetIdUpdate(Text(mei))) && !WriteOk(env, TypeUpdate(Update)) ==>
            r.0.e.typeError == Failure)
      && (!Empty(mei) && !WriteOk(env, TargetIdUpdate(Text(mei))) ==> r.1 == Some(UpdateTargetIdNotSaved(Text(mei))))
    ensures Step(w, r.0)
    ensures r.0.e.docType == w.e.docType && r.0.e.status == w.e.status
  {
    var target := GetDocumentData(w, TargetData).GetOr(map[]);
    var mei := Get(target, ElementId);
    if Empty(mei) then (w, None)
    else
      var w1 := World(w.e.(targetId := Text(mei)), w.db);
      StepKeepsTables(w, w1);
      var (w2, ok) := UpdateTargetId(w1, env, Text(mei));
      UpdateTargetIdStep(w1, env, Text(mei));
      if ok then
        var w3 := UpdateType(w2, env, Update);
        StepTrans(w1, w2, w3);
        StepTrans(w, w1, w3);
        (w3, None)
      else
        StepTrans(w, w1, w2);
        (w2, Some(UpdateTargetIdNotSaved(Text(mei))))
  }

  /** The target id recovery of an update (877-890): a child rule needs no
      target id; otherwise the classification is run again for the source
      record and the target id it finds is persisted. */
  function Recover(w: World, env: Env): (r: (World, Option<Note>))
    ensures !(w.e.docType == Some(Update) && EmptyText(w.e.targetId) && !IsChild(env.cfg, w.e.ruleId)) ==> r == (w, None)
    ensures w.e.docType == Some(Update) && EmptyText(w.e.targetId) && !IsChild(env.cfg, w.e.ruleId) && r.1.None? ==>
      !EmptyText(r.0.e.targetId) && WriteOk(env, TargetIdUpdate(r.0.e.targetId))
    ensures Step(w, r.0)
    ensures r.1.None? ==> r.0.e.docType == w.e.docType && r.0.e.status == w.e.status
  {
    if !(w.e.docType == Some(Update) && EmptyText(w.e.targetId) && !IsChild(env.cfg, w.e.ruleId)) then (w, None)
    else
      var id := if w.e.loaded.Some? then Str(w.e.loaded.value.sourceId) else Null;
      var (w1, _) := CheckRecordExist(w, env, id);
      if EmptyText(w1.e.targetId) then (w1, Some(UpdateTargetIdMissing))
      else
        var (w2, ok) := UpdateTargetId(w1, env, w1.e.targetId);
        UpdateTargetIdStep(w1, env, w1.e.targetId);
        StepTrans(w, w1, w2);
        (w2, if ok then None else Some(UpdateTargetIdNotSaved(w1.e.targetId)))
  }

  /** `transformDocument()`: Transformed after a stored target snapshot and,
      for a C document, the promotion, and for a U document without target
      id, its recovery; Error_transformed when any of them fails. */
  function TransformDocument(w: World, env: Env): (r: (World, bool))
    ensures !w.e.jobActive ==> !r.1 && r.0 == Say(w, JobNotActive)
    ensures r.1 && WriteOk(env, StatusUpdate(Transformed)) ==> r.0.e.status == Some(Transformed)
    ensures w.e.jobActive && !r.1 ==>
      && r.0.e.typeError == Failure
      && (WriteOk(env, StatusUpdate(ErrorTransformed)) ==> r.0.e.status == Some(ErrorTransformed))
    ensures w.e.jobActive && w.e.transformError && |w.e.ruleFields| > 0 ==> !r.1
    ensures Step(w, r.0)
  {
    if !w.e.jobActive then
      StepKeepsTables(w, Say(w, JobNotActive));
      (Say(w, JobNotActive), false)
    else
      var (w1, ok) := UpdateTargetTable(w, env);
      if !ok then
        var r := Abort(w1, env, TransformedDataMissing);
        StepTrans(w, w1, r.0);
        r
      else
        var r := Conclude(w1, env);
        StepTrans(w, w1, r.0);
        r
  }

  /** What follows a stored target snapshot (864-895): the promotion of a C
      document, the recovery of a U document's target id, then Transformed;
      Error_transformed when either fails. */
  function Conclude(w: World, env: Env): (r: (World, bool))
    ensures r.1 && WriteOk(env, StatusUpdate(Transformed)) ==> r.0.e.status == Some(Transformed)
    ensures !r.1 ==>
      && r.0.e.typeError == Failure
      && (WriteOk(env, StatusUpdate(ErrorTransformed)) ==> r.0.e.status == Some(ErrorTransformed))
    ensures r.1 <==> (
      && (w.e.docType != Some(Create) || Promote(w, env).1.None?)
      && Recover(if w.e.docType == Some(Create) then Promote(w, env).0 else w, env).1.None?)
    ensures Step(w, r.0)
  {
    var (w2, err) := if w.e.docType == Some(Create) then Promote(w, env) else (w, None);
    if err.Some? then
      var r := Abort(w2, env, err.value);
      StepTrans(w, w2, r.0);
      r
    else
      var (w3, err2) := Recover(w2, env);
      StepTrans(w, w2, w3);
      if err2.Some? then
        var r := Abort(w3, env, err2.value);
        StepTrans(w, w3, r.0);
        r
      else
        var w4 := UpdateStatus(w3, env, Transformed);
        StepTrans(w, w3, w4);
        (w4, true)
  }

  /** The successful run of `transformDocument()`: the stored target
      snapshot, then the promotion for a C document and the recovery, and
      the status Transformed last. */
  lemma TransformDocumentSucceeds(w: World, env: Env)
    requires w.e.jobActive && UpdateTargetTable(w, env).1
    requires var w1 := UpdateTargetTable(w, env).0;
      w1.e.docType != Some(Create) || Promote(w1, env).1.None?
    requires var w1 := UpdateTargetTable(w, env).0;
      var w2 := if w1.e.docType == Some(Create) then Promote(w1, env).0 else w1;
      Recover(w2, env).1.None?
    ensures var w1 := UpdateTargetTable(w, env).0;
      var w2 := if w1.e.docType == Some(Create) then Promote(w1, env).0 else w1;
      TransformDocument(w, env) == (UpdateStatus(Recover(w2, env).0, env, Transformed), true)
  {
  }

  /** The rows a promotion followed by the status Transformed leaves. */
  lemma PromotedRows(w: World, env: Env)
    requires w.e.docType == Some(Create)
    requires !Empty(Get(GetDocumentData(w, TargetData).GetOr(map[]), ElementId))
    requires WriteOk(env, TargetIdUpdate(Text(Get(GetDocumentData(w, TargetData).GetOr(map[]), ElementId))))
    requires WriteOk(env, TypeUpdate(Update)) && WriteOk(env, StatusUpdate(Transformed))
    ensures var mei := Get(GetDocumentData(w, TargetData).GetOr(map[]), ElementId);
      var w2 := Promote(w, env).0;
      var r := UpdateStatus(w2, env, Transformed);
      && Promote(w, env).1.None? && Recover(w2, env) == (w2, None)
      && r.e.docType == Some(Create) && r.e.targetId == Text(mei)
      && |r.db.docs| == |w.db.docs|
      && forall i | 0 <= i < |w.db.docs| && w.db.docs[i].id == w.e.id ::
           && r.db.docs[i].docType == Some(Update)
           && r.db.docs[i].targetId == Text(mei)
           && r.db.docs[i].status == Transformed
  {
    var w2 := Promote(w, env).0;
    var r := UpdateStatus(w2, env, Transformed);
    forall i | 0 <= i < |w.db.docs| && w.db.docs[i].id == w.e.id
      ensures r.db.docs[i] == WithStatus(w2.db.docs[i], Transformed, r.e.attempt, env.now)
    {
      assert w2.db.docs[i].id == w2.e.id;
    }
  }

  /** A Create document whose target snapshot names its record in
      `Myddleware_element_id` ends the stage Transformed, with that id as
      target id and U as type on its stored rows; the type held in memory
      stays C. */
  lemma TransformDocumentPromotes(w: World, env: Env)
    requires w.e.jobActive && w.e.docType == Some(Create)
    requires UpdateTargetTable(w, env).1
    requires !Empty(Get(GetDocumentData(UpdateTargetTable(w, env).0, TargetData).GetOr(map[]), ElementId))
    requires WriteOk(env, TargetIdUpdate(Text(Get(GetDocumentData(UpdateTargetTable(w, env).0, TargetData).GetOr(map[]), ElementId))))
    requires WriteOk(env, TypeUpdate(Update)) && WriteOk(env, StatusUpdate(Transformed))
    ensures var r := TransformDocument(w, env);
      var mei := Get(GetDocumentData(UpdateTargetTable(w, env).0, TargetData).GetOr(map[]), ElementId);
      && r.1 && r.0.e.docType == Some(Create) && r.0.e.targetId == Text(mei)
      && |r.0.db.docs| == |w.db.docs|
      && forall i | 0 <= i < |w.db.docs| && w.db.docs[i].id == w.e.id ::
           && r.0.db.docs[i].docType == Some(Update)
           && r.0.db.docs[i].targetId == Text(mei)
           && r.0.db.docs[i].status == Transformed
  {
    var w1 := UpdateTargetTable(w, env).0;
    assert w1.e.id == w.e.id && w1.e.docType == w.e.docType;
    assert SameRows(w.db, w1.db);
    PromotedRows(w1, env);
    TransformDocumentSucceeds(w, env);
  }
}

=== FILE: values.dfy ===
/** The values the engine moves between records, with the PHP conversions
    and tests it applies to them: `empty()`, `isset()`, string conversion,
    loose equality `==` and ordering. */
module Values {
  import opened Strings
  import opened Numeric
  import opened Wrappers

  /** A field value as decoded from a document snapshot or read from a connector. */
  datatype Value = Null | Str(s: string) | Num(n: int)

  /** A field map: a decoded document snapshot, a source record or a target record. */
  type Record = map<string, Value>

  /** `$r[$k]`: reading an undefined key yields null (PHP only raises a warning). */
  function Get(r: Record, k: string): (v: Value)
    ensures k !in r ==> v == Null
    ensures k in r ==> v == r[k]
  {
    if k in r then r[k] else Null
  }

  /** `isset($r[$k])`: the key is present and not null. */
  predicate IsSet(r: Record, k: string) {
    k in r && r[k] != Null
  }

  /** `empty()` on a string: both "" and "0" are empty. */
  predicate EmptyText(s: string) {
    s == "" || s == "0"
  }

  /** `empty()` on a value. */
  predicate Empty(v: Value) {
    match v
    case Null => true
    case Str(s) => EmptyText(s)
    case Num(n) => n == 0
  }

  /** `empty(trim($v))`: whether a value is blank after trimming. */
  predicate Blank(v: Value) {
    EmptyText(Trim(Text(v)))
  }

  function DigitChar(d: nat): char
    requires d < 10
  {
    ('0' as int + d) as char
  }

  /** Decimal notation of a natural number. */
  function NatText(n: nat): (r: string)
    ensures |r| >= 1
    ensures forall i | 0 <= i < |r| :: '0' <= r[i] <= '9'
  {
    if n < 10 then [DigitChar(n)] else NatText(n / 10) + [DigitChar(n % 10)]
  }

  /** PHP's string conversion: null is "", integers are written in decimal. */
  function Text(v: Value): string {
    match v
    case Null => ""
    case Str(s) => s
    case Num(n) => if n < 0 then "-" + NatText(-n) else NatText(n)
  }

  /** Only null and the empty-like values convert to an empty-looking text. */
  lemma EmptyTextOfEmpty(v: Value)
    ensures Empty(v) ==> EmptyText(Text(v))
    ensures v.Str? ==> (Empty(v) <==> EmptyText(Text(v)))
  {
    if v.Num? && v.n == 0 {
      assert NatText(0) == "0";
    }
  }

  /** The number an integer stands for. */
  function NumDec(n: int): Dec {
    Dec(n < 0, if n < 0 then -n else n, 0)
  }

  /** The number PHP compares a value as, if any: an integer, or a string
      that is numeric. Null is never compared as a number. */
  function NumericValue(v: Value): (r: Option<Dec>)
    ensures v.Num? ==> r == Some(NumDec(v.n))
    ensures v.Null? ==> r.None?
    ensures v.Str? ==> r == ParseNumeric(v.s)
  {
    match v
    case Null => None
    case Str(s) => ParseNumeric(s)
    case Num(n) => Some(NumDec(n))
  }

  /** Two integers compare as numbers do. */
  lemma NumDecCmp(n: int, m: int)
    ensures DecCmp(NumDec(n), NumDec(m)) == (if n < m then -1 else if n == m then 0 else 1)
  {
    assert Scaled(NumDec(n), 0) == n;
    assert Scaled(NumDec(m), 0) == m;
  }

  /** The decimal digits of a natural number read back as that number. */
  lemma {:induction false} DigitsOfNatText(k: nat)
    ensures DigitsValue(NatText(k)) == k
  {
    if k >= 10 {
      DigitsOfNatText(k / 10);
      var t := NatText(k);
      assert t[..|t| - 1] == NatText(k / 10);
    }
  }

  /** An integer's string form is a numeric string for that integer. */
  lemma TextIsNumeric(n: int)
    ensures ParseNumeric(Text(Num(n))) == Some(NumDec(n))
  {
    var k := if n < 0 then -n else n;
    DigitsOfNatText(k);
    if n < 0 {
      ParseSignedDigits("-", NatText(k));
    } else {
      ParseSignedDigits("", NatText(k));
      assert "" + NatText(k) == Text(Num(n));
    }
  }

  /** Three-way comparison used by the ordering operators (PHP 8): null
      against an integer compares as booleans, false below true; two numeric
      operands, integers or numeric strings, compare as numbers; anything
      else compares the string forms byte by byte. */
  function Cmp(a: Value, b: Value): (r: int)
    ensures -1 <= r <= 1
    ensures a.Num? && b.Num? ==> r == (if a.n < b.n then -1 else if a.n == b.n then 0 else 1)
    ensures NumericValue(a).None? && NumericValue(b).None? ==> r == LexCmp(Text(a), Text(b))
  {
    if a.Null? && b.Num? then (if b.n == 0 then 0 else -1)
    else if a.Num? && b.Null? then (if a.n == 0 then 0 else 1)
    else if NumericValue(a).Some? && NumericValue(b).Some? then
      var r := DecCmp(NumericValue(a).value, NumericValue(b).value);
      if a.Num? && b.Num? then NumDecCmp(a.n, b.n); r else r
    else LexCmp(Text(a), Text(b))
  }

  /** Swapping the operands of `Cmp` flips its sign. */
  lemma CmpAntisymmetric(a: Value, b: Value)
    ensures Cmp(a, b) == -Cmp(b, a)
  {
    if NumericValue(a).Some? && NumericValue(b).Some? {
      DecCmpAntisymmetric(NumericValue(a).value, NumericValue(b).value);
    } else {
      LexCmpAntisymmetric(Text(a), Text(b));
    }
  }

  /** PHP 8 loose equality `==` between two values. Null equals an integer
      when that is 0 (both are false) and a string when that is "". Two
      numeric operands, integers or numeric strings, are equal when their
      numbers are; anything else compares the string forms byte by byte. */
  predicate LooseEq(a: Value, b: Value) {
    if a.Null? then (if b.Num? then b.n == 0 else Text(b) == "")
    else if b.Null? then (if a.Num? then a.n == 0 else Text(a) == "")
    else if NumericValue(a).Some? && NumericValue(b).Some? then DecCmp(NumericValue(a).value, NumericValue(b).value) == 0
    else Text(a) == Text(b)
  }

  /** Loose equality between two strings: `==` on two texts. */
  predicate StrLooseEq(s: string, t: string) {
    LooseEq(Str(s), Str(t))
  }

  /** `in_array($x, $items)` without the strict flag: some item is
      loosely equal to `x`. */
  predicate LooselyIn(x: string, items: seq<string>) {
    exists i | 0 <= i < |items| :: StrLooseEq(x, items[i])
  }

  /** Loose membership includes byte-wise membership, and is the same when
      `x` is not numeric. */
  lemma LooselyInBytes(x: string, items: seq<string>)
    ensures x in items ==> LooselyIn(x, items)
    ensures ParseNumeric(x).None? ==> (LooselyIn(x, items) <==> x in items)
  {
    if x in items {
      var i :| 0 <= i < |items| && items[i] == x;
      StrLooseEqBytes(x, items[i]);
    }
    if ParseNumeric(x).None? && LooselyIn(x, items) {
      var i :| 0 <= i < |items| && StrLooseEq(x, items[i]);
      StrLooseEqBytes(x, items[i]);
    }
  }

  /** Loose equality is reflexive and symmetric. */
  lemma LooseEqSymmetric(a: Value, b: Value)
    ensures LooseEq(a, b) <==> LooseEq(b, a)
    ensures LooseEq(a, a)
  {
    if NumericValue(a).Some? && NumericValue(b).Some? {
      DecCmpAntisymmetric(NumericValue(a).value, NumericValue(b).value);
    }
    if NumericValue(a).Some? {
      DecCmpAntisymmetric(NumericValue(a).value, NumericValue(a).value);
    }
  }

  /** Two integers are loosely equal exactly when they are equal, and an
      integer equals its own string form. */
  lemma LooseEqIntegers(n: int, m: int)
    ensures LooseEq(Num(n), Num(m)) <==> n == m
    ensures LooseEq(Num(n), Str(Text(Num(n))))
  {
    NumDecCmp(n, m);
    TextIsNumeric(n);
    NumDecCmp(n, n);
  }

  /** Numeric strings compare by value: digits followed by a point and
      zeros ("10.00") equal the digits alone ("10"). */
  lemma ZeroFractionEqual(a: string, z: string)
    requires |a| >= 1 && AllDigits(a) && |z| >= 1 && AllZeros(z)
    ensures StrLooseEq(a + "." + z, a)
  {
    assert AllDigits(z);
    ParseFraction(a, z);
    ParseSignedDigits("", a);
    assert "" + a == a;
    DigitsValueZeros(a, z);
    var x := ParseNumeric(a + "." + z).value;
    var y := ParseNumeric(a).value;
    assert x == Dec(false, DigitsValue(a + z), -|z|);
    assert y == Dec(false, DigitsValue(a), 0);
    SameNumber(DigitsValue(a + z), DigitsValue(a), |z|);
  }

  /** A numeric string equals the integer it stands for: the decimal form
      of a natural number followed by a point and zeros ("1.0") equals that
      number (1). */
  lemma ZeroFractionEqualsInteger(n: nat, z: string)
    requires |z| >= 1 && AllZeros(z)
    ensures LooseEq(Str(NatText(n) + "." + z), Num(n))
  {
    ZeroFractionEqual(NatText(n), z);
    TextIsNumeric(n);
  }

  /** Texts that are not numeric compare byte by byte: "abc" differs from
      "ABC" and from the integer 0, and null differs from "0". */
  lemma OtherTextsByBytes()
    ensures !StrLooseEq("abc", "ABC")
    ensures !LooseEq(Str("abc"), Num(0))
    ensures !LooseEq(Null, Str("0"))
  {
    assert ParseNumeric("abc") == None;
  }

  /** Texts that are not both numeric are loosely equal exactly when they are
      the same bytes; byte-equal texts are always loosely equal. */
  lemma StrLooseEqBytes(s: string, t: string)
    ensures ParseNumeric(s).None? || ParseNumeric(t).None? ==> (StrLooseEq(s, t) <==> s == t)
    ensures s == t ==> StrLooseEq(s, t)
  {
    LooseEqSymmetric(Str(s), Str(t));
  }
}

=== FILE: wrappers.dfy ===
/** The optional-value datatype used wherever the engine's PHP code returns
    `null`/`false` for "nothing found". */
module Wrappers {

  datatype Option<+T> = None | Some(value: T) {

    /** Returns the value encapsulated in Some or a default value if None */
    function GetOr(default: T): T {
      match this
      case Some(v) => v
      case None => default
    }
  }
}
